=== FILE: README.md ===
# Single fluorescent cell detection and hypoxia — a verified model of the bookkeeping

The repository turns time-lapse microscope scans into cell counts and curves.
Its cell detector is library code. What its own scripts do is bookkeeping:
they find files, order and name things, fill dictionaries, and average counts.
This project models that bookkeeping in Dafny and proves what it promises.

The model follows the pipeline, one Dafny module per stage:

- **StackAssembly** and **StackOutput** (`make_stack_temps_en.py`, `make_stack_temps.py`).
  - The scan of a `YYMM/DD/HHMM/<camera>/` tree is modelled over a `Node` tree. Invalid folder names and invalid dates are skipped.
  - The scan fills one record list per (well, position). The loops are methods proved against the functions `ScanHits`/`AddHits`.
  - Python's stable `sorted` is an insertion sort. It is proved sorted, a permutation of its input, and stable.
  - The stacks written are a map from stack file name to page paths.
  - The two scripts differ only in their `Config`.
  - Paths are joined as `os.path.join` joins a relative name: no separator is added after an empty directory or one that already ends in '/'.
- **Detection** (`Detection_algorithm_stack.py`).
  - The image id is a `'_'` token of the basename.
  - Frames are converted to gray: an RGB frame keeps channel 0, then the result is reshaped.
  - The background is estimated once, at frame 0, and reused for every frame.
  - Tables are written under `Image{id}/frame{n}`. The root attributes hold an optional `ccmax`.
  - The HDF5 file is a `ResultStore` class whose methods update its fields. The background estimator and the detector are function parameters.
- **ResultLayout** and **Naming**.
  - ResultLayout is the key scheme shared by writer and readers.
  - Naming proves the naming chain: a stack `"{well}-{pos}-C2_stack.tif"` is detected under the id `"{well}-{pos}-C2"`, and so under the group `"Image{well}-{pos}-C2"`, which is the group the count scripts ask for.
- **CellCounts**, **WellStats** and **PuitsGroups** (`aggregate_puits_cell_counts.py`, `aggregated_puits_cell_counts_plot.py`, `single_puits_cell_counts_plot.py`).
  - They read row counts for frames 0..160.
  - They compute per-frame mean and variance over a well's groups, using the sample rule (n-1, or 0.0 for one count) or the population rule.
  - Frames without counts are dropped. A missing group is a KeyError.
  - They also hold the concentration dict and the per-field loop.
- **GroupAverage** (`plot_two_groups.py`). Missing groups and frames are NaN, and the column mean ignores NaN.
- **DoseCounts** (`cell_count_plot.py`). A missing key counts as 0.
- **DensityExport** (`export_density_with_radiation_to_txt.py`).
  - It computes density mean and spread per frame. A missing group counts as a group without frames. Frames without a density are NaN.
  - It writes a two-column table per well.
- **Curves** (`plot_hypoxie_normoxie_from_txt.py`).
  - `np.loadtxt`'s dimension squeezing, `load_mean_std` and the fail-fast loader with its `expected_len or len(mean)` reference length.
  - The time axis, and the threshold cut of `maybe_truncate`.
- **Overlay** (`cell_remark_withpoint.py`).
  - Each frame is copied into an RGB `array2`. A clamped 3x3 square is painted in place at every detected point.
  - numpy slice semantics are kept exactly. Coordinates are not filtered, so below -2 a negative slice stop counts from the end; see `Overlay.FarNegativeWraps`.

NaN is `Option.None` throughout. Counts are exact integers and statistics are exact reals.

## Model

| member | source | states |
|---|---|---|
| Text.NatToString | make_stack_temps_en.py:91 | `str(n)` is a non-empty string of decimal digits, a single digit exactly when n < 10 |
| Text.ParseFormatted | make_stack_temps_en.py:51-52 | `int(str(n)) == n`: parsing inverts formatting |
| Text.FormatInjective | make_stack_temps_en.py:108 | distinct numbers are formatted differently, so numbered names do not collide |
| Text.TwoDigitsValue | make_stack_temps_en.py:51-52 | `int()` of two digits is ten times the first plus the second |
| Text.Split | Detection_algorithm_stack.py:113 | `split("_")` never returns an empty list and no part contains the separator |
| Text.SplitPartsWithout | Detection_algorithm_stack.py:108-113 | a character absent from the string is absent from every token |
| Text.JoinSplit | Detection_algorithm_stack.py:113 | joining the tokens with the separator gives the string back |
| Text.SplitJoin | Detection_algorithm_stack.py:164 | separator-free parts are recovered by splitting their join |
| Text.PyIndex | Detection_algorithm_stack.py:113 | Python indexing succeeds exactly for -len <= i < len, counting negative indices from the end; otherwise IndexError |
| Text.Basename | Detection_algorithm_stack.py:108 | a basename holds no '/' |
| Text.BasenameOfJoin | Detection_algorithm_stack.py:108 | the basename of `join(dir, name)` is `name` |
| Stats.MeanBounds | aggregate_puits_cell_counts.py:43 | `np.mean` lies between the smallest and the largest value |
| Stats.VarianceNonNegative | aggregate_puits_cell_counts.py:44 | `np.var` is never negative, whatever the accepted ddof |
| Stats.SingleValue | aggregate_puits_cell_counts.py:43-44 | the mean of one value is that value; its population variance is 0 |
| ResultLayout.FrameNameInjective | aggregate_puits_cell_counts.py:20-22 | distinct frame numbers name distinct members "frame{n}" |
| ResultLayout.FrameKeyInjective | Detection_algorithm_stack.py:164 | "Image{id}/frame{n}" determines both the id and n when ids hold no '/' |
| StackAssembly.JoinPath | make_stack_temps_en.py:41 | `os.path.join` of a relative name; its shape is stated by `JoinPathShape` |
| StackAssembly.JoinPathShape | make_stack_temps_en.py:41 | the joined path starts with the directory, ends with the name, has a '/' before the name when the directory is not empty, and never doubles a separator |
| StackAssembly.FindDir | make_stack_temps_en.py:76-78 | the camera folder is found exactly when the listing has a directory of that name, and its own listing is returned |
| StackAssembly.MakeDateTime | make_stack_temps_en.py:81-86 | `datetime(...)` succeeds exactly for a valid calendar date and time (leap years, month lengths, hour < 24, minute < 60) and holds those fields |
| StackAssembly.ParseYearMonth | make_stack_temps_en.py:49-52 | "YYMM" gives year 2000 + YY and month MM |
| StackAssembly.ParseHourMinute | make_stack_temps_en.py:80-83 | "HHMM" gives hour HH and minute MM |
| StackAssembly.ParseYearMonthOfName | make_stack_temps_en.py:49-52 | a month folder named from a year and month reads back as that year and month |
| StackAssembly.ParseHourMinuteOfName | make_stack_temps_en.py:80-83 | a time folder named from an hour and minute reads back as them |
| StackAssembly.InitialRecords | make_stack_temps_en.py:36-37 | every configured (well, position) pair starts with an empty list, and there is no other key |
| StackAssembly.AddHits | make_stack_temps_en.py:95 | appending records never adds or removes a pair |
| StackAssembly.AddHitsAppend | make_stack_temps_en.py:40-95 | appending two batches of findings is appending their concatenation |
| StackAssembly.AddHitsContents | make_stack_temps_en.py:95 | each list ends as its initial contents followed by exactly the findings for its pair, in discovery order |
| StackAssembly.PositionHits | make_stack_temps_en.py:90-95 | spec of the position loop of one well; what it finds is stated by `PositionHitsOk` and `PositionHitsExact` |
| StackAssembly.ScanHits | make_stack_temps_en.py:40-95 | spec of the whole traversal, in discovery order; what it finds is stated by `ScanHitsOk` and `ScanHitsExact` |
| StackAssembly.PositionHitsOk | make_stack_temps_en.py:90-95 | a recorded file is "{well}-{pos}-{channel}.tif" of a configured pair, stamped with its folder's time, and is present in the camera folder (`os.path.isfile`) |
| StackAssembly.CameraHitsOk | make_stack_temps_en.py:89-95 | likewise for every well of a camera folder |
| StackAssembly.TimeHitsOk | make_stack_temps_en.py:69-95 | files are found only under "HHMM" folders holding the camera folder, and each is present there; each carries that day's valid timestamp, with hour HH and minute MM of the folder's name |
| StackAssembly.TimesHitsOk | make_stack_temps_en.py:69-95 | likewise for all time folders of a day: each file's hour and minute are spelled by one of the day's "HHMM" folders |
| StackAssembly.InvalidTimeSkipped | make_stack_temps_en.py:81-86 | an "HHMM" folder with an hour past 23 or a minute past 59 ("2400", "1260") contributes nothing |
| StackAssembly.DayHitsOk | make_stack_temps_en.py:60-66 | files are found only under all-digit day folders, and carry that day |
| StackAssembly.DaysHitsOk | make_stack_temps_en.py:60-95 | likewise for all day folders of a month |
| StackAssembly.MonthHitsOk | make_stack_temps_en.py:40-55 | files are found only under "YYMM" folders, and carry that year and month |
| StackAssembly.ScanHitsOk | make_stack_temps_en.py:40-95 | everything the scan records is a configured pair's own file with a valid timestamp |
| StackAssembly.InvalidMonthSkipped | make_stack_temps_en.py:81-86 | a "YYMM" folder whose MM is not a month contributes nothing |
| StackAssembly.InvalidDaySkipped | make_stack_temps_en.py:81-86 | a day folder past the end of its month contributes nothing |
| StackAssembly.RecordsForHits | make_stack_temps_en.py:95 | every record in a pair's list was found for that pair |
| StackAssembly.PositionHitsExact | make_stack_temps_en.py:90-95 | for one well, a file is recorded if and only if its position is listed and the camera folder holds "{well}-{pos}-{channel}.tif"; the record carries the folder's time and the joined path |
| StackAssembly.CameraHitsExact | make_stack_temps_en.py:89-95 | for a camera folder, a file is recorded if and only if it belongs to a configured well and position and the folder holds it |
| StackAssembly.TimeHitsExact | make_stack_temps_en.py:69-95 | a time folder contributes a record if and only if it is "HHMM", its camera folder holds the pair's file, the day and its name give a valid time, and the path runs through it |
| StackAssembly.TimesHitsExact | make_stack_temps_en.py:69-95 | a day's time folders contribute exactly the records located in one of them |
| StackAssembly.DayHitsExact | make_stack_temps_en.py:60-95 | a day folder contributes a record if and only if it is all digits and one of its time folders holds the file |
| StackAssembly.DaysHitsExact | make_stack_temps_en.py:60-95 | a month's day folders contribute exactly the records located under one of them |
| StackAssembly.MonthHitsExact | make_stack_temps_en.py:40-95 | a month folder contributes a record if and only if it is "YYMM" and one of its day and time folders holds the file |
| StackAssembly.ScanHitsExact | make_stack_temps_en.py:40-95 | the scan records a file if and only if it is present: a configured pair's file in the camera folder of an accepted month, day and time folder, with that folder's valid time and path |
| StackAssembly.RecordsForExact | make_stack_temps_en.py:95 | a pair's list holds a record exactly when the findings hold it for that pair |
| StackAssembly.ScanRecordsExact | make_stack_temps_en.py:11-95 | a pair's list holds exactly the pair's files present under accepted folders ("collect all matching image files") |
| StackAssembly.ScanWell | make_stack_temps_en.py:90-95 | the position loop appends, in order, exactly the files the camera folder holds for one well's configured positions, with the folder's time and the joined path; no other list changes |
| StackAssembly.ScanCamera | make_stack_temps_en.py:89-95 | the well loop appends exactly the camera folder's findings |
| StackAssembly.ScanTimeFolder | make_stack_temps_en.py:69-86 | a time folder is scanned only when it is "HHMM", holds the camera folder and names a valid date and time |
| StackAssembly.ScanTimeFolders | make_stack_temps_en.py:69-95 | the time-folder loop of a day appends exactly the findings of its entries, in listing order |
| StackAssembly.ScanDayFolder | make_stack_temps_en.py:60-66 | a day folder is scanned only when its name is all digits |
| StackAssembly.ScanDayFolders | make_stack_temps_en.py:60-95 | the day-folder loop of a month appends exactly the findings of its entries, in listing order |
| StackAssembly.ScanMonthFolder | make_stack_temps_en.py:40-55 | a month folder is scanned only when it is a directory named by four digits |
| StackAssembly.CollectRecords | make_stack_temps.py:22-69 | `file_records` has exactly the configured pairs, each holding its findings in discovery order, and a record is in a pair's list if and only if that pair's file is present under accepted month, day and time folders |
| StackOutput.TimeLeTotalOrder | make_stack_temps_en.py:104 | timestamps are totally ordered, as `datetime` comparison is |
| StackOutput.InsertByTime | make_stack_temps_en.py:104 | insertion adds one record |
| StackOutput.SortByTime | make_stack_temps_en.py:104 | the sort returns as many records as it was given |
| StackOutput.InsertPermutes | make_stack_temps_en.py:104 | insertion adds exactly the inserted record to the multiset |
| StackOutput.SortPermutes | make_stack_temps_en.py:104 | the sorted list is a permutation of the records |
| StackOutput.InsertSorted | make_stack_temps_en.py:104 | inserting into a time-ordered list keeps it time-ordered |
| StackOutput.SortedSortByTime | make_stack_temps_en.py:104 | the sorted list is in non-decreasing timestamp order |
| StackOutput.InsertAtTime | make_stack_temps_en.py:104 | insertion puts a record before every record of equal time already present |
| StackOutput.SortByTimeStable | make_stack_temps.py:77 | records with equal timestamps keep their discovery order (stability) |
| StackOutput.Paths | make_stack_temps_en.py:106 | one path per record, in the records' order |
| StackOutput.KeyOrder | make_stack_temps_en.py:98 | the dict visits exactly the configured pairs |
| StackOutput.NumberedNameInjective | make_stack_temps_en.py:108 | "{w}-{n}-{rest}" determines w and n whatever w holds, because the digits of n contain no '-' |
| StackOutput.StackNameInjective | make_stack_temps.py:81 | distinct pairs are written to distinct stack files |
| StackOutput.PagesWrittenStep | make_stack_temps_en.py:108-116 | writing one more stack leaves every stack already written as it was |
| StackOutput.WriteStacks | make_stack_temps_en.py:98-116 | a stack file exists exactly for each pair with records, and holds one page per record in stable timestamp order |
| StackOutput.AssembleStacks | make_stack_temps.py:72-90 | end to end, one stack per pair found, named after the pair, holding its files in stable timestamp order |
| StackOutput.StackContents | make_stack_temps_en.py:98-116 | every page is the pair's own input file with a valid timestamp, pages are time-ordered, one per record |
| Detection.RootAttrs | Detection_algorithm_stack.py:96-101 | the root holds channel, sigma, seuil and ccmin with the configured values, and ccmax only when a maximum is set |
| Detection.CcMaxOptional | Detection_algorithm_stack.py:100-101 | `ccmax` is stored exactly when the maximum blob size is not None |
| Detection.ImageId | Detection_algorithm_stack.py:108-113 | the id exists exactly when the token index is in range; it holds no '/' and no '_' |
| Detection.ToGray | Detection_algorithm_stack.py:136-143 | reshaping to (Ny, Nx) succeeds exactly when the plane has Ny x Nx values |
| Detection.RgbKeepsChannelZero | Detection_algorithm_stack.py:136-140 | pixel (y, x) of an RGB frame is its channel-0 value at [y, x, 0] |
| Detection.OtherFrameReshaped | Detection_algorithm_stack.py:142-143 | any other frame is reshaped row-major as it is |
| Detection.ConvertedPrefix | Detection_algorithm_stack.py:134-143 | the frames processed are the converted frames in order, up to the first that cannot be reshaped |
| Detection.ResultStore.constructor | Detection_algorithm_stack.py:93 | the file starts empty |
| Detection.ResultStore.SetAttr | Detection_algorithm_stack.py:96-101 | sets one root attribute and nothing else |
| Detection.ResultStore.CreateGroup | Detection_algorithm_stack.py:147-151 | creates the group exactly when the key is new; otherwise nothing changes |
| Detection.ResultStore.PutTable | Detection_algorithm_stack.py:164-165 | writes or replaces one table and logs its key; nothing else changes |
| Detection.FrameTables | Detection_algorithm_stack.py:154-158 | every frame's table is detected against the one background |
| Detection.ImageStep | Detection_algorithm_stack.py:106-165 | spec of one stack's frame loop; proved by `ImageStepWrites`, `ImageStepKeeps` and `StepNeedsNewId` |
| Detection.RunSpec | Detection_algorithm_stack.py:106-165 | spec of the loop over stacks, stopping at the first failure; proved by `RunStops`, `RunAttrs`, `RunCompleted` and `RunDistinctIds` |
| Detection.ProcessImage | Detection_algorithm_stack.py:134-165 | the frame loop estimates the background at frame 0 only, stores it, and writes frame tables in order, as `ImageStep` describes |
| Detection.WriteFramesHit | Detection_algorithm_stack.py:164-165 | frame n's table is found under "Image{id}/frame{n}" |
| Detection.WriteFramesMiss | Detection_algorithm_stack.py:164-165 | keys outside a stack's frame keys are untouched |
| Detection.RunStops | Detection_algorithm_stack.py:106-165 | once the run stops, later stacks change nothing |
| Detection.Run | Detection_algorithm_stack.py:84-165 | nothing is created unless the answer is "y" (when confirming); otherwise the new file holds what `RunSpec` gives |
| Detection.OpenStore | Detection_algorithm_stack.py:93-103 | the new file holds the root attributes only |
| Detection.RunAttrs | Detection_algorithm_stack.py:96-101 | the root attributes are written once and never changed by the stacks |
| Detection.RunPrefixCompleted | Detection_algorithm_stack.py:106 | a completed run completed every prefix |
| Detection.RunLast | Detection_algorithm_stack.py:106-165 | a completed run processed its last stack in full under a valid id |
| Detection.ImageStepWrites | Detection_algorithm_stack.py:145-165 | a stack processed in full stores its frame-0 background and every frame's table |
| Detection.ImageStepKeeps | Detection_algorithm_stack.py:145-165 | processing a stack leaves other ids' backgrounds and tables as they were |
| Detection.RunCompleted | Detection_algorithm_stack.py:134-165 | after a completed run, every frame n of every stack is the detection of that frame against that stack's frame-0 background, under "Image{id}/frame{n}" |
| Detection.RunDistinctIds | Detection_algorithm_stack.py:147-148 | in a completed run, two stacks with frames never share an id |
| Detection.StepNeedsNewId | Detection_algorithm_stack.py:147-148 | a stack with frames completes only under an id whose background group is new |
| Naming.StackIdIsField | Detection_algorithm_stack.py:113 | the id of "{well}-{pos}-{channel}_stack.tif" is "{well}-{pos}-{channel}", and its group is the field group |
| Naming.ConfiguredStacksAreFieldGroups | make_stack_temps_en.py:108 | with either configuration, the stack of every well and position is read back as group "Image{well}-{pos}-C2" |
| Naming.AggregateGroupsAreStacks | aggregated_puits_cell_counts_plot.py:15-22 | every group the aggregate scripts ask for is the group of a stack the assembly writes |
| CellCounts.CountsBelowEntries | aggregate_puits_cell_counts.py:19-25 | a frame has a count exactly when it is at most 160 and "frame{n}" exists; the count is that table's row count |
| CellCounts.ReadFrameCounts | aggregate_puits_cell_counts.py:17-25 | the frame loop builds exactly those counts |
| CellCounts.ReadAllCellCounts | aggregate_puits_cell_counts.py:6-29 | one entry per top-level group of the file, each its frame counts |
| WellStats.UnknownIndex | aggregate_puits_cell_counts.py:39-40 | the first group absent from the counts, the one whose lookup raises KeyError |
| WellStats.Gathered | aggregate_puits_cell_counts.py:38-41 | a frame's counts are empty exactly when no group holds it |
| WellStats.GatheredFromGroups | aggregate_puits_cell_counts.py:38-41 | every gathered count is that frame's count in one of the groups |
| WellStats.FrameStat | aggregate_puits_cell_counts.py:42-46 | the variance is never negative; a single count is its own mean with variance 0.0 |
| WellStats.FrameStatBounds | aggregate_puits_cell_counts.py:43 | each mean lies between the smallest and the largest count of its frame |
| WellStats.CountedFrames | aggregate_puits_cell_counts.py:37 | every kept frame is at most 160 |
| WellStats.CountedFramesIncreasing | aggregate_puits_cell_counts.py:37 | frames are kept in increasing order |
| WellStats.CountedFramesExactly | aggregate_puits_cell_counts.py:42 | a frame is kept exactly when some group holds it; others are dropped, not filled |
| WellStats.SeriesAt | aggregate_puits_cell_counts.py:42-46 | mean and variance lists have equal length, one entry per kept frame, entry i describing the i-th kept frame |
| WellStats.SeriesBounds | aggregate_puits_cell_counts.py:43-44 | each mean lies between its frame's extreme counts and each variance is non-negative |
| WellStats.SingleGroupSeries | single_puits_cell_counts_plot.py:50-56 | with a single group, every frame it holds is kept with its count as mean and variance 0 |
| WellStats.GatherCounts | aggregate_puits_cell_counts.py:38-41 | the group loop gathers the counts, or raises KeyError at the first unknown group |
| WellStats.WellSeriesOf | aggregate_puits_cell_counts.py:35-46 | the frame loop builds the well's series, or fails with the KeyError |
| WellStats.UnknownWell | aggregate_puits_cell_counts.py:34-41 | the first well with an unknown group |
| WellStats.StatsOf | aggregate_puits_cell_counts.py:31-51 | spec of the stats dict when every group is known; proved by `StatsOfKeys` and `StatsOfEntry` |
| WellStats.StatsOfKeys | aggregate_puits_cell_counts.py:47-50 | the result has exactly the well names as keys |
| WellStats.StatsOfEntry | aggregate_puits_cell_counts.py:47-50 | each well maps to the series of its own groups |
| WellStats.CalculatePuitsStats | aggregate_puits_cell_counts.py:31-51 | `calculate_puits_stats` (sample rule here, population rule in single_puits_cell_counts_plot.py): the stats dict, or the KeyError of the first unknown group in well order |
| PuitsGroups.FieldGroupInjective | aggregated_puits_cell_counts_plot.py:16-21 | distinct (well, field) pairs have distinct group names |
| PuitsGroups.WellGroupsDistinct | aggregated_puits_cell_counts_plot.py:9-21 | a well's nine groups are distinct, so no field counts twice |
| PuitsGroups.SingleFieldGroups | single_puits_cell_counts_plot.py:92-95 | each plotted well gets exactly one group |
| PuitsGroups.SingleFieldStats | single_puits_cell_counts_plot.py:92-96 | for a field, each well's series lists exactly the frames its group holds, each count as mean with variance 0 |
| PuitsGroups.Zip | aggregated_puits_cell_counts_plot.py:25 | spec of the dict built from `zip`, which stops at the shorter input; proved by `ZipEntries` |
| PuitsGroups.ZipEntries | aggregated_puits_cell_counts_plot.py:25 | zipping distinct names pairs each name with the value at its position, and there is no other key |
| PuitsGroups.PlotConcentrations | aggregated_puits_cell_counts_plot.py:24-25 | A2..C3 are paired with 0.11..3.52 in insertion order, each value double the one before |
| PuitsGroups.OutputPathInjective | single_puits_cell_counts_plot.py:22 | distinct fields are plotted to distinct files |
| PuitsGroups.SingleFieldPlots | single_puits_cell_counts_plot.py:87-101 | one plot per field in order, from the population statistics of that field's groups; the first KeyError ends the loop |
| DoseCounts.DoseCount | cell_count_plot.py:18-23 | the count is the table's row count, and 0 for a missing key |
| DoseCounts.DoseSeries | cell_count_plot.py:17-24 | exactly `num_frames` counts, in frame order |
| DoseCounts.CellCountsOverTime | cell_count_plot.py:13-27 | one series per dose 0Gy, 10Gy, 15Gy; time point i is i x interval |
| DoseCounts.DoseKeyIsNoFrameKey | cell_count_plot.py:18 | the keys read here can never be written by the detection driver with id index 0 |
| GroupAverage.GroupRow | plot_two_groups.py:10-17 | each group contributes exactly 161 entries |
| GroupAverage.RowMatchesCounts | plot_two_groups.py:13-17 | an entry has a value exactly where the group and frame exist, and it is the row count; a missing group is all NaN |
| GroupAverage.Rows | plot_two_groups.py:9-18 | one row per requested group, in the order given |
| GroupAverage.Values | plot_two_groups.py:20 | the values of a column are empty exactly when it is all NaN |
| GroupAverage.NanMean | plot_two_groups.py:20 | the NaN-ignoring mean is NaN exactly for an all-NaN column |
| GroupAverage.NanMeanBounds | plot_two_groups.py:20 | the NaN-ignoring mean lies between the extreme values present |
| GroupAverage.ReadGroupRow | plot_two_groups.py:10-17 | the frame loop builds the group's row |
| GroupAverage.ReadRows | plot_two_groups.py:8-18 | the group loop builds `all_counts` |
| GroupAverage.ColumnMeans | plot_two_groups.py:20 | one NaN-ignoring mean per frame 0..160, each of that frame's column |
| GroupAverage.ReadGroupAverageCounts | plot_two_groups.py:5-21 | 161 column means ignoring NaN; a single NaN for no group |
| GroupAverage.ColumnValuesAreGathered | plot_two_groups.py:13-20 | when all groups exist, the values of column n are the counts the aggregate scripts gather for frame n |
| GroupAverage.AverageMatchesAggregate | plot_two_groups.py:20 | the average is NaN exactly where the aggregate scripts drop the frame, and otherwise their mean |
| DensityExport.NoAreaNoDensity | export_density_with_radiation_to_txt.py:56-57 | without a positive area no frame has a density |
| DensityExport.Present | export_density_with_radiation_to_txt.py:53 | the groups of the list that the file holds |
| DensityExport.Densities | export_density_with_radiation_to_txt.py:51-57 | spec of one frame's density list over the groups; proved by `DensitiesOfPresent` and `NoAreaNoDensity` |
| DensityExport.DensitiesOfPresent | export_density_with_radiation_to_txt.py:52-57 | a missing group is skipped without error; each density is a present group's count over the area |
| DensityExport.FrameDensityStat | export_density_with_radiation_to_txt.py:58-64 | NaN for both exactly when there is no density; else the mean lies between the extreme densities and the spread is non-negative |
| DensityExport.FrameDensities | export_density_with_radiation_to_txt.py:51-57 | the group loop builds the frame's densities |
| DensityExport.ComputeMeanStdDensity | export_density_with_radiation_to_txt.py:31-65 | both arrays have max_frame + 1 entries, entry f being frame f's statistics |
| DensityExport.NoAreaAllNaN | export_density_with_radiation_to_txt.py:56-64 | without a usable area every frame is NaN in both arrays |
| DensityExport.ColumnStack | export_density_with_radiation_to_txt.py:68-70 | stacking succeeds exactly for equal lengths and gives one two-value row per frame |
| DensityExport.WellTablePathInjective | export_density_with_radiation_to_txt.py:110-113 | distinct wells are written to distinct files |
| DensityExport.ExportWells | export_density_with_radiation_to_txt.py:102-114 | one table per well of the order, numbered from 1, each with 161 rows of that well's statistics |
| Curves.Loadtxt | plot_hypoxie_normoxie_from_txt.py:54 | a ragged file fails, and anything loaded is well shaped |
| Curves.LoadMeanStd | plot_hypoxie_normoxie_from_txt.py:52-59 | mean and std have equal lengths; a flat array is one row; a scalar or empty array fails |
| Curves.OneColumnReadAsOneFrame | plot_hypoxie_normoxie_from_txt.py:54-58 | a one-column table of two frames is read as a single frame |
| Curves.ExportReadsBack | plot_hypoxie_normoxie_from_txt.py:52-59 | what the density export stacks is read back as exactly its mean and std columns |
| Curves.ErrorStands | plot_hypoxie_normoxie_from_txt.py:66-74 | after the first error no later well is read |
| Curves.LoadWell | plot_hypoxie_normoxie_from_txt.py:67-70 | spec of reading one well: FileNotFoundError for a missing path, otherwise `load_mean_std`; proved by `ConditionLoads` |
| Curves.LoadConditionSeries | plot_hypoxie_normoxie_from_txt.py:62-75 | the loader returns what the spec function gives, including the first error in well order |
| Curves.ExpectedOfConsistent | plot_hypoxie_normoxie_from_txt.py:72 | the reference length is 0 only if every length is 0, and otherwise every non-zero length equals it |
| Curves.ConsistentSnoc | plot_hypoxie_normoxie_from_txt.py:72-74 | the length check on a new well passes exactly when the lengths stay consistent |
| Curves.ConditionLoads | plot_hypoxie_normoxie_from_txt.py:62-75 | a condition loads exactly when every file exists and reads and each length matches the first non-zero one |
| Curves.ConditionData | plot_hypoxie_normoxie_from_txt.py:71 | a loaded condition holds exactly the wells, each with its own file's series |
| Curves.BuildTimeAxis | plot_hypoxie_normoxie_from_txt.py:78-79 | n points, point i at i x 1.5 h |
| Curves.TimeAxisSteps | plot_hypoxie_normoxie_from_txt.py:78-79 | the axis starts at 0 and rises by 1.5 per point |
| Curves.FirstHit | plot_hypoxie_normoxie_from_txt.py:86-89 | the first index whose value reaches the threshold, all earlier ones below it or NaN |
| Curves.MaybeTruncate | plot_hypoxie_normoxie_from_txt.py:82-90 | both outputs are prefixes of the inputs, and y is shortened only when the cut is on and then ends at a value reaching the threshold; see `TruncateKeeps` for where the cut falls |
| Curves.TruncateKeeps | plot_hypoxie_normoxie_from_txt.py:82-90 | outputs are prefixes; no cut or no hit returns both unchanged; otherwise they end at the first hit, inclusive |
| Curves.TruncateEqualLengths | plot_hypoxie_normoxie_from_txt.py:89-90 | an axis and a curve of equal lengths stay equal after the cut |
| Curves.TruncateIdempotent | plot_hypoxie_normoxie_from_txt.py:82-90 | cutting twice gives the same as cutting once |
| Curves.MismatchedConditionCurve | plot_hypoxie_normoxie_from_txt.py:198-210 | a normoxia curve longer than the hypoxia axis reaches the plot with x and y of different lengths |
| Curves.SeriesCurve | plot_hypoxie_normoxie_from_txt.py:78-90 | a curve drawn against its own axis has equal-length x and y, the axis being the 1.5 h steps up to the cut |
| Overlay.Round | cell_remark_withpoint.py:62 | rounding goes to the nearest integer, a tie to the even one |
| Overlay.Coords | cell_remark_withpoint.py:62 | one rounded (x, y) per table row, column 0 as x and column 1 as y |
| Overlay.SliceIndex | cell_remark_withpoint.py:78 | a slice bound falls within the axis, and unchanged when already inside it |
| Overlay.SpanIsNeighbourhood | cell_remark_withpoint.py:73-78 | from -2 on, the clamped slice is exactly the in-axis indices within one of the point |
| Overlay.SquareIsNeighbourhood | cell_remark_withpoint.py:73-78 | the painted square is the in-image part of the 3x3 square around the point |
| Overlay.FarNegativeWraps | cell_remark_withpoint.py:63-78 | with the bounds filter commented out, a point at -3 paints rows far from it |
| Overlay.AtMostNine | cell_remark_withpoint.py:73-78 | a point paints at most nine pixels |
| Overlay.MarkedBySomePoint | cell_remark_withpoint.py:70-78 | a pixel is marked exactly when it lies in some point's square |
| Overlay.PointPainted | cell_remark_withpoint.py:70-78 | the pixel of an in-image point is painted |
| Overlay.FarPixelUnmarked | cell_remark_withpoint.py:70-78 | a pixel further than one from every point keeps its gray value |
| Overlay.PaintSquare | cell_remark_withpoint.py:73-78 | the clamped square is set to [300, 0, 0] and every other pixel is unchanged |
| Overlay.AnnotateFrame | cell_remark_withpoint.py:53-78 | a pixel is red exactly when some point's square covers it, and otherwise its gray value in all three channels |
| Overlay.AnnotateStack | cell_remark_withpoint.py:41-81 | one new annotated frame per input frame, in order, frame i marked with the points of "Image{stack}/frame{i}"; a missing key marks nothing |

## Left out

- Files, HDF5 and TIFF input and output are values.
  - The scanned tree is a `Node` tree.
  - The HDF5 file read by the count scripts is a map from group to member to table; a table's row count stands for `block0_values.shape[0]`.
  - Stacks are maps from file name to page paths.
  - A text table is its non-blank lines, already parsed into numbers or NaN.
  - Bio-Formats/javabridge reading, tifffile, h5py/pandas encodings, `np.savetxt` formatting and printed messages are not modelled. `glob` and `os.listdir` order is the order of the given sequences.
- Background estimation, the SNR and blob detection (`sep`, `Find_Local_Maxima`) are foreign code. They are the function parameters `estimate` and `detect`. The commented-out duplicate filter is not part of this model.
- The interactive prompt is the `answer` parameter. Nothing beyond its exit-before-run effect is modelled.
- Matplotlib plotting is left out: figures, colours, labels, the `fill_between` band (which takes a square root) and the x positions of the count plots.
- The radiation model script and the 0725 conversion scripts are not part of this model.
- Arithmetic is exact: `real` stands for floats, so the field area, densities, the time axis and means carry no rounding.
- DensityExport.ComputeMeanStdDensity: the second array holds the population variance; the square root `np.std` takes is not modelled.
- DensityExport.FrameDensityStat: the spread is the variance, not its square root.
- DensityExport.ComputeMeanStdDensity: `max_frame` is a natural number; a negative value, for which the source writes empty arrays, is not modelled.
- Curves.ExportReadsBack: it states the round trip over exact values; the six-decimal text format of `np.savetxt` is not modelled.
- StackAssembly.ParseYearMonth: only ASCII digits are digits. The Unicode digits `str.isdigit` also accepts are not modelled, so the `int()` ValueError branch that skips a month folder with a message cannot arise.
- StackOutput.AssembleStacks: every page reads and writes; the per-pair `except` around tifffile is not modelled.
- Detection.Run: errors other than a missing id token, a frame that cannot be reshaped and an existing background group (I/O failures, bad metadata) are not modelled. A stop keeps what was written before it.
- Overlay.AnnotateStack: pixel values are unbounded integers. For an 8-bit image, numpy before 2.0 wraps the marker value 300 to 44 with a warning, and numpy 2 raises OverflowError at the assignment. Neither outcome is modelled.
- GroupAverage.ReadGroupAverageCounts: with no group at all numpy averages an empty array to a single NaN, which is the one-element `[None]` here; numpy's warning is not modelled.

## Findings

| source | as written | input that shows it | evidently intended | confidence | as-written member | corrected member |
|---|---|---|---|---|---|---|
| plot_hypoxie_normoxie_from_txt.py:198-210 | the time axis is built from the length of the first hypoxia well and paired with every normoxia series; the normoxia lengths are never compared with it | hypoxia wells of 2 frames, normoxia wells of 3 frames that never reach 0.0015: x has 2 points, y has 3, and the plot call refuses them | each curve is drawn against an axis of its own length (or the two conditions are checked to agree) | medium, not executed | Curves.MismatchedConditionCurve | Curves.SeriesCurve |

=== FILE: counts.dfy ===
/** How the count scripts read the detection store back: for every top-level
    group, the number of rows of each table "frame{n}" with n in 0..160. The
    same reader is copied into the aggregate, aggregated-plot and
    single-puits scripts and, for one group at a time, into the density
    export. */
module CellCounts {
  import opened ResultLayout

  /** The last frame number the readers look for. */
  const LastFrame: nat := 160

  /** The HDF5 file as the readers see it: group name, then member name. */
  type StoreFile = map<string, map<string, Table>>

  /** Frame number to cell count, for one group. */
  type FrameCounts = map<nat, nat>

  /** The counts of the frames numbered below `n` that the group holds. */
  function CountsBelow(members: map<string, Table>, n: nat): FrameCounts {
    if n == 0 then map[]
    else
      var below := CountsBelow(members, n - 1);
      var name := FrameName(n - 1);
      if name in members then below[n - 1 := |members[name].rows|] else below
  }

  /** A frame has an entry exactly when it is below `n` and its table
      exists, and the entry is the table's row count. */
  lemma {:induction false} CountsBelowEntries(members: map<string, Table>, n: nat)
    ensures forall f: nat :: f in CountsBelow(members, n) <==> f < n && FrameName(f) in members
    ensures forall f :: f in CountsBelow(members, n) ==> CountsBelow(members, n)[f] == |members[FrameName(f)].rows|
  {
    if n > 0 {
      CountsBelowEntries(members, n - 1);
    }
  }

  /** The frame loop of `read_all_cell_counts` for one group. */
  method ReadFrameCounts(members: map<string, Table>) returns (counts: FrameCounts)
    ensures counts == CountsBelow(members, LastFrame + 1)
  {
    counts := map[];
    for n := 0 to LastFrame + 1
      invariant counts == CountsBelow(members, n)
    {
      var name := FrameName(n);
      if name in members {
        counts := counts[n := |members[name].rows|];
      }
    }
  }

  /** `read_all_cell_counts`: one entry per top-level group of the file. */
  method ReadAllCellCounts(file: StoreFile) returns (cellCounts: map<string, FrameCounts>)
    ensures cellCounts.Keys == file.Keys
    ensures forall g :: g in cellCounts ==> cellCounts[g] == CountsBelow(file[g], LastFrame + 1)
  {
    cellCounts := map[];
    var remaining := file.Keys;
    while remaining != {}
      invariant remaining <= file.Keys
      invariant cellCounts.Keys == file.Keys - remaining
      invariant forall g :: g in cellCounts ==> cellCounts[g] == CountsBelow(file[g], LastFrame + 1)
      decreases remaining
    {
      var g :| g in remaining;
      var counts := ReadFrameCounts(file[g]);
      cellCounts := cellCounts[g := counts];
      remaining := remaining - {g};
    }
  }
}

=== FILE: curves.dfy ===
/** The hypoxia/normoxia plotting script: reading the two-column tables
    (mean, std) back, checking that the wells of a condition have series of
    one length, building the time axis and cutting each curve at the first
    point that reaches the density threshold. NaN is `None`. */
module Curves {
  import opened Wrappers
  import opened Text
  import DensityExport
  import StackAssembly

  // ------------------------------------------------------- reading a table

  /** What `np.loadtxt` returns: it squeezes dimensions of length 1, so a
      one-row or one-column file gives a flat array and a one-value file a
      zero-dimensional one. */
  datatype Loaded =
    | Scalar(value: Option<real>)
    | Flat(values: seq<Option<real>>)
    | Grid(rows: seq<seq<Option<real>>>)

  /** A two-dimensional array has rows of one width, at least one column. */
  predicate Shaped(a: Loaded) {
    a.Grid? ==> |a.rows| > 0 && |a.rows[0]| > 0 && forall i :: 0 <= i < |a.rows| ==> |a.rows[i]| == |a.rows[0]|
  }

  function Column(rows: seq<seq<Option<real>>>, c: nat): (col: seq<Option<real>>)
    requires forall i :: 0 <= i < |rows| ==> c < |rows[i]|
    ensures |col| == |rows|
    ensures forall i :: 0 <= i < |rows| ==> col[i] == rows[i][c]
  {
    seq(|rows|, i requires 0 <= i < |rows| => rows[i][c])
  }

  /** `np.loadtxt` of a file given by its non-blank lines; lines of different
      widths are its ValueError. */
  function Loadtxt(lines: seq<seq<Option<real>>>): (r: Result<Loaded, string>)
    ensures r.Ok? ==> Shaped(r.value)
    ensures r.Err? <==> exists i :: 0 <= i < |lines| && |lines[i]| != |lines[0]|
  {
    if lines == [] then Ok(Flat([]))
    else if exists i :: 0 <= i < |lines| && |lines[i]| != |lines[0]| then Err("the number of columns changed")
    else if |lines[0]| == 0 then Ok(Flat([]))
    else if |lines| == 1 && |lines[0]| == 1 then Ok(Scalar(lines[0][0]))
    else if |lines| == 1 then Ok(Flat(lines[0]))
    else if |lines[0]| == 1 then Ok(Flat(Column(lines, 0)))
    else Ok(Grid(lines))
  }

  /** One well's curve: mean and std per frame. */
  datatype Series = Series(mean: seq<Option<real>>, std: seq<Option<real>>)

  /** `load_mean_std` after `np.loadtxt`: a flat array is one row; column 0 is
      the mean; column 1 the std, or NaN throughout when there is no second
      column. Indexing a zero-dimensional or empty array is an IndexError. */
  function LoadMeanStd(a: Loaded): (r: Result<Series, string>)
    requires Shaped(a)
    ensures r.Ok? ==> |r.value.mean| == |r.value.std|
    ensures r.Ok? ==> a.Flat? ==> |r.value.mean| == 1
    ensures r.Err? <==> a.Scalar? || (a.Flat? && a.values == [])
  {
    match a
    case Scalar(_) => Err("too many indices for array")
    case Flat(vs) =>
      if vs == [] then Err("index 0 is out of bounds for axis 1 with size 0")
      else Ok(Series([vs[0]], if |vs| > 1 then [vs[1]] else [None]))
    case Grid(rows) =>
      var mean := Column(rows, 0);
      Ok(Series(mean, if |rows[0]| > 1 then Column(rows, 1) else seq(|mean|, _ => None)))
  }

  /** A one-column table of several frames is read as a single frame: the
      squeeze leaves a flat array, which is taken as one row. */
  lemma OneColumnReadAsOneFrame(a: Option<real>, b: Option<real>)
    ensures Loadtxt([[a], [b]]) == Ok(Flat([a, b]))
    ensures LoadMeanStd(Flat([a, b])) == Ok(Series([a], [b]))
  {
    assert Column([[a], [b]], 0) == [a, b];
  }

  /** What the density export writes is read back unchanged: a table stacked
      from a mean and a std column of one or more frames loads as exactly
      those two columns, including a table of a single frame. */
  lemma {:induction false} ExportReadsBack(means: seq<Option<real>>, stds: seq<Option<real>>)
    requires |means| == |stds| > 0
    ensures DensityExport.ColumnStack(means, stds).Ok?
    ensures Loadtxt(DensityExport.ColumnStack(means, stds).value).Ok?
    ensures LoadMeanStd(Loadtxt(DensityExport.ColumnStack(means, stds).value).value) == Ok(Series(means, stds))
  {
    var rows := DensityExport.ColumnStack(means, stds).value;
    assert forall i :: 0 <= i < |rows| ==> rows[i] == [means[i], stds[i]];
    if |rows| == 1 {
      assert means == [means[0]] && stds == [stds[0]];
    } else {
      assert Loadtxt(rows) == Ok(Grid(rows));
      assert Column(rows, 0) == means;
      assert Column(rows, 1) == stds;
    }
  }

  // ------------------------------------------------------- one condition

  datatype LoadError =
    | FileNotFound(path: string)
    | LoadFailed(path: string, reason: string)
    | LengthMismatch(well: nat, length: nat, expected: nat)

  /** `base_dir / FILE_TEMPLATE.format(idx=idx)`; the path operator, like
      `os.path.join`, adds no second separator after a trailing '/'. */
  function WellFile(baseDir: string, idx: nat): string {
    StackAssembly.JoinPath(baseDir, "0_Gy_Well" + NatToString(idx) + "_3exps.txt")
  }

  /** Reading one well's file; `files` maps each existing path to its lines. */
  function LoadWell(files: map<string, seq<seq<Option<real>>>>, baseDir: string, idx: nat): Result<Series, LoadError> {
    var path := WellFile(baseDir, idx);
    if path !in files then Err(FileNotFound(path))
    else
      var a := Loadtxt(files[path]);
      if a.Err? then Err(LoadFailed(path, a.error))
      else
        var s := LoadMeanStd(a.value);
        if s.Err? then Err(LoadFailed(path, s.error)) else Ok(s.value)
  }

  /** `expected_len` after the wells of `lengths`: `expected_len or len(mean)`
      keeps the first length that is not 0 (0 and None are both false). */
  function Expected(lengths: seq<nat>): nat {
    if lengths == [] then 0
    else
      var e := Expected(lengths[..|lengths| - 1]);
      if e == 0 then lengths[|lengths| - 1] else e
  }

  /** What the loop of `load_condition_series` has built: the dict, and the
      lengths seen so far. */
  datatype Loading = Loading(data: map<nat, Series>, lengths: seq<nat>)

  /** The loop of `load_condition_series` over the wells, as a function:
      the first failure in well order is the error raised. */
  function ConditionSpec(files: map<string, seq<seq<Option<real>>>>, baseDir: string, wells: seq<nat>): Result<Loading, LoadError> {
    if wells == [] then Ok(Loading(map[], []))
    else ConditionStep(files, baseDir, ConditionSpec(files, baseDir, wells[..|wells| - 1]), wells[|wells| - 1])
  }

  /** One turn of the loop, on well `idx`. */
  function ConditionStep(files: map<string, seq<seq<Option<real>>>>, baseDir: string, before: Result<Loading, LoadError>, idx: nat)
    : Result<Loading, LoadError>
  {
    if before.Err? then before
    else
      var s := LoadWell(files, baseDir, idx);
      if s.Err? then Err(s.error)
      else
        var lengths := before.value.lengths + [|s.value.mean|];
        var e := Expected(lengths);
        if |s.value.mean| != e then Err(LengthMismatch(idx, |s.value.mean|, e))
        else Ok(Loading(before.value.data[idx := s.value], lengths))
  }

  lemma ConditionSnoc(files: map<string, seq<seq<Option<real>>>>, baseDir: string, wells: seq<nat>, i: nat)
    requires i < |wells|
    ensures ConditionSpec(files, baseDir, wells[..i + 1])
            == ConditionStep(files, baseDir, ConditionSpec(files, baseDir, wells[..i]), wells[i])
  {
    assert wells[..i + 1][..i] == wells[..i];
  }

  /** Once a well fails, the wells after it are never read: the error stands. */
  lemma {:induction false} ErrorStands(files: map<string, seq<seq<Option<real>>>>, baseDir: string, wells: seq<nat>, n: nat)
    requires n <= |wells|
    requires ConditionSpec(files, baseDir, wells[..n]).Err?
    ensures ConditionSpec(files, baseDir, wells) == ConditionSpec(files, baseDir, wells[..n])
    decreases |wells| - n
  {
    if n < |wells| {
      assert wells[..n + 1][..n] == wells[..n];
      ErrorStands(files, baseDir, wells, n + 1);
    } else {
      assert wells[..n] == wells;
    }
  }

  /** `load_condition_series(base_dir, wells)`. */
  method LoadConditionSeries(files: map<string, seq<seq<Option<real>>>>, baseDir: string, wells: seq<nat>)
    returns (r: Result<map<nat, Series>, LoadError>)
    ensures r.Err? <==> ConditionSpec(files, baseDir, wells).Err?
    ensures r.Err? ==> r.error == ConditionSpec(files, baseDir, wells).error
    ensures r.Ok? ==> r.value == ConditionSpec(files, baseDir, wells).value.data
  {
    var data := map[];
    var expectedLen := 0;
    ghost var lengths: seq<nat> := [];
    for i := 0 to |wells|
      invariant ConditionSpec(files, baseDir, wells[..i]) == Ok(Loading(data, lengths))
      invariant expectedLen == Expected(lengths)
    {
      ConditionSnoc(files, baseDir, wells, i);
      var idx := wells[i];
      var path := WellFile(baseDir, idx);
      if path !in files {
        ErrorStands(files, baseDir, wells, i + 1);
        return Err(FileNotFound(path));
      }
      var loaded := Loadtxt(files[path]);
      if loaded.Err? {
        ErrorStands(files, baseDir, wells, i + 1);
        return Err(LoadFailed(path, loaded.error));
      }
      var series := LoadMeanStd(loaded.value);
      if series.Err? {
        ErrorStands(files, baseDir, wells, i + 1);
        return Err(LoadFailed(path, series.error));
      }
      data := data[idx := series.value];
      lengths := lengths + [|series.value.mean|];
      if expectedLen == 0 {
        expectedLen := |series.value.mean|;
      }
      if |series.value.mean| != expectedLen {
        ErrorStands(files, baseDir, wells, i + 1);
        return Err(LengthMismatch(idx, |series.value.mean|, expectedLen));
      }
    }
    assert wells[..|wells|] == wells;
    return Ok(data);
  }

  predicate AllLoad(files: map<string, seq<seq<Option<real>>>>, baseDir: string, wells: seq<nat>) {
    forall i :: 0 <= i < |wells| ==> LoadWell(files, baseDir, wells[i]).Ok?
  }

  /** The mean length of every well. */
  function Lengths(files: map<string, seq<seq<Option<real>>>>, baseDir: string, wells: seq<nat>): (ls: seq<nat>)
    requires AllLoad(files, baseDir, wells)
    ensures |ls| == |wells|
    ensures forall i :: 0 <= i < |wells| ==> ls[i] == |LoadWell(files, baseDir, wells[i]).value.mean|
  {
    seq(|wells|, i requires 0 <= i < |wells| => |LoadWell(files, baseDir, wells[i]).value.mean|)
  }

  /** Every well after one of non-zero length has that same length. A series
      of length 0 fixes nothing. */
  predicate Consistent(lengths: seq<nat>) {
    forall i, j :: 0 <= i < j < |lengths| && lengths[i] != 0 ==> lengths[j] == lengths[i]
  }

  lemma {:induction false} ExpectedOfConsistent(lengths: seq<nat>)
    requires Consistent(lengths)
    ensures Expected(lengths) == 0 <==> forall i :: 0 <= i < |lengths| ==> lengths[i] == 0
    ensures forall i :: 0 <= i < |lengths| && lengths[i] != 0 ==> lengths[i] == Expected(lengths)
  {
    if lengths != [] {
      var init := lengths[..|lengths| - 1];
      assert forall i :: 0 <= i < |init| ==> init[i] == lengths[i];
      ExpectedOfConsistent(init);
    }
  }

  /** A prefix of consistent lengths is consistent. */
  lemma ConsistentPrefix(lengths: seq<nat>, x: nat)
    ensures Consistent(lengths + [x]) ==> Consistent(lengths)
  {
    if Consistent(lengths + [x]) {
      forall i, j | 0 <= i < j < |lengths| && lengths[i] != 0
        ensures lengths[j] == lengths[i]
      {
        assert (lengths + [x])[i] == lengths[i] && (lengths + [x])[j] == lengths[j];
      }
    }
  }

  /** The length check on a new well passes exactly when the lengths stay
      consistent. */
  lemma ConsistentSnoc(lengths: seq<nat>, x: nat)
    requires Consistent(lengths)
    ensures Consistent(lengths + [x]) <==> x == Expected(lengths + [x])
  {
    var ls := lengths + [x];
    assert ls[..|ls| - 1] == lengths;
    ExpectedOfConsistent(lengths);
    if x == Expected(ls) {
      forall i, j | 0 <= i < j < |ls| && ls[i] != 0
        ensures ls[j] == ls[i]
      {
        assert ls[i] == lengths[i];
        if j < |lengths| {
          assert ls[j] == lengths[j];
        }
      }
    } else {
      var i :| 0 <= i < |lengths| && lengths[i] != 0;
      assert ls[i] != 0 && ls[|ls| - 1] != ls[i];
    }
  }

  lemma AllLoadSnoc(files: map<string, seq<seq<Option<real>>>>, baseDir: string, wells: seq<nat>)
    requires wells != []
    ensures AllLoad(files, baseDir, wells) <==>
              AllLoad(files, baseDir, wells[..|wells| - 1]) && LoadWell(files, baseDir, wells[|wells| - 1]).Ok?
    ensures AllLoad(files, baseDir, wells) ==>
              Lengths(files, baseDir, wells) ==
              Lengths(files, baseDir, wells[..|wells| - 1]) + [|LoadWell(files, baseDir, wells[|wells| - 1]).value.mean|]
  {
    assert forall i :: 0 <= i < |wells| - 1 ==> wells[..|wells| - 1][i] == wells[i];
  }

  /** A condition loads exactly when every well's file exists and reads, and
      the lengths are consistent; it then holds the lengths of all wells. */
  lemma {:induction false} ConditionLoads(files: map<string, seq<seq<Option<real>>>>, baseDir: string, wells: seq<nat>)
    ensures ConditionSpec(files, baseDir, wells).Ok? <==>
              AllLoad(files, baseDir, wells) && Consistent(Lengths(files, baseDir, wells))
    ensures ConditionSpec(files, baseDir, wells).Ok? ==>
              ConditionSpec(files, baseDir, wells).value.lengths == Lengths(files, baseDir, wells)
  {
    if wells != [] {
      var init := wells[..|wells| - 1];
      var s := LoadWell(files, baseDir, wells[|wells| - 1]);
      ConditionLoads(files, baseDir, init);
      AllLoadSnoc(files, baseDir, wells);
      var before := ConditionSpec(files, baseDir, init);
      if AllLoad(files, baseDir, wells) {
        var lsInit := Lengths(files, baseDir, init);
        ConsistentPrefix(lsInit, |s.value.mean|);
        if before.Ok? {
          ConsistentSnoc(lsInit, |s.value.mean|);
        }
      }
    }
  }

  /** A loaded condition holds every well, each with its own file's series. */
  lemma {:induction false} ConditionData(files: map<string, seq<seq<Option<real>>>>, baseDir: string, wells: seq<nat>)
    requires ConditionSpec(files, baseDir, wells).Ok?
    ensures forall w :: w in wells ==> LoadWell(files, baseDir, w).Ok?
    ensures ConditionSpec(files, baseDir, wells).value.data.Keys == set w | w in wells
    ensures forall w :: w in wells ==> ConditionSpec(files, baseDir, wells).value.data[w] == LoadWell(files, baseDir, w).value
  {
    if wells != [] {
      var init := wells[..|wells| - 1];
      ConditionData(files, baseDir, init);
      assert forall w :: w in wells <==> w in init || w == wells[|wells| - 1];
    }
  }

  // ------------------------------------------------------- the curves

  const TimeStepHours: real := 1.5

  /** `build_time_axis(n)`: n points, 1.5 h apart, from 0. */
  function BuildTimeAxis(n: nat): (t: seq<real>)
    ensures |t| == n
    ensures forall i :: 0 <= i < n ==> t[i] == i as real * TimeStepHours
  {
    seq(n, i requires 0 <= i < n => i as real * TimeStepHours)
  }

  /** The axis starts at 0 and rises by one time step per point. */
  lemma TimeAxisSteps(n: nat)
    ensures n > 0 ==> BuildTimeAxis(n)[0] == 0.0
    ensures forall i :: 0 < i < n ==> BuildTimeAxis(n)[i] - BuildTimeAxis(n)[i - 1] == TimeStepHours
  {
  }

  const CutAtThreshold: bool := true
  const ThresholdValue: real := 0.0015

  /** `y >= threshold`; a NaN compares false. */
  predicate Reaches(v: Option<real>, threshold: real) {
    v.Some? && v.value >= threshold
  }

  /** The index of the first value that reaches the threshold, or `|y|`. */
  function FirstHit(y: seq<Option<real>>, threshold: real): (i: nat)
    ensures i <= |y|
    ensures i < |y| ==> Reaches(y[i], threshold)
    ensures forall j :: 0 <= j < i ==> !Reaches(y[j], threshold)
  {
    if y == [] then 0 else if Reaches(y[0], threshold) then 0 else 1 + FirstHit(y[1..], threshold)
  }

  /** Python's `s[:n]`: the first n elements, or all of s when it is shorter. */
  function Take<T>(s: seq<T>, n: nat): (r: seq<T>)
    ensures |r| == if n < |s| then n else |s|
    ensures r == s[..|r|]
  {
    if n < |s| then s[..n] else s
  }

  /** `maybe_truncate(time_axis, y_values)` with the switch and threshold as
      parameters. */
  function MaybeTruncate(cut: bool, threshold: real, t: seq<real>, y: seq<Option<real>>): (r: (seq<real>, seq<Option<real>>))
    ensures |r.0| <= |t| && r.0 == t[..|r.0|] && |r.1| <= |y| && r.1 == y[..|r.1|]
    ensures |r.1| < |y| ==> cut && |r.1| > 0 && Reaches(r.1[|r.1| - 1], threshold)
  {
    if !cut then (t, y)
    else
      var e := FirstHit(y, threshold);
      if e == |y| then (t, y) else (Take(t, e + 1), y[..e + 1])
  }

  /** What the cut keeps: both outputs are prefixes of the inputs; without a
      cut or without a hit nothing is removed; otherwise the y values end at
      the first value reaching the threshold, all earlier ones are below it
      or NaN, and the time axis is cut at the same point. */
  lemma TruncateKeeps(cut: bool, threshold: real, t: seq<real>, y: seq<Option<real>>)
    ensures var r := MaybeTruncate(cut, threshold, t, y);
            r.0 == t[..|r.0|] && r.1 == y[..|r.1|]
    ensures !cut || FirstHit(y, threshold) == |y| ==> MaybeTruncate(cut, threshold, t, y) == (t, y)
    ensures cut && FirstHit(y, threshold) < |y| ==>
              var r := MaybeTruncate(cut, threshold, t, y);
              |r.1| == FirstHit(y, threshold) + 1 &&
              Reaches(r.1[|r.1| - 1], threshold) &&
              (forall j :: 0 <= j < |r.1| - 1 ==> !Reaches(r.1[j], threshold)) &&
              r.0 == Take(t, |r.1|)
  {
  }

  /** A curve whose time axis has its own length keeps the two equal. */
  lemma TruncateEqualLengths(cut: bool, threshold: real, t: seq<real>, y: seq<Option<real>>)
    requires |t| == |y|
    ensures |MaybeTruncate(cut, threshold, t, y).0| == |MaybeTruncate(cut, threshold, t, y).1|
  {
  }

  /** Cutting a cut curve again changes nothing. */
  lemma TruncateIdempotent(cut: bool, threshold: real, t: seq<real>, y: seq<Option<real>>)
    ensures var r := MaybeTruncate(cut, threshold, t, y);
            MaybeTruncate(cut, threshold, r.0, r.1) == r
  {
    var e := FirstHit(y, threshold);
    if cut && e < |y| {
      var y1 := y[..e + 1];
      FirstHitOfPrefix(y, threshold, e + 1);
      assert y1[..e + 1] == y1;
    }
  }

  lemma FirstHitOfPrefix(y: seq<Option<real>>, threshold: real, n: nat)
    requires FirstHit(y, threshold) < n <= |y|
    ensures FirstHit(y[..n], threshold) == FirstHit(y, threshold)
  {
    var e, p := FirstHit(y, threshold), y[..n];
    assert Reaches(p[e], threshold);
    assert forall j :: 0 <= j < e ==> !Reaches(p[j], threshold);
  }

  // ------------------------------------------------------- the plots

  /** The wells plotted: `sorted(INITIAL_DENSITIES.keys())`. */
  const Wells: seq<nat> := [1, 2, 3, 4, 5, 6]

  /** The curve the plots draw for one well of a condition: the time axis is
      built once, from the length of the first hypoxia well, and paired with
      the means of every well of both conditions. */
  function PlottedCurve(timeAxis: seq<real>, s: Series): (seq<real>, seq<Option<real>>) {
    MaybeTruncate(CutAtThreshold, ThresholdValue, timeAxis, s.mean)
  }

  /** Nothing compares the normoxia lengths with the hypoxia ones, so a
      normoxia series of 3 frames that never reaches the threshold is drawn
      against a 2-point axis: the x and y arrays handed to the plot differ in
      length, which matplotlib refuses. */
  lemma MismatchedConditionCurve()
    ensures var hypoxie := Series([Some(0.001), Some(0.001)], [None, None]);
            var normoxie := Series([Some(0.001), Some(0.001), Some(0.001)], [None, None, None]);
            var curve := PlottedCurve(BuildTimeAxis(|hypoxie.mean|), normoxie);
            |curve.0| == 2 && |curve.1| == 3
  {
    var y: seq<Option<real>> := [Some(0.001), Some(0.001), Some(0.001)];
    assert FirstHit(y, ThresholdValue) == 3 by {
      assert FirstHit(y[1..][1..][1..], ThresholdValue) == 0;
    }
  }

  /** The curve of one series drawn against an axis of its own length: its
      x and y arrays always have equal lengths, and the axis is the prefix
      of 1.5 h steps up to the cut. */
  function SeriesCurve(s: Series): (r: (seq<real>, seq<Option<real>>))
    ensures |r.0| == |r.1| <= |s.mean|
    ensures r.0 == BuildTimeAxis(|r.1|)
    ensures r.1 == s.mean[..|r.1|]
  {
    var t := BuildTimeAxis(|s.mean|);
    TruncateKeeps(CutAtThreshold, ThresholdValue, t, s.mean);
    TruncateEqualLengths(CutAtThreshold, ThresholdValue, t, s.mean);
    MaybeTruncate(CutAtThreshold, ThresholdValue, t, s.mean)
  }
}

=== FILE: density_export.dfy ===
/** The density export: for each well, the per-frame mean and spread of the
    cell density (count over field area) across the well's fields, written as
    a two-column text table (mean, std). Frames without any density are NaN,
    here `None`. A group absent from the file counts as a group without
    frames. The spread is kept as the population variance; the square root
    numpy takes for the std is not modelled. */
module DensityExport {
  import opened Wrappers
  import opened Text
  import opened Stats
  import opened CellCounts
  import WellStats
  import PuitsGroups
  import StackAssembly

  /** `group_to_framecounts.get(g, {})`. */
  function FramesOf(counts: map<string, FrameCounts>, g: string): FrameCounts {
    if g in counts then counts[g] else map[]
  }

  /** `field_area_microns2 is not None and field_area_microns2 > 0`. */
  predicate UsableArea(area: Option<real>) {
    area.Some? && area.value > 0.0
  }

  /** The densities of `frame` over the groups that hold it, in group order. */
  function Densities(counts: map<string, FrameCounts>, groups: seq<string>, frame: nat, area: Option<real>): seq<real> {
    if groups == [] then []
    else
      var before := Densities(counts, groups[..|groups| - 1], frame, area);
      var frames := FramesOf(counts, groups[|groups| - 1]);
      if frame in frames && UsableArea(area) then before + [frames[frame] as real / area.value] else before
  }

  /** Without a usable area no frame has a density. */
  lemma {:induction false} NoAreaNoDensity(counts: map<string, FrameCounts>, groups: seq<string>, frame: nat, area: Option<real>)
    requires !UsableArea(area)
    ensures Densities(counts, groups, frame, area) == []
  {
    if groups != [] {
      NoAreaNoDensity(counts, groups[..|groups| - 1], frame, area);
    }
  }

  /** The groups of the list the file holds, in order. */
  function Present(counts: map<string, FrameCounts>, groups: seq<string>): (present: seq<string>)
    ensures WellStats.Known(counts, present)
    ensures forall g :: g in present <==> g in groups && g in counts
  {
    if groups == [] then []
    else
      var before := Present(counts, groups[..|groups| - 1]);
      var g := groups[|groups| - 1];
      assert forall h :: h in groups <==> h in groups[..|groups| - 1] || h == g;
      if g in counts then before + [g] else before
  }

  /** A group missing from the file is skipped without error: the densities
      are those of the groups present, and each is that group's count of the
      frame divided by the area. */
  lemma {:induction false} DensitiesOfPresent(counts: map<string, FrameCounts>, groups: seq<string>, frame: nat, area: Option<real>)
    requires UsableArea(area)
    ensures var gathered := WellStats.Gathered(counts, Present(counts, groups), frame);
            var d := Densities(counts, groups, frame, area);
            |d| == |gathered| && forall i :: 0 <= i < |d| ==> d[i] == gathered[i] as real / area.value
  {
    if groups != [] {
      var init := groups[..|groups| - 1];
      var g := groups[|groups| - 1];
      DensitiesOfPresent(counts, init, frame, area);
      var p := Present(counts, groups);
      if g in counts {
        assert p == Present(counts, init) + [g];
        assert p[..|p| - 1] == Present(counts, init);
      }
    }
  }

  /** The mean and the spread of one frame's densities; NaN for both when
      there is none. The mean lies between the extreme densities and the
      spread is never negative. */
  function FrameDensityStat(d: seq<real>): (r: (Option<real>, Option<real>))
    ensures r.0.None? <==> d == []
    ensures r.1.None? <==> d == []
    ensures d != [] ==> Min(d) <= r.0.value <= Max(d) && r.1.value >= 0.0
  {
    if d == [] then (None, None)
    else
      MeanBounds(d);
      VarianceNonNegative(d, 0);
      (Some(Mean(d)), Some(Variance(d, 0)))
  }

  /** "Image{puits}-{s}-{channel}" for each suffix, in order. */
  function PuitsFieldGroups(puits: string, suffixes: seq<nat>, channel: string): seq<string> {
    seq(|suffixes|, i requires 0 <= i < |suffixes| => PuitsGroups.FieldGroup(puits, suffixes[i], channel))
  }

  /** The loop over the groups for one frame. */
  method FrameDensities(counts: map<string, FrameCounts>, groups: seq<string>, frame: nat, area: Option<real>)
    returns (densities: seq<real>)
    ensures densities == Densities(counts, groups, frame, area)
  {
    densities := [];
    for i := 0 to |groups|
      invariant densities == Densities(counts, groups[..i], frame, area)
    {
      assert groups[..i + 1][..i] == groups[..i];
      var frames := if groups[i] in counts then counts[groups[i]] else map[];
      if frame in frames && area.Some? && area.value > 0.0 {
        densities := densities + [frames[frame] as real / area.value];
      }
    }
    assert groups[..|groups|] == groups;
  }

  /** `compute_mean_std_density_for_puits`: both arrays have one entry per
      frame 0..max_frame, holding that frame's statistics. */
  method ComputeMeanStdDensity(counts: map<string, FrameCounts>, puits: string, suffixes: seq<nat>, channel: string,
                               maxFrame: nat, area: Option<real>)
    returns (means: seq<Option<real>>, spreads: seq<Option<real>>)
    ensures |means| == maxFrame + 1 && |spreads| == maxFrame + 1
    ensures forall f :: 0 <= f <= maxFrame ==>
              (means[f], spreads[f]) == FrameDensityStat(Densities(counts, PuitsFieldGroups(puits, suffixes, channel), f, area))
  {
    var groups := PuitsFieldGroups(puits, suffixes, channel);
    means, spreads := [], [];
    for frame := 0 to maxFrame + 1
      invariant |means| == frame && |spreads| == frame
      invariant forall f :: 0 <= f < frame ==> (means[f], spreads[f]) == FrameDensityStat(Densities(counts, groups, f, area))
    {
      var densities := FrameDensities(counts, groups, frame, area);
      if densities != [] {
        means := means + [Some(Mean(densities))];
        spreads := spreads + [Some(Variance(densities, 0))];
      } else {
        means := means + [None];
        spreads := spreads + [None];
      }
    }
  }

  /** Without a usable area both arrays are all NaN. */
  lemma NoAreaAllNaN(counts: map<string, FrameCounts>, groups: seq<string>, f: nat, area: Option<real>)
    requires !UsableArea(area)
    ensures FrameDensityStat(Densities(counts, groups, f, area)) == (None, None)
  {
    NoAreaNoDensity(counts, groups, f, area);
  }

  /** `np.column_stack((means, stds))`: one row per frame, mean then std;
      arrays of different lengths are a ValueError. */
  function ColumnStack(means: seq<Option<real>>, stds: seq<Option<real>>): (rows: Result<seq<seq<Option<real>>>, string>)
    ensures rows.Ok? <==> |means| == |stds|
    ensures rows.Ok? ==> |rows.value| == |means|
    ensures rows.Ok? ==> forall i :: 0 <= i < |rows.value| ==> |rows.value[i]| == 2
  {
    if |means| != |stds| then Err("all the input array dimensions except for the concatenation axis must match exactly")
    else Ok(seq(|means|, i requires 0 <= i < |means| => [means[i], stds[i]]))
  }

  /** The well order of the export; well number idx is `puits_order[idx - 1]`. */
  const PuitsOrder: seq<string> := ["A1", "A2", "A3", "B1", "B2", "B3"]

  /** The field area in square microns: (1408 px x 1.24) x (1040 px x 1.24). */
  const FieldArea: real := (1408.0 * 1.24) * (1040.0 * 1.24)

  /** "{dir}/Well{idx}_Incucyte_F98_{dose}Gy_2024_07_12_smooth=35.txt". */
  function WellTablePath(outputDir: string, dose: nat, idx: nat): string {
    StackAssembly.JoinPath(outputDir, WellTableName(dose, idx))
  }

  function WellTableName(dose: nat, idx: nat): string {
    "Well" + NatToString(idx) + ("_Incucyte_F98_" + NatToString(dose) + "Gy_2024_07_12_smooth=35.txt")
  }

  /** Distinct wells are exported to distinct files. */
  lemma WellTablePathInjective(outputDir: string, dose: nat, i: nat, j: nat)
    ensures WellTablePath(outputDir, dose, i) == WellTablePath(outputDir, dose, j) ==> i == j
  {
    if WellTablePath(outputDir, dose, i) == WellTablePath(outputDir, dose, j) {
      var m, n := WellTableName(dose, i), WellTableName(dose, j);
      JoinedName(outputDir, m);
      JoinedName(outputDir, n);
      var a, b := NatToString(i), NatToString(j);
      var rest := "_Incucyte_F98_" + NatToString(dose) + "Gy_2024_07_12_smooth=35.txt";
      assert |a| == |b|;
      MiddleOf("Well", a, rest);
      MiddleOf("Well", b, rest);
      FormatInjective(i, j);
    }
  }

  /** The name is what follows the directory and its separator. */
  lemma JoinedName(dir: string, name: string)
    ensures StackAssembly.JoinPath(dir, name)[|StackAssembly.JoinPrefix(dir)|..] == name
  {
  }

  lemma MiddleOf(x: string, a: string, y: string)
    ensures (x + a + y)[|x|..|x| + |a|] == a
  {
    assert (x + a + y)[|x|..|x| + |a|] == (x + a)[|x|..];
  }

  /** One exported table: what `save_mean_std_txt` writes for a well. */
  function ExportedTable(counts: map<string, FrameCounts>, puits: string, area: Option<real>): seq<seq<Option<real>>> {
    var groups := PuitsFieldGroups(puits, [1, 2, 3, 4, 5, 6, 7, 8, 9], "C2");
    seq(LastFrame + 1, f requires 0 <= f <= LastFrame =>
          var st := FrameDensityStat(Densities(counts, groups, f, area)); [st.0, st.1])
  }

  /** The export's `main` after reading the file: one table per well of
      `puits_order`, numbered from 1, each with 161 rows. */
  method ExportWells(counts: map<string, FrameCounts>, outputDir: string, dose: nat)
    returns (tables: seq<(string, seq<seq<Option<real>>>)>)
    ensures |tables| == |PuitsOrder|
    ensures forall i :: 0 <= i < |tables| ==>
              tables[i] == (WellTablePath(outputDir, dose, i + 1), ExportedTable(counts, PuitsOrder[i], Some(FieldArea)))
  {
    tables := [];
    for i := 0 to |PuitsOrder|
      invariant |tables| == i
      invariant forall k :: 0 <= k < i ==>
                  tables[k] == (WellTablePath(outputDir, dose, k + 1), ExportedTable(counts, PuitsOrder[k], Some(FieldArea)))
    {
      var means, spreads := ComputeMeanStdDensity(counts, PuitsOrder[i], [1, 2, 3, 4, 5, 6, 7, 8, 9], "C2", LastFrame, Some(FieldArea));
      var rows := ColumnStack(means, spreads);
      assert rows.value == ExportedTable(counts, PuitsOrder[i], Some(FieldArea));
      tables := tables + [(WellTablePath(outputDir, dose, i + 1), rows.value)];
    }
  }
}

=== FILE: detection.dfy ===
/** The detection driver: for every input stack it derives an image id from
    the file name, converts each frame to a (Ny, Nx) gray image, estimates the
    background once on frame 0 and stores it, and writes one detection table
    per frame under "Image{id}/frame{n}". The background estimator and the
    cell detector are library code; they are parameters here. The HDF5 file
    and the pandas store (the same file) are one `ResultStore` object. */
module Detection {
  import opened Wrappers
  import opened Text
  import opened ResultLayout

  // ------------------------------------------------------- parameters

  datatype Params = Params(
    confirm: bool,          // ask before running
    channel: int,           // channel read from each stack
    sigma: real,            // Gaussian smoothing of the LoG
    threshold: real,        // LoG threshold
    ccMin: int,             // smallest blob kept, in pixels
    ccMax: Option<int>,     // largest blob kept, if any
    window: nat,            // background window, in pixels
    idIndex: int)           // which '_' token of the file name is the id

  /** The configuration the script ships with. */
  const DefaultParams := Params(true, 0, 3.5, 0.0375, 30, None, 256, 0)

  datatype AttrValue = IntAttr(i: int) | RealAttr(r: real)

  /** The run metadata stored as attributes of the file's root. */
  function RootAttrs(p: Params): (attrs: map<string, AttrValue>)
    ensures attrs.Keys == {"channel", "sigma", "seuil", "ccmin"} + (if p.ccMax.Some? then {"ccmax"} else {})
    ensures attrs["sigma"] == RealAttr(p.sigma) && attrs["seuil"] == RealAttr(p.threshold)
    ensures attrs["channel"] == IntAttr(p.channel) && attrs["ccmin"] == IntAttr(p.ccMin)
    ensures p.ccMax.Some? ==> attrs["ccmax"] == IntAttr(p.ccMax.value)
  {
    var base := map["channel" := IntAttr(p.channel), "sigma" := RealAttr(p.sigma),
                     "seuil" := RealAttr(p.threshold), "ccmin" := IntAttr(p.ccMin)];
    if p.ccMax.Some? then base["ccmax" := IntAttr(p.ccMax.value)] else base
  }

  /** `ccmax` is stored exactly when a largest blob size is configured. */
  lemma CcMaxOptional(p: Params)
    ensures "ccmax" in RootAttrs(p) <==> p.ccMax.Some?
    ensures "channel" in RootAttrs(p) && "sigma" in RootAttrs(p) && "seuil" in RootAttrs(p) && "ccmin" in RootAttrs(p)
  {
  }

  // ------------------------------------------------------- image ids

  /** `os.path.basename(path).split("_")[index]`; `None` is the IndexError. */
  function ImageId(path: string, index: int): (id: Option<string>)
    ensures id.Some? <==> -|Split(Basename(path), '_')| <= index < |Split(Basename(path), '_')|
    ensures id.Some? ==> '/' !in id.value && '_' !in id.value
  {
    var parts := Split(Basename(path), '_');
    SplitPartsWithout(Basename(path), '_', '/');
    PyIndex(parts, index)
  }

  // ------------------------------------------------------- frames

  /** A frame as the reader returns it: its shape and its values in C order. */
  datatype Frame = Frame(shape: seq<nat>, values: seq<real>)

  function Size(shape: seq<nat>): nat {
    if shape == [] then 1 else Size(shape[..|shape| - 1]) * shape[|shape| - 1]
  }

  /** A numpy array holds exactly as many values as its shape says. */
  predicate WellFormed(f: Frame) {
    |f.values| == Size(f.shape)
  }

  /** `yy.ndim == 3 and yy.shape[2] == 3`. */
  predicate IsRgb(f: Frame) {
    |f.shape| == 3 && f.shape[2] == 3
  }

  /** The values `reshape` is applied to: `yy[:, :, 0]` for an RGB frame,
      the frame itself otherwise. */
  function Plane(f: Frame): seq<real> {
    if IsRgb(f) then seq(|f.values| / 3, i requires 0 <= i < |f.values| / 3 => f.values[3 * i])
    else f.values
  }

  /** A gray image of `ny` rows and `nx` columns, row-major. */
  datatype Gray = Gray(ny: nat, nx: nat, pixels: seq<real>)

  /** `data = (...).reshape(Ny, Nx)`; `None` is the ValueError of a size
      mismatch. */
  function ToGray(f: Frame, ny: nat, nx: nat): (r: Option<Gray>)
    ensures r.Some? <==> |Plane(f)| == ny * nx
    ensures r.Some? ==> r.value.ny == ny && r.value.nx == nx
  {
    var v := Plane(f);
    if |v| == ny * nx then Some(Gray(ny, nx, v)) else None
  }

  lemma RowMajorBound(y: nat, x: nat, rows: nat, cols: nat)
    requires y < rows && x < cols
    ensures y * cols + x < rows * cols
  {
    calc {
      y * cols + x;
    <
      y * cols + cols;
    ==
      (y + 1) * cols;
    <=
      rows * cols;
    }
  }

  lemma SizeOfThree(a: nat, b: nat, c: nat)
    ensures Size([a, b, c]) == a * b * c
  {
    var s := [a, b, c];
    assert s[..2] == [a, b] && s[..2][..1] == [a] && s[..2][..1][..0] == [];
    assert Size([a]) == a;
    assert Size([a, b]) == a * b;
  }

  /** Pixel (y, x) of an RGB frame of shape (Ny, Nx, 3) is its channel-0
      value at [y, x, 0]; the other two channels are dropped. */
  lemma RgbKeepsChannelZero(f: Frame, y: nat, x: nat)
    requires WellFormed(f) && IsRgb(f)
    requires y < f.shape[0] && x < f.shape[1]
    ensures var g := ToGray(f, f.shape[0], f.shape[1]);
            && g.Some?
            && (y * f.shape[1] + x) * 3 < |f.values|
            && g.value.pixels[y * f.shape[1] + x] == f.values[(y * f.shape[1] + x) * 3 + 0]
  {
    var a, b := f.shape[0], f.shape[1];
    assert f.shape == [a, b, 3];
    SizeOfThree(a, b, 3);
    var n := a * b;
    assert |f.values| == n * 3;
    assert |f.values| / 3 == n;
    RowMajorBound(y, x, a, b);
  }

  /** Any other frame whose size matches is reshaped as it is: pixel (y, x)
      is value y * Nx + x. */
  lemma OtherFrameReshaped(f: Frame, ny: nat, nx: nat, y: nat, x: nat)
    requires !IsRgb(f) && |f.values| == ny * nx
    requires y < ny && x < nx
    ensures var g := ToGray(f, ny, nx);
            g.Some? && y * nx + x < |f.values| && g.value.pixels[y * nx + x] == f.values[y * nx + x]
  {
    RowMajorBound(y, x, ny, nx);
  }

  /** The gray frames of a stack up to the first one that cannot be
      reshaped: the frames processed before the script stops. */
  function ConvertedPrefix(frames: seq<Frame>, ny: nat, nx: nat): (gs: seq<Gray>)
    ensures |gs| <= |frames|
    ensures forall n :: 0 <= n < |gs| ==> ToGray(frames[n], ny, nx) == Some(gs[n])
    ensures |gs| < |frames| ==> ToGray(frames[|gs|], ny, nx).None?
  {
    if frames == [] then []
    else
      match ToGray(frames[0], ny, nx)
      case None => []
      case Some(g) =>
        var rest := ConvertedPrefix(frames[1..], ny, nx);
        assert forall n :: 1 <= n < |frames| ==> frames[n] == frames[1..][n - 1];
        [g] + rest
  }

  // ------------------------------------------------------- the store

  /** `sep.Background`: the background map and its global RMS. */
  datatype Background = Background(back: seq<real>, rms: real)

  /** The "background" group: its "image" dataset and its `rms` and `bw`
      attributes. */
  datatype BackgroundGroup = BackgroundGroup(image: seq<real>, rms: real, bw: nat)

  datatype StoreContents = StoreContents(
    attrs: map<string, AttrValue>,
    groups: map<string, BackgroundGroup>,   // by "Image{id}/background"
    tables: map<string, Table>,             // by "Image{id}/frame{n}"
    log: seq<string>)                       // table keys in write order

  /** The output file, as the h5py handle and the pandas store see it. */
  class ResultStore {
    var attrs: map<string, AttrValue>
    var groups: map<string, BackgroundGroup>
    var tables: map<string, Table>
    var log: seq<string>

    function Contents(): StoreContents
      reads this
    {
      StoreContents(attrs, groups, tables, log)
    }

    /** `h5py.File(output_file, 'w')`: a new, empty file. */
    constructor ()
      ensures Contents() == StoreContents(map[], map[], map[], [])
    {
      attrs, groups, tables, log := map[], map[], map[], [];
    }

    /** `f.attrs[name] = value`. */
    method SetAttr(name: string, value: AttrValue)
      modifies this
      ensures Contents() == old(Contents()).(attrs := old(attrs)[name := value])
    {
      attrs := attrs[name := value];
    }

    /** `f.create_group(key)` with its dataset and attributes; h5py refuses
      a key that already exists (`created` false). */
    method CreateGroup(key: string, g: BackgroundGroup) returns (created: bool)
      modifies this
      ensures created <==> key !in old(groups)
      ensures Contents() == if created then old(Contents()).(groups := old(groups)[key := g]) else old(Contents())
    {
      if key in groups {
        return false;
      }
      groups := groups[key := g];
      return true;
    }

    /** `df.to_hdf(store, key=key)`: written, or replaced if present. */
    method PutTable(key: string, t: Table)
      modifies this
      ensures Contents() == old(Contents()).(tables := old(tables)[key := t], log := old(log) + [key])
    {
      tables := tables[key := t];
      log := log + [key];
    }
  }

  // ------------------------------------------------------- one image

  /** An input stack: its path, the sizes its metadata gives and its frames. */
  datatype InputImage = InputImage(path: string, ny: nat, nx: nat, frames: seq<Frame>)

  function Grays(img: InputImage): seq<Gray> {
    ConvertedPrefix(img.frames, img.ny, img.nx)
  }

  /** The tables of frames written in order, each one replacing its key. */
  function WriteFrames(m: map<string, Table>, id: string, ts: seq<Table>): map<string, Table> {
    if ts == [] then m
    else WriteFrames(m, id, ts[..|ts| - 1])[FrameKey(id, |ts| - 1) := ts[|ts| - 1]]
  }

  function FrameKeys(id: string, n: nat): (ks: seq<string>)
    ensures |ks| == n
    ensures forall i :: 0 <= i < n ==> ks[i] == FrameKey(id, i)
  {
    seq(n, i requires 0 <= i < n => FrameKey(id, i))
  }

  /** The detection tables of the frames of one stack, every one of them
      made against the same background. */
  function FrameTables(gs: seq<Gray>, bkg: Background, detect: (Gray, Background) -> Table): (ts: seq<Table>)
    ensures |ts| == |gs|
    ensures forall n :: 0 <= n < |gs| ==> ts[n] == detect(gs[n], bkg)
  {
    seq(|gs|, n requires 0 <= n < |gs| => detect(gs[n], bkg))
  }

  /** The store after processing one stack, and whether the script carries
      on. Nothing is written for a stack whose first frame cannot be
      reshaped, nor when its background group already exists; otherwise the
      background of frame 0 is stored and a table is written for each frame
      up to the first that cannot be reshaped. */
  function ImageStep(c: StoreContents, id: string, img: InputImage, window: nat,
                     estimate: Gray -> Background, detect: (Gray, Background) -> Table): (StoreContents, bool)
  {
    var gs := Grays(img);
    if gs == [] then (c, img.frames == [])
    else if BackgroundKey(id) in c.groups then (c, false)
    else
      var bkg := estimate(gs[0]);
      var ts := FrameTables(gs, bkg, detect);
      (c.(groups := c.groups[BackgroundKey(id) := BackgroundGroup(bkg.back, bkg.rms, window)],
          tables := WriteFrames(c.tables, id, ts),
          log := c.log + FrameKeys(id, |ts|)),
       |gs| == |img.frames|)
  }

  /** What the frame loop has written after `ip` frames, `ip > 0`. */
  function Partial(c: StoreContents, id: string, gs: seq<Gray>, ip: nat, window: nat,
                   estimate: Gray -> Background, detect: (Gray, Background) -> Table): StoreContents
    requires 0 < ip <= |gs|
  {
    var bkg := estimate(gs[0]);
    c.(groups := c.groups[BackgroundKey(id) := BackgroundGroup(bkg.back, bkg.rms, window)],
       tables := WriteFrames(c.tables, id, FrameTables(gs, bkg, detect)[..ip]),
       log := c.log + FrameKeys(id, ip))
  }

  lemma PartialFirst(c: StoreContents, id: string, gs: seq<Gray>, window: nat,
                     estimate: Gray -> Background, detect: (Gray, Background) -> Table)
    requires gs != []
    ensures var bkg := estimate(gs[0]);
            Partial(c, id, gs, 1, window, estimate, detect)
            == c.(groups := c.groups[BackgroundKey(id) := BackgroundGroup(bkg.back, bkg.rms, window)],
                  tables := c.tables[FrameKey(id, 0) := detect(gs[0], bkg)],
                  log := c.log + [FrameKey(id, 0)])
  {
    var ts := FrameTables(gs, estimate(gs[0]), detect);
    var first := ts[..1];
    assert first[..0] == [];
    assert WriteFrames(c.tables, id, first) == c.tables[FrameKey(id, 0) := ts[0]];
    assert FrameKeys(id, 1) == [FrameKey(id, 0)];
  }

  lemma PartialStep(c: StoreContents, id: string, gs: seq<Gray>, ip: nat, window: nat,
                    estimate: Gray -> Background, detect: (Gray, Background) -> Table)
    requires 0 < ip < |gs|
    ensures var p := Partial(c, id, gs, ip, window, estimate, detect);
            Partial(c, id, gs, ip + 1, window, estimate, detect)
            == p.(tables := p.tables[FrameKey(id, ip) := detect(gs[ip], estimate(gs[0]))],
                  log := p.log + [FrameKey(id, ip)])
  {
    var ts := FrameTables(gs, estimate(gs[0]), detect);
    assert ts[..ip + 1][..ip] == ts[..ip];
    assert FrameKeys(id, ip + 1) == FrameKeys(id, ip) + [FrameKey(id, ip)];
  }

  lemma PartialAll(c: StoreContents, id: string, img: InputImage, window: nat,
                   estimate: Gray -> Background, detect: (Gray, Background) -> Table)
    requires Grays(img) != [] && BackgroundKey(id) !in c.groups
    ensures ImageStep(c, id, img, window, estimate, detect)
         == (Partial(c, id, Grays(img), |Grays(img)|, window, estimate, detect), |Grays(img)| == |img.frames|)
  {
    var gs := Grays(img);
    var ts := FrameTables(gs, estimate(gs[0]), detect);
    assert ts[..|gs|] == ts;
  }

  /** The frame loop of one stack. `bkg` is set at frame 0 only and every
      later frame is detected against it. */
  method ProcessImage(store: ResultStore, id: string, img: InputImage, window: nat,
                      estimate: Gray -> Background, detect: (Gray, Background) -> Table)
    returns (ok: bool)
    modifies store
    ensures (store.Contents(), ok) == ImageStep(old(store.Contents()), id, img, window, estimate, detect)
  {
    ghost var c0 := store.Contents();
    ghost var gs := Grays(img);
    var bkg: Option<Background> := None;
    for ip := 0 to |img.frames|
      invariant ip <= |gs|
      invariant ip == 0 ==> store.Contents() == c0
      invariant ip > 0 ==> && BackgroundKey(id) !in c0.groups
                           && bkg == Some(estimate(gs[0]))
                           && store.Contents() == Partial(c0, id, gs, ip, window, estimate, detect)
    {
      var data := ToGray(img.frames[ip], img.ny, img.nx);
      if data.None? {
        if ip > 0 {
          PartialAll(c0, id, img, window, estimate, detect);
        }
        return false;
      }
      assert gs[ip] == data.value;
      if ip == 0 {
        var b := estimate(data.value);
        var created := store.CreateGroup(BackgroundKey(id), BackgroundGroup(b.back, b.rms, window));
        if !created {
          return false;
        }
        bkg := Some(b);
        PartialFirst(c0, id, gs, window, estimate, detect);
      } else {
        PartialStep(c0, id, gs, ip, window, estimate, detect);
      }
      var table := detect(data.value, bkg.value);
      store.PutTable(FrameKey(id, ip), table);
    }
    if |img.frames| > 0 {
      PartialAll(c0, id, img, window, estimate, detect);
    }
    return true;
  }

  /** A stack's table for frame `n` is found under its key once its frames
      are written. */
  lemma {:induction false} WriteFramesHit(m: map<string, Table>, id: string, ts: seq<Table>, n: nat)
    requires '/' !in id && n < |ts|
    ensures FrameKey(id, n) in WriteFrames(m, id, ts)
    ensures WriteFrames(m, id, ts)[FrameKey(id, n)] == ts[n]
  {
    var last := |ts| - 1;
    if n < last {
      WriteFramesHit(m, id, ts[..last], n);
      FrameKeyInjective(id, n, id, last);
    }
  }

  /** Writing a stack's frames leaves every key outside "Image{id}/frame{n}",
      n < |ts|, as it was. */
  lemma {:induction false} WriteFramesMiss(m: map<string, Table>, id: string, ts: seq<Table>, key: string)
    requires forall n :: 0 <= n < |ts| ==> key != FrameKey(id, n)
    ensures key in WriteFrames(m, id, ts) <==> key in m
    ensures key in m ==> WriteFrames(m, id, ts)[key] == m[key]
  {
    if ts != [] {
      WriteFramesMiss(m, id, ts[..|ts| - 1], key);
    }
  }

  // ------------------------------------------------------- the whole run

  /** How a run ends: refused at the prompt, every stack processed, or
      stopped at a stack whose id token is missing or that failed. */
  datatype Outcome = Declined | Completed | BadId(image: nat) | Failed(image: nat)

  /** The file after processing `images` in order, starting from a file that
      holds the root attributes only, and how the run ends. Processing stops
      at the first stack that fails. */
  function RunSpec(p: Params, images: seq<InputImage>,
                   estimate: Gray -> Background, detect: (Gray, Background) -> Table): (StoreContents, Outcome)
  {
    if images == [] then (StoreContents(RootAttrs(p), map[], map[], []), Completed)
    else
      var last := |images| - 1;
      RunNext(p, RunSpec(p, images[..last], estimate, detect), last, images[last], estimate, detect)
  }

  /** One turn of the loop, on stack number k: nothing after a stop; a path
      without an id token stops the run; otherwise the stack is processed. */
  function RunNext(p: Params, before: (StoreContents, Outcome), k: nat, img: InputImage,
                   estimate: Gray -> Background, detect: (Gray, Background) -> Table): (StoreContents, Outcome)
  {
    if before.1 != Completed then before
    else
      var id := ImageId(img.path, p.idIndex);
      if id.None? then (before.0, BadId(k))
      else
        var step := ImageStep(before.0, id.value, img, p.window, estimate, detect);
        (step.0, if step.1 then Completed else Failed(k))
  }

  lemma RunSnoc(p: Params, images: seq<InputImage>, i: nat,
                estimate: Gray -> Background, detect: (Gray, Background) -> Table)
    requires i < |images|
    ensures RunSpec(p, images[..i + 1], estimate, detect)
            == RunNext(p, RunSpec(p, images[..i], estimate, detect), i, images[i], estimate, detect)
  {
    assert images[..i + 1][..i] == images[..i];
  }

  /** Once a run has stopped, later stacks change nothing. */
  lemma {:induction false} RunStops(p: Params, images: seq<InputImage>, k: nat,
                                    estimate: Gray -> Background, detect: (Gray, Background) -> Table)
    requires k <= |images|
    requires RunSpec(p, images[..k], estimate, detect).1 != Completed
    ensures RunSpec(p, images, estimate, detect) == RunSpec(p, images[..k], estimate, detect)
    decreases |images| - k
  {
    if k < |images| {
      var prefix := images[..|images| - 1];
      assert prefix[..k] == images[..k];
      RunStops(p, prefix, k, estimate, detect);
    } else {
      assert images[..k] == images;
    }
  }

  /** The script: nothing at all is created unless the answer is "y"; then
      the root attributes are written and the stacks processed in order. */
  method Run(p: Params, answer: string, images: seq<InputImage>,
             estimate: Gray -> Background, detect: (Gray, Background) -> Table)
    returns (store: Option<ResultStore>, outcome: Outcome)
    ensures outcome.Declined? <==> p.confirm && answer != "y"
    ensures store.None? <==> outcome.Declined?
    ensures store.Some? ==> fresh(store.value)
    ensures store.Some? ==> (store.value.Contents(), outcome) == RunSpec(p, images, estimate, detect)
  {
    if p.confirm && answer != "y" {
      return None, Declined;
    }
    var s := OpenStore(p);
    assert images[..0] == [];
    for i := 0 to |images|
      invariant (s.Contents(), Completed) == RunSpec(p, images[..i], estimate, detect)
    {
      RunSnoc(p, images, i, estimate, detect);
      var id := ImageId(images[i].path, p.idIndex);
      if id.None? {
        RunStops(p, images, i + 1, estimate, detect);
        return Some(s), BadId(i);
      }
      var ok := ProcessImage(s, id.value, images[i], p.window, estimate, detect);
      if !ok {
        RunStops(p, images, i + 1, estimate, detect);
        return Some(s), Failed(i);
      }
    }
    assert images[..|images|] == images;
    return Some(s), Completed;
  }

  /** The new file with the detection parameters as its root attributes;
      "ccmax" only when there is a maximum. */
  method OpenStore(p: Params) returns (s: ResultStore)
    ensures fresh(s)
    ensures s.Contents() == StoreContents(RootAttrs(p), map[], map[], [])
  {
    s := new ResultStore();
    s.SetAttr("channel", IntAttr(p.channel));
    s.SetAttr("sigma", RealAttr(p.sigma));
    s.SetAttr("seuil", RealAttr(p.threshold));
    s.SetAttr("ccmin", IntAttr(p.ccMin));
    if p.ccMax.Some? {
      s.SetAttr("ccmax", IntAttr(p.ccMax.value));
    }
  }

  /** The root attributes are written once, before any stack. */
  lemma {:induction false} RunAttrs(p: Params, images: seq<InputImage>,
                                    estimate: Gray -> Background, detect: (Gray, Background) -> Table)
    ensures RunSpec(p, images, estimate, detect).0.attrs == RootAttrs(p)
  {
    if images != [] {
      RunAttrs(p, images[..|images| - 1], estimate, detect);
    }
  }

  /** A run that completes ran every prefix to completion. */
  lemma RunPrefixCompleted(p: Params, images: seq<InputImage>, k: nat,
                           estimate: Gray -> Background, detect: (Gray, Background) -> Table)
    requires k <= |images|
    requires RunSpec(p, images, estimate, detect).1 == Completed
    ensures RunSpec(p, images[..k], estimate, detect).1 == Completed
  {
    if RunSpec(p, images[..k], estimate, detect).1 != Completed {
      RunStops(p, images, k, estimate, detect);
    }
  }

  /** A completed run completed its last stack on top of a completed run of
      the others. */
  lemma RunLast(p: Params, images: seq<InputImage>,
                estimate: Gray -> Background, detect: (Gray, Background) -> Table)
    requires images != [] && RunSpec(p, images, estimate, detect).1 == Completed
    ensures var last := |images| - 1;
            var before := RunSpec(p, images[..last], estimate, detect);
            var id := ImageId(images[last].path, p.idIndex);
            && before.1 == Completed
            && id.Some?
            && ImageStep(before.0, id.value, images[last], p.window, estimate, detect)
               == (RunSpec(p, images, estimate, detect).0, true)
  {
  }

  /** A stack processed in full stores its background and the table of
      each of its frames. */
  lemma ImageStepWrites(c: StoreContents, id: string, img: InputImage, window: nat, n: nat,
                        estimate: Gray -> Background, detect: (Gray, Background) -> Table)
    requires '/' !in id && n < |img.frames|
    requires ImageStep(c, id, img, window, estimate, detect).1
    ensures var c' := ImageStep(c, id, img, window, estimate, detect).0;
            var gs := Grays(img);
            var bkg := estimate(gs[0]);
            && |gs| == |img.frames|
            && BackgroundKey(id) !in c.groups
            && BackgroundKey(id) in c'.groups
            && c'.groups[BackgroundKey(id)] == BackgroundGroup(bkg.back, bkg.rms, window)
            && FrameKey(id, n) in c'.tables
            && c'.tables[FrameKey(id, n)] == detect(gs[n], bkg)
  {
    var gs := Grays(img);
    WriteFramesHit(c.tables, id, FrameTables(gs, estimate(gs[0]), detect), n);
  }

  /** A stack processed in full leaves the background and the frame tables
      of any other id as they were. */
  lemma ImageStepKeeps(c: StoreContents, id: string, img: InputImage, window: nat,
                       other: string, n: nat,
                       estimate: Gray -> Background, detect: (Gray, Background) -> Table)
    requires '/' !in id && '/' !in other
    requires ImageStep(c, id, img, window, estimate, detect).1
    requires BackgroundKey(other) in c.groups && FrameKey(other, n) in c.tables
    ensures var c' := ImageStep(c, id, img, window, estimate, detect).0;
            && BackgroundKey(other) in c'.groups
            && c'.groups[BackgroundKey(other)] == c.groups[BackgroundKey(other)]
            && FrameKey(other, n) in c'.tables
            && c'.tables[FrameKey(other, n)] == c.tables[FrameKey(other, n)]
  {
    var gs := Grays(img);
    if gs != [] {
      assert other != id;
      var ts := FrameTables(gs, estimate(gs[0]), detect);
      forall m | 0 <= m < |ts|
        ensures FrameKey(other, n) != FrameKey(id, m)
      {
        FrameKeyInjective(other, n, id, m);
      }
      WriteFramesMiss(c.tables, id, ts, FrameKey(other, n));
    }
  }

  /** In a completed run, every stack had an id and every frame could be
      reshaped; the background of each stack's frame 0 is stored under
      "Image{id}/background", and the table of every frame n is the detection
      of that frame against that one background, stored under
      "Image{id}/frame{n}". */
  lemma {:induction false} RunCompleted(p: Params, images: seq<InputImage>, i: nat, n: nat,
                                        estimate: Gray -> Background, detect: (Gray, Background) -> Table)
    requires RunSpec(p, images, estimate, detect).1 == Completed
    requires i < |images| && n < |images[i].frames|
    ensures ImageId(images[i].path, p.idIndex).Some?
    ensures |Grays(images[i])| == |images[i].frames|
    ensures var id := ImageId(images[i].path, p.idIndex).value;
            var gs := Grays(images[i]);
            var c := RunSpec(p, images, estimate, detect).0;
            var bkg := estimate(gs[0]);
            && BackgroundKey(id) in c.groups
            && c.groups[BackgroundKey(id)] == BackgroundGroup(bkg.back, bkg.rms, p.window)
            && FrameKey(id, n) in c.tables
            && c.tables[FrameKey(id, n)] == detect(gs[n], bkg)
  {
    var last := |images| - 1;
    var prefix := images[..last];
    RunLast(p, images, estimate, detect);
    var c := RunSpec(p, prefix, estimate, detect).0;
    var idl := ImageId(images[last].path, p.idIndex).value;
    if i == last {
      ImageStepWrites(c, idl, images[last], p.window, n, estimate, detect);
    } else {
      assert prefix[i] == images[i];
      RunCompleted(p, prefix, i, n, estimate, detect);
      var id := ImageId(images[i].path, p.idIndex).value;
      ImageStepKeeps(c, idl, images[last], p.window, id, n, estimate, detect);
    }
  }

  /** In a completed run, two stacks with frames never share an id: the
      second could not have created its background group. */
  lemma RunDistinctIds(p: Params, images: seq<InputImage>, i: nat, j: nat,
                       estimate: Gray -> Background, detect: (Gray, Background) -> Table)
    requires RunSpec(p, images, estimate, detect).1 == Completed
    requires i < j < |images| && images[i].frames != [] && images[j].frames != []
    ensures ImageId(images[i].path, p.idIndex) != ImageId(images[j].path, p.idIndex)
  {
    RunPrefixCompleted(p, images, j + 1, estimate, detect);
    RunLastAt(p, images, j, estimate, detect);
    var c := RunSpec(p, images[..j], estimate, detect).0;
    StepNeedsNewId(c, ImageId(images[j].path, p.idIndex).value, images[j], p.window, estimate, detect);
    assert images[..j][i] == images[i];
    RunCompleted(p, images[..j], i, 0, estimate, detect);
  }

  lemma RunLastAt(p: Params, images: seq<InputImage>, j: nat,
                  estimate: Gray -> Background, detect: (Gray, Background) -> Table)
    requires j < |images| && RunSpec(p, images[..j + 1], estimate, detect).1 == Completed
    ensures RunSpec(p, images[..j], estimate, detect).1 == Completed
    ensures ImageId(images[j].path, p.idIndex).Some?
    ensures ImageStep(RunSpec(p, images[..j], estimate, detect).0, ImageId(images[j].path, p.idIndex).value,
                      images[j], p.window, estimate, detect).1
  {
    var upto := images[..j + 1];
    assert upto[..j] == images[..j] && upto[j] == images[j];
    RunLast(p, upto, estimate, detect);
  }

  /** A stack with frames completes only under an id not yet in the file. */
  lemma StepNeedsNewId(c: StoreContents, id: string, img: InputImage, window: nat,
                       estimate: Gray -> Background, detect: (Gray, Background) -> Table)
    requires img.frames != [] && ImageStep(c, id, img, window, estimate, detect).1
    ensures BackgroundKey(id) !in c.groups
  {
  }
}

=== FILE: dose_counts.dfy ===
/** The count loop of `plot_cell_counts_over_time`: for each dose and each
    frame, the row count of the table "Image{dose}_{image_name}/frame{i}",
    0 when the key is missing, and the time axis i x interval. */
module DoseCounts {
  import opened Text
  import opened ResultLayout

  const DoseLevels: seq<string> := ["0Gy", "10Gy", "15Gy"]

  /** "Image{dose}_{image_name}/frame{i}". */
  function DoseKey(dose: string, imageName: string, i: nat): string {
    GroupName(dose + "_" + imageName) + "/" + FrameName(i)
  }

  /** The cell count of one frame: the table's rows, or 0 for the KeyError. */
  function DoseCount(store: map<string, Table>, dose: string, imageName: string, i: nat): (c: nat)
    ensures DoseKey(dose, imageName, i) !in store ==> c == 0
    ensures DoseKey(dose, imageName, i) in store ==> c == |store[DoseKey(dose, imageName, i)].rows|
  {
    var key := DoseKey(dose, imageName, i);
    if key in store then |store[key].rows| else 0
  }

  /** The frame loop for one dose. */
  method DoseSeries(store: map<string, Table>, dose: string, imageName: string, numFrames: nat)
    returns (series: seq<nat>)
    ensures |series| == numFrames
    ensures forall i :: 0 <= i < numFrames ==> series[i] == DoseCount(store, dose, imageName, i)
  {
    series := [];
    for i := 0 to numFrames
      invariant |series| == i
      invariant forall k :: 0 <= k < i ==> series[k] == DoseCount(store, dose, imageName, k)
    {
      var key := DoseKey(dose, imageName, i);
      var count := if key in store then |store[key].rows| else 0;
      series := series + [count];
    }
  }

  /** The counting part of `plot_cell_counts_over_time`: one series of
      `num_frames` counts per dose, in frame order, and the time points. */
  method CellCountsOverTime(store: map<string, Table>, imageName: string, numFrames: nat, timeInterval: int)
    returns (counts: map<string, seq<nat>>, timePoints: seq<int>)
    ensures counts.Keys == set d | d in DoseLevels
    ensures forall d :: d in counts ==> |counts[d]| == numFrames
    ensures forall d, i :: d in counts && 0 <= i < numFrames ==> counts[d][i] == DoseCount(store, d, imageName, i)
    ensures |timePoints| == numFrames
    ensures forall i :: 0 <= i < numFrames ==> timePoints[i] == i * timeInterval
  {
    counts := map[];
    for k := 0 to |DoseLevels|
      invariant counts.Keys == set d | d in DoseLevels[..k]
      invariant forall d :: d in counts ==> |counts[d]| == numFrames
      invariant forall d, i :: d in counts && 0 <= i < numFrames ==> counts[d][i] == DoseCount(store, d, imageName, i)
    {
      var series := DoseSeries(store, DoseLevels[k], imageName, numFrames);
      assert DoseLevels[..k + 1] == DoseLevels[..k] + [DoseLevels[k]];
      counts := counts[DoseLevels[k] := series];
    }
    assert DoseLevels[..|DoseLevels|] == DoseLevels;
    timePoints := seq(numFrames, i requires 0 <= i < numFrames => i * timeInterval);
  }

  /** The tables this script reads are never the ones the detection driver
      writes: the driver's ids are '_'-separated tokens and so hold no '_',
      while the group part of every key read here does. */
  lemma DoseKeyIsNoFrameKey(dose: string, imageName: string, i: nat, id: string, n: nat)
    requires '/' !in dose && '/' !in imageName
    requires '_' !in id && '/' !in id
    ensures DoseKey(dose, imageName, i) != FrameKey(id, n)
  {
    var doseGroup := GroupName(dose + "_" + imageName);
    var idGroup := GroupName(id);
    assert doseGroup == "Image" + dose + "_" + imageName;
    assert '/' !in "Image" && '/' !in "_";
    assert '/' !in doseGroup;
    assert '/' !in idGroup;
    assert DoseKey(dose, imageName, i) == doseGroup + ['/'] + FrameName(i);
    assert FrameKey(id, n) == idGroup + ['/'] + FrameName(n);
    SplitAtFirst(doseGroup, '/', FrameName(i));
    SplitAtFirst(idGroup, '/', FrameName(n));
    if |doseGroup| == |idGroup| {
      assert doseGroup[5 + |dose|] == '_';
      assert idGroup[5 + |dose|] == id[|dose|];
      assert doseGroup[5 + |dose|] != idGroup[5 + |dose|];
    }
    assert Split(DoseKey(dose, imageName, i), '/')[0] != Split(FrameKey(id, n), '/')[0];
  }
}

=== FILE: group_average.dfy ===
/** `read_group_average_counts`: one row of 161 entries per requested group
    (the frame's row count, or NaN when the group or the frame is missing),
    then the NaN-ignoring mean of every column. */
module GroupAverage {
  import opened Wrappers
  import opened Stats
  import opened ResultLayout
  import opened CellCounts
  import WellStats

  /** Entry n of a group's row: `None` is NaN. */
  function Entry(file: StoreFile, g: string, n: nat): Option<nat> {
    if g in file && FrameName(n) in file[g] then Some(|file[g][FrameName(n)].rows|) else None
  }

  /** The row of one group: frames 0..160. */
  function GroupRow(file: StoreFile, g: string): (row: seq<Option<nat>>)
    ensures |row| == LastFrame + 1
  {
    seq(LastFrame + 1, n requires 0 <= n <= LastFrame => Entry(file, g, n))
  }

  /** The entries of a group's row agree with what `read_all_cell_counts`
      records for that group: a value exactly where it has a count, and the
      same value. A group missing from the file is a row of NaN. */
  lemma RowMatchesCounts(file: StoreFile, g: string, n: nat)
    requires n <= LastFrame
    ensures g !in file ==> GroupRow(file, g)[n] == None
    ensures g in file ==>
              (GroupRow(file, g)[n].Some? <==> n in CountsBelow(file[g], LastFrame + 1)) &&
              (GroupRow(file, g)[n].Some? ==> GroupRow(file, g)[n].value == CountsBelow(file[g], LastFrame + 1)[n])
  {
    if g in file {
      CountsBelowEntries(file[g], LastFrame + 1);
    }
  }

  /** `all_counts`: the rows of the groups, in the order given. */
  function Rows(file: StoreFile, groups: seq<string>): (rows: seq<seq<Option<nat>>>)
    ensures |rows| == |groups|
    ensures forall i :: 0 <= i < |rows| ==> rows[i] == GroupRow(file, groups[i])
  {
    if groups == [] then [] else Rows(file, groups[..|groups| - 1]) + [GroupRow(file, groups[|groups| - 1])]
  }

  /** Column n of the rows. */
  function Column(rows: seq<seq<Option<nat>>>, n: nat): seq<Option<nat>>
    requires forall i :: 0 <= i < |rows| ==> n < |rows[i]|
  {
    if rows == [] then [] else Column(rows[..|rows| - 1], n) + [rows[|rows| - 1][n]]
  }

  /** The values of a column that are not NaN, in order. */
  function Values(xs: seq<Option<nat>>): (vs: seq<nat>)
    ensures |vs| <= |xs|
    ensures vs == [] <==> forall i :: 0 <= i < |xs| ==> xs[i].None?
  {
    if xs == [] then []
    else
      var before := Values(xs[..|xs| - 1]);
      assert forall i :: 0 <= i < |xs| - 1 ==> xs[..|xs| - 1][i] == xs[i];
      if xs[|xs| - 1].Some? then before + [xs[|xs| - 1].value] else before
  }

  /** `np.nanmean` of a column: the mean of its values, NaN when it has none. */
  function NanMean(xs: seq<Option<nat>>): (m: Option<real>)
    ensures m.None? <==> forall i :: 0 <= i < |xs| ==> xs[i].None?
  {
    var vs := Values(xs);
    if vs == [] then None else Some(Mean(ToReals(vs)))
  }

  /** The NaN-ignoring mean lies between the smallest and the largest value. */
  lemma NanMeanBounds(xs: seq<Option<nat>>)
    requires NanMean(xs).Some?
    ensures Values(xs) != []
    ensures Min(ToReals(Values(xs))) <= NanMean(xs).value <= Max(ToReals(Values(xs)))
  {
    MeanBounds(ToReals(Values(xs)));
  }

  /** The loop over frames for one group. */
  method ReadGroupRow(file: StoreFile, g: string) returns (row: seq<Option<nat>>)
    ensures row == GroupRow(file, g)
  {
    row := [];
    for n := 0 to LastFrame + 1
      invariant |row| == n
      invariant forall k :: 0 <= k < n ==> row[k] == Entry(file, g, k)
    {
      var frameName := FrameName(n);
      if g in file && frameName in file[g] {
        row := row + [Some(|file[g][frameName].rows|)];
      } else {
        row := row + [None];
      }
    }
  }

  /** The loop over the groups, building `all_counts`. */
  method ReadRows(file: StoreFile, groups: seq<string>) returns (allCounts: seq<seq<Option<nat>>>)
    ensures allCounts == Rows(file, groups)
  {
    allCounts := [];
    for i := 0 to |groups|
      invariant allCounts == Rows(file, groups[..i])
    {
      var row := ReadGroupRow(file, groups[i]);
      assert groups[..i + 1][..i] == groups[..i];
      allCounts := allCounts + [row];
    }
    assert groups[..|groups|] == groups;
  }

  /** The loop over the columns: the NaN-ignoring mean of each frame. */
  method ColumnMeans(rows: seq<seq<Option<nat>>>) returns (averages: seq<Option<real>>)
    requires forall i :: 0 <= i < |rows| ==> |rows[i]| == LastFrame + 1
    ensures |averages| == LastFrame + 1
    ensures forall n :: 0 <= n <= LastFrame ==> averages[n] == NanMean(Column(rows, n))
  {
    averages := [];
    for n := 0 to LastFrame + 1
      invariant |averages| == n
      invariant forall k :: 0 <= k < n ==> averages[k] == NanMean(Column(rows, k))
    {
      averages := averages + [NanMean(Column(rows, n))];
    }
  }

  /** `read_group_average_counts(path, group_names)`. With no group at all
      numpy's mean of the empty array is a single NaN, the one-element list
      `[None]` here. */
  method ReadGroupAverageCounts(file: StoreFile, groups: seq<string>) returns (averages: seq<Option<real>>)
    ensures groups == [] ==> averages == [None]
    ensures groups != [] ==> |averages| == LastFrame + 1
    ensures groups != [] ==> forall n :: 0 <= n <= LastFrame ==> averages[n] == NanMean(Column(Rows(file, groups), n))
  {
    var allCounts := ReadRows(file, groups);
    if groups == [] {
      return [None];
    }
    averages := ColumnMeans(allCounts);
  }

  /** The counts `read_all_cell_counts` would return for the file. */
  function CellCountsOf(file: StoreFile): map<string, FrameCounts> {
    map g | g in file :: CountsBelow(file[g], LastFrame + 1)
  }

  /** When every group exists, the non-NaN entries of column n are the
      counts the aggregate scripts gather for frame n, in the same order. */
  lemma {:induction false} ColumnValuesAreGathered(file: StoreFile, groups: seq<string>, n: nat)
    requires n <= LastFrame
    requires forall i :: 0 <= i < |groups| ==> groups[i] in file
    ensures WellStats.Known(CellCountsOf(file), groups)
    ensures Values(Column(Rows(file, groups), n)) == WellStats.Gathered(CellCountsOf(file), groups, n)
  {
    if groups != [] {
      var init := groups[..|groups| - 1];
      var g := groups[|groups| - 1];
      ColumnValuesAreGathered(file, init, n);
      var rows := Rows(file, groups);
      assert rows[..|rows| - 1] == Rows(file, init);
      var col := Column(rows, n);
      assert col[..|col| - 1] == Column(Rows(file, init), n);
      RowMatchesCounts(file, g, n);
    }
  }

  /** The NaN-ignoring average of a frame over groups that all exist is NaN
      exactly where the aggregate scripts drop the frame, and otherwise the
      same mean they compute. */
  lemma AverageMatchesAggregate(file: StoreFile, groups: seq<string>, n: nat)
    requires n <= LastFrame
    requires forall i :: 0 <= i < |groups| ==> groups[i] in file
    ensures WellStats.Known(CellCountsOf(file), groups)
    ensures var gathered := WellStats.Gathered(CellCountsOf(file), groups, n);
            var m := NanMean(Column(Rows(file, groups), n));
            (m.None? <==> gathered == []) &&
            (m.Some? ==> m.value == WellStats.FrameStat(gathered, WellStats.SampleUnlessSingle).0)
  {
    ColumnValuesAreGathered(file, groups, n);
  }
}

=== FILE: naming.dfy ===
/** How the three stages agree on names: a stack written by the stack
    assembly is read by the detection driver under an image id, and the
    group that driver creates is the very group the count scripts look up. */
module Naming {
  import opened Wrappers
  import opened Text
  import opened ResultLayout
  import opened StackAssembly
  import Detection
  import PuitsGroups

  /** The id token of a stack "{well}-{pos}-{channel}_stack.tif", found
      anywhere, is "{well}-{pos}-{channel}", and its group is the field group
      "Image{well}-{pos}-{channel}". */
  lemma StackIdIsField(cfg: Config, dir: string, well: string, pos: nat)
    requires '/' !in well && '_' !in well
    requires '/' !in cfg.outputChannel && '_' !in cfg.outputChannel
    ensures Detection.ImageId(dir + "/" + StackName(cfg, well, pos), 0)
            == Some(well + "-" + NatToString(pos) + "-" + cfg.outputChannel)
    ensures GroupName(Detection.ImageId(dir + "/" + StackName(cfg, well, pos), 0).value)
            == PuitsGroups.FieldGroup(well, pos, cfg.outputChannel)
  {
    var digits := NatToString(pos);
    var id := well + "-" + digits + "-" + cfg.outputChannel;
    var name := StackName(cfg, well, pos);
    assert name == id + ['_'] + "stack.tif";
    assert '/' !in digits && '_' !in digits by {
      assert forall i :: 0 <= i < |digits| ==> IsDigit(digits[i]);
    }
    assert '/' !in id && '_' !in id by {
      assert forall i :: 0 <= i < |id| ==> id[i] in well || id[i] == '-' || id[i] in digits || id[i] in cfg.outputChannel;
    }
    assert '/' !in name by {
      assert forall i :: 0 <= i < |name| ==> name[i] in id || name[i] in "_stack.tif";
    }
    BasenameOfJoin(dir, name);
    SplitAtFirst(id, '_', "stack.tif");
  }

  /** With either configuration of the stack assembly, the stack of every
      well and field is read back by the count scripts as group
      "Image{well}-{field}-C2". */
  lemma ConfiguredStacksAreFieldGroups(dir: string, well: string, pos: nat)
    requires (well in RedFluorescenceConfig().wells && pos in RedFluorescenceConfig().positions)
             || (well in PhaseConfig().wells && pos in PhaseConfig().positions)
    ensures Detection.ImageId(dir + "/" + StackName(RedFluorescenceConfig(), well, pos), 0).Some?
    ensures Detection.ImageId(dir + "/" + StackName(PhaseConfig(), well, pos), 0).Some?
    ensures GroupName(Detection.ImageId(dir + "/" + StackName(RedFluorescenceConfig(), well, pos), 0).value)
            == PuitsGroups.FieldGroup(well, pos, "C2")
    ensures GroupName(Detection.ImageId(dir + "/" + StackName(PhaseConfig(), well, pos), 0).value)
            == PuitsGroups.FieldGroup(well, pos, "C2")
  {
    assert '/' !in well && '_' !in well;
    StackIdIsField(RedFluorescenceConfig(), dir, well, pos);
    StackIdIsField(PhaseConfig(), dir, well, pos);
  }

  /** Every group the aggregate scripts ask for is the group of a stack the
      English assembly writes. */
  lemma AggregateGroupsAreStacks(dir: string, i: nat, s: nat)
    requires i < |PuitsGroups.PlotWells| && 1 <= s <= PuitsGroups.FieldCount
    ensures PuitsGroups.PlotWells[i] in RedFluorescenceConfig().wells && s in RedFluorescenceConfig().positions
    ensures GroupName(Detection.ImageId(dir + "/" + StackName(RedFluorescenceConfig(), PuitsGroups.PlotWells[i], s), 0).value)
            == PuitsGroups.WellGroups(PuitsGroups.PlotWells[i])[s - 1]
  {
    var well := PuitsGroups.PlotWells[i];
    assert well in RedFluorescenceConfig().wells;
    assert s in Positions;
    ConfiguredStacksAreFieldGroups(dir, well, s);
  }
}

=== FILE: overlay.dfy ===
/** The annotation of a stack: every frame is copied into an RGB image whose
    three channels hold the gray value, and a 3x3 square, clamped to the
    image, is painted in the marker colour at every detected cell of that
    frame. Coordinates come from the frame's detection table, column 0 being
    x (the column index) and column 1 being y (the row index). */
module Overlay {
  import opened Wrappers
  import opened ResultLayout

  datatype Rgb = Rgb(r: int, g: int, b: int)

  /** `color_value = [300, 0, 0]`. */
  const Red: Rgb := Rgb(300, 0, 0)

  /** `np.stack([frame, frame, frame], axis=-1)` at one pixel. */
  function Gray(v: int): Rgb {
    Rgb(v, v, v)
  }

  // ------------------------------------------------------- coordinates

  /** numpy's `round`: to the nearest integer, a tie going to the even one. */
  function Round(x: real): (n: int)
    ensures -0.5 <= x - n as real <= 0.5
    ensures x - n as real == 0.5 || n as real - x == 0.5 ==> n % 2 == 0
  {
    var f := x.Floor;
    var d := x - f as real;
    if d < 0.5 then f
    else if d > 0.5 then f + 1
    else if f % 2 == 0 then f else f + 1
  }

  /** `p.round().astype(int)`: one (x, y) pair per row of the table. */
  function Coords(t: Table): (cs: seq<(int, int)>)
    ensures |cs| == |t.rows|
    ensures forall i :: 0 <= i < |cs| ==> cs[i] == (Round(t.rows[i].0), Round(t.rows[i].1))
  {
    seq(|t.rows|, i requires 0 <= i < |t.rows| => (Round(t.rows[i].0), Round(t.rows[i].1)))
  }

  /** The coordinates of frame i: those of table "Image{stack}/frame{i}", none
      when the key is missing (the empty data frame). */
  function FrameCoords(store: map<string, Table>, stackName: string, i: nat): seq<(int, int)> {
    var key := FrameKey(stackName, i);
    if key in store then Coords(store[key]) else []
  }

  // ------------------------------------------------------- the square

  function Max(a: int, b: int): int { if a < b then b else a }
  function Min(a: int, b: int): int { if a < b then a else b }

  /** Where a slice bound `i` falls in an axis of length `len`: a negative
      bound counts from the end, and any bound is clipped to the axis. */
  function SliceIndex(i: int, len: nat): (j: nat)
    ensures j <= len
    ensures 0 <= i <= len ==> j == i
  {
    if i < 0 then Max(i + len, 0) else Min(i, len)
  }

  /** Whether index i of an axis of length len lies in the painted slice
      `[max(p-1, 0) : min(p+1, len-1) + 1]` around p. */
  predicate InSpan(i: int, p: int, len: nat) {
    SliceIndex(Max(p - 1, 0), len) <= i < SliceIndex(Min(p + 1, len - 1) + 1, len)
  }

  /** Whether pixel (r, c) of an H x W image is painted for the point (x, y). */
  predicate InSquare(r: int, c: int, x: int, y: int, h: nat, w: nat) {
    InSpan(r, y, h) && InSpan(c, x, w)
  }

  /** Inside the axis, the clamped slice around any p from -2 on is exactly
      the indices within one of p. */
  lemma SpanIsNeighbourhood(i: int, p: int, len: nat)
    requires 0 <= i < len
    requires p >= -2
    ensures InSpan(i, p, len) <==> -1 <= i - p <= 1
  {
  }

  /** The clamped square is the in-image part of the 3x3 square around the
      point, for any point with coordinates from -2 on. */
  lemma SquareIsNeighbourhood(r: int, c: int, x: int, y: int, h: nat, w: nat)
    requires 0 <= r < h && 0 <= c < w
    requires x >= -2 && y >= -2
    ensures InSquare(r, c, x, y, h, w) <==> -1 <= r - y <= 1 && -1 <= c - x <= 1
  {
    SpanIsNeighbourhood(r, y, h);
    SpanIsNeighbourhood(c, x, w);
  }

  /** Further left or above, the slice stop becomes negative and numpy counts
      it from the end: a point at y = -3 paints rows far from it. */
  lemma FarNegativeWraps()
    ensures InSpan(0, -3, 3) && InSpan(1, -3, 3)
  {
  }

  /** A point from -2 on paints at most nine pixels. */
  lemma AtMostNine(x: int, y: int, h: nat, w: nat)
    requires x >= -2 && y >= -2
    ensures |set r, c | 0 <= r < h && 0 <= c < w && InSquare(r, c, x, y, h, w) :: (r, c)| <= 9
  {
    var painted := set r, c | 0 <= r < h && 0 <= c < w && InSquare(r, c, x, y, h, w) :: (r, c);
    var around := {(y - 1, x - 1), (y - 1, x), (y - 1, x + 1),
                   (y, x - 1), (y, x), (y, x + 1),
                   (y + 1, x - 1), (y + 1, x), (y + 1, x + 1)};
    forall q | q in painted
      ensures q in around
    {
      var r, c :| 0 <= r < h && 0 <= c < w && InSquare(r, c, x, y, h, w) && q == (r, c);
      SquareIsNeighbourhood(r, c, x, y, h, w);
    }
    SubsetCardinality(painted, around);
  }

  lemma SubsetCardinality<T>(a: set<T>, b: set<T>)
    requires a <= b
    ensures |a| <= |b|
  {
    assert b == a + (b - a);
  }

  // ------------------------------------------------------- painting

  /** Pixel (r, c) is painted by some point of `coords`. */
  predicate Marked(coords: seq<(int, int)>, r: int, c: int, h: nat, w: nat) {
    coords != [] &&
    (Marked(coords[..|coords| - 1], r, c, h, w) ||
     InSquare(r, c, coords[|coords| - 1].0, coords[|coords| - 1].1, h, w))
  }

  /** A pixel is painted exactly when it lies in the square of one of the
      points. */
  lemma {:induction false} MarkedBySomePoint(coords: seq<(int, int)>, r: int, c: int, h: nat, w: nat)
    ensures Marked(coords, r, c, h, w) <==> exists k :: 0 <= k < |coords| && InSquare(r, c, coords[k].0, coords[k].1, h, w)
  {
    if coords != [] {
      var init := coords[..|coords| - 1];
      MarkedBySomePoint(init, r, c, h, w);
      assert forall k :: 0 <= k < |init| ==> init[k] == coords[k];
      if InSquare(r, c, coords[|coords| - 1].0, coords[|coords| - 1].1, h, w) {
        assert 0 <= |coords| - 1 < |coords|;
      }
    }
  }

  /** The pixel of a point inside the image is painted. */
  lemma PointPainted(coords: seq<(int, int)>, k: nat, h: nat, w: nat)
    requires k < |coords|
    requires 0 <= coords[k].1 < h && 0 <= coords[k].0 < w
    ensures Marked(coords, coords[k].1, coords[k].0, h, w)
  {
    MarkedBySomePoint(coords, coords[k].1, coords[k].0, h, w);
    SquareIsNeighbourhood(coords[k].1, coords[k].0, coords[k].0, coords[k].1, h, w);
  }

  /** A pixel further than one from every point (all from -2 on) keeps its
      gray value. */
  lemma FarPixelUnmarked(coords: seq<(int, int)>, r: int, c: int, h: nat, w: nat)
    requires 0 <= r < h && 0 <= c < w
    requires forall k :: 0 <= k < |coords| ==> coords[k].0 >= -2 && coords[k].1 >= -2
    requires forall k :: 0 <= k < |coords| ==> r - coords[k].1 > 1 || coords[k].1 - r > 1 || c - coords[k].0 > 1 || coords[k].0 - c > 1
    ensures !Marked(coords, r, c, h, w)
  {
    MarkedBySomePoint(coords, r, c, h, w);
    forall k | 0 <= k < |coords|
      ensures !InSquare(r, c, coords[k].0, coords[k].1, h, w)
    {
      SquareIsNeighbourhood(r, c, coords[k].0, coords[k].1, h, w);
    }
  }

  /** `rgb_frame[y_min:y_max+1, x_min:x_max+1] = color_value`. */
  method PaintSquare(img: array2<Rgb>, x: int, y: int)
    modifies img
    ensures forall r, c :: 0 <= r < img.Length0 && 0 <= c < img.Length1 ==>
              img[r, c] == if InSquare(r, c, x, y, img.Length0, img.Length1) then Red else old(img[r, c])
  {
    var xMin, xMax := Max(x - 1, 0), Min(x + 1, img.Length1 - 1);
    var yMin, yMax := Max(y - 1, 0), Min(y + 1, img.Length0 - 1);
    var r0, r1 := SliceIndex(yMin, img.Length0), SliceIndex(yMax + 1, img.Length0);
    var c0, c1 := SliceIndex(xMin, img.Length1), SliceIndex(xMax + 1, img.Length1);
    forall r, c | r0 <= r < r1 && c0 <= c < c1 {
      img[r, c] := Red;
    }
  }

  /** One frame of the loop: the gray frame replicated into RGB, then the
      square of every point painted. A pixel ends up in the marker colour
      exactly when some point's square covers it, and otherwise holds its
      gray value; the input frame is left as it was. */
  method AnnotateFrame(frame: array2<int>, coords: seq<(int, int)>) returns (rgb: array2<Rgb>)
    ensures fresh(rgb)
    ensures rgb.Length0 == frame.Length0 && rgb.Length1 == frame.Length1
    ensures forall r, c :: 0 <= r < rgb.Length0 && 0 <= c < rgb.Length1 ==>
              rgb[r, c] == if Marked(coords, r, c, rgb.Length0, rgb.Length1) then Red else Gray(frame[r, c])
  {
    rgb := new Rgb[frame.Length0, frame.Length1]((r, c) reads frame requires 0 <= r < frame.Length0 && 0 <= c < frame.Length1 => Gray(frame[r, c]));
    for k := 0 to |coords|
      invariant forall r, c :: 0 <= r < rgb.Length0 && 0 <= c < rgb.Length1 ==>
                  rgb[r, c] == if Marked(coords[..k], r, c, rgb.Length0, rgb.Length1) then Red else Gray(frame[r, c])
    {
      assert coords[..k + 1][..k] == coords[..k];
      PaintSquare(rgb, coords[k].0, coords[k].1);
    }
    assert coords[..|coords|] == coords;
  }

  /** The loop over the stack: one annotated frame per input frame, in the
      same order, each a new image, frame i painted with the points of table
      "Image{stack}/frame{i}". */
  method AnnotateStack(frames: seq<array2<int>>, store: map<string, Table>, stackName: string)
    returns (annotated: seq<array2<Rgb>>)
    ensures |annotated| == |frames|
    ensures forall i :: 0 <= i < |frames| ==> fresh(annotated[i])
    ensures forall i, j :: 0 <= i < j < |frames| ==> annotated[i] != annotated[j]
    ensures forall i :: 0 <= i < |frames| ==>
              annotated[i].Length0 == frames[i].Length0 && annotated[i].Length1 == frames[i].Length1
    ensures forall i, r, c :: 0 <= i < |frames| && 0 <= r < annotated[i].Length0 && 0 <= c < annotated[i].Length1 ==>
              annotated[i][r, c] == if Marked(FrameCoords(store, stackName, i), r, c, annotated[i].Length0, annotated[i].Length1)
                                    then Red else Gray(frames[i][r, c])
  {
    annotated := [];
    for i := 0 to |frames|
      invariant |annotated| == i
      invariant forall j :: 0 <= j < i ==> fresh(annotated[j])
      invariant forall j, k :: 0 <= j < k < i ==> annotated[j] != annotated[k]
      invariant forall j :: 0 <= j < i ==>
                  annotated[j].Length0 == frames[j].Length0 && annotated[j].Length1 == frames[j].Length1
      invariant forall j, r, c :: 0 <= j < i && 0 <= r < annotated[j].Length0 && 0 <= c < annotated[j].Length1 ==>
                  annotated[j][r, c] == if Marked(FrameCoords(store, stackName, j), r, c, annotated[j].Length0, annotated[j].Length1)
                                        then Red else Gray(frames[j][r, c])
    {
      var key := FrameKey(stackName, i);
      var coords := if key in store then Coords(store[key]) else [];
      var rgb := AnnotateFrame(frames[i], coords);
      annotated := annotated + [rgb];
    }
  }
}

=== FILE: puits_groups.dfy ===
/** The wells and image groups the count scripts ask for, the concentrations
    paired with the wells, and the per-field loop of the single-puits script. */
module PuitsGroups {
  import opened Wrappers
  import opened Text
  import opened ResultLayout
  import opened CellCounts
  import opened WellStats
  import StackOutput

  /** "Image{well}-{suffix}-{channel}": the group of one field of a well. */
  function FieldGroup(well: string, suffix: nat, channel: string): string {
    GroupName(well + "-" + NatToString(suffix) + "-" + channel)
  }

  /** Distinct fields have distinct groups. */
  lemma FieldGroupInjective(v: string, s: nat, w: string, t: nat, channel: string)
    ensures FieldGroup(v, s, channel) == FieldGroup(w, t, channel) ==> v == w && s == t
  {
    var a := v + "-" + NatToString(s) + "-" + channel;
    var b := w + "-" + NatToString(t) + "-" + channel;
    if FieldGroup(v, s, channel) == FieldGroup(w, t, channel) {
      assert a == FieldGroup(v, s, channel)[5..];
      assert b == FieldGroup(w, t, channel)[5..];
    }
    StackOutput.NumberedNameInjective(v, s, w, t, channel);
  }

  /** The fields of a well: `range(1, 10)`. */
  const FieldCount: nat := 9

  /** The wells of aggregate_puits_cell_counts.py, in its dict order. */
  const AggregateWells: seq<string> := ["A2", "A3", "B2", "B3", "C2", "C3"]

  /** The wells of the two plotting scripts, in their dict order. */
  const PlotWells: seq<string> := ["A2", "B2", "C2", "A3", "B3", "C3"]

  /** The groups of a well's nine fields of channel C2, in field order. */
  function WellGroups(well: string): seq<string> {
    seq(FieldCount, i requires 0 <= i < FieldCount => FieldGroup(well, i + 1, "C2"))
  }

  /** The `puits_groups` dict of the aggregate scripts. */
  function AllFieldsGroups(wells: seq<string>): seq<(string, seq<string>)> {
    seq(|wells|, i requires 0 <= i < |wells| => (wells[i], WellGroups(wells[i])))
  }

  /** The nine groups of a well are distinct, so each field's count enters
      the well's statistics once. */
  lemma WellGroupsDistinct(well: string)
    ensures forall i, j :: 0 <= i < j < |WellGroups(well)| ==> WellGroups(well)[i] != WellGroups(well)[j]
  {
    forall i, j | 0 <= i < j < FieldCount
      ensures WellGroups(well)[i] != WellGroups(well)[j]
    {
      FieldGroupInjective(well, i + 1, well, j + 1, "C2");
    }
  }

  /** The per-field dict of the single-puits script: every well gets the
      single group of field `suffix`. */
  function SingleFieldGroups(suffix: nat): (pg: seq<(string, seq<string>)>)
    ensures |pg| == |PlotWells|
    ensures forall i :: 0 <= i < |pg| ==> pg[i].0 == PlotWells[i] && |pg[i].1| == 1
  {
    seq(|PlotWells|, i requires 0 <= i < |PlotWells| => (PlotWells[i], [FieldGroup(PlotWells[i], suffix, "C2")]))
  }

  /** With one group per well, every frame that group holds keeps its count
      as the mean, with variance 0. */
  lemma SingleFieldStats(cellCounts: map<string, FrameCounts>, suffix: nat, rule: VarianceRule, i: nat)
    requires AllKnown(cellCounts, SingleFieldGroups(suffix))
    requires i < |PlotWells|
    ensures PlotWells[i] in StatsOf(cellCounts, SingleFieldGroups(suffix), rule)
    ensures var g := FieldGroup(PlotWells[i], suffix, "C2");
            var s := StatsOf(cellCounts, SingleFieldGroups(suffix), rule)[PlotWells[i]];
            var frames := CountedFrames(cellCounts, [g], LastFrame + 1);
            g in cellCounts &&
            (forall f: nat :: f in frames <==> f <= LastFrame && f in cellCounts[g]) &&
            |s.meanCounts| == |s.variances| == |frames| &&
            forall k :: 0 <= k < |frames| ==>
              frames[k] in cellCounts[g] &&
              s.meanCounts[k] == cellCounts[g][frames[k]] as real && s.variances[k] == 0.0
  {
    var pg := SingleFieldGroups(suffix);
    var g := FieldGroup(PlotWells[i], suffix, "C2");
    assert pg[i].1 == [g];
    assert Known(cellCounts, [g]);
    assert forall j :: i < j < |pg| ==> pg[j].0 != pg[i].0;
    StatsOfEntry(cellCounts, pg, rule, i);
    SingleGroupSeries(cellCounts, g, rule, LastFrame + 1);
  }

  /** The concentrations, 0.11 x10^5/ml doubling at every well. */
  const ConcentrationValues: seq<real> := [0.11, 0.22, 0.44, 0.88, 1.76, 3.52]

  /** `{name: conc for name, conc in zip(names, values)}`: `zip` stops at the
      shorter list and a repeated name keeps its last value. */
  function Zip(names: seq<string>, values: seq<real>): map<string, real> {
    if |names| == 0 || |values| == 0 then map[]
    else if |names| > |values| then Zip(names[..|values|], values)
    else if |values| > |names| then Zip(names, values[..|names|])
    else Zip(names[..|names| - 1], values[..|values| - 1])[names[|names| - 1] := values[|values| - 1]]
  }

  /** Pairing distinct names with values: each name of the first
      min(|names|, |values|) gets the value at its own position, and there is
      no other key. */
  lemma {:induction false} ZipEntries(names: seq<string>, values: seq<real>)
    requires forall i, j :: 0 <= i < j < |names| ==> names[i] != names[j]
    ensures forall i :: 0 <= i < |names| && i < |values| ==> names[i] in Zip(names, values) && Zip(names, values)[names[i]] == values[i]
    ensures forall name :: name in Zip(names, values) ==> exists i :: 0 <= i < |names| && i < |values| && names[i] == name
    decreases |names| + |values|
  {
    if |names| == 0 || |values| == 0 {
    } else if |names| > |values| {
      ZipEntries(names[..|values|], values);
    } else if |values| > |names| {
      ZipEntries(names, values[..|names|]);
    } else {
      var n := |names| - 1;
      ZipEntries(names[..n], values[..n]);
      forall name | name in Zip(names, values)
        ensures exists i :: 0 <= i < |names| && i < |values| && names[i] == name
      {
        if name != names[n] {
          var i :| 0 <= i < n && names[..n][i] == name;
          assert names[i] == name;
        }
      }
    }
  }

  /** `PUITS_CONCENTRATIONS` pairs A2..C3 with 0.11..3.52 in the plotting
      order, each well's value double the one before. */
  lemma PlotConcentrations()
    ensures Zip(PlotWells, ConcentrationValues).Keys == set i | 0 <= i < |PlotWells| :: PlotWells[i]
    ensures forall i :: 0 <= i < |PlotWells| ==> Zip(PlotWells, ConcentrationValues)[PlotWells[i]] == ConcentrationValues[i]
    ensures forall i :: 0 < i < |ConcentrationValues| ==> ConcentrationValues[i] == 2.0 * ConcentrationValues[i - 1]
  {
    ZipEntries(PlotWells, ConcentrationValues);
  }

  /** OUTPUT_TEMPLATE of the single-puits script. */
  function OutputPath(runTag: string, suffix: nat): string {
    "results 151025/initial curve/puits_cell_counts_" + runTag + "_" + NatToString(suffix) + ".pdf"
  }

  /** Distinct fields are plotted to distinct files. */
  lemma OutputPathInjective(runTag: string, s: nat, t: nat)
    ensures OutputPath(runTag, s) == OutputPath(runTag, t) ==> s == t
  {
    var prefix := "results 151025/initial curve/puits_cell_counts_" + runTag + "_";
    if OutputPath(runTag, s) == OutputPath(runTag, t) {
      var p, q := OutputPath(runTag, s), OutputPath(runTag, t);
      assert |NatToString(s)| == |NatToString(t)|;
      assert NatToString(s) == p[|prefix|..|p| - 4];
      assert NatToString(t) == q[|prefix|..|q| - 4];
      FormatInjective(s, t);
    }
  }

  /** The plot of field `suffix`: its file and the population statistics of
      the field's groups. */
  predicate FieldPlot(cellCounts: map<string, FrameCounts>, runTag: string, suffix: nat, plot: (string, map<string, WellSeries>)) {
    AllKnown(cellCounts, SingleFieldGroups(suffix)) &&
    plot == (OutputPath(runTag, suffix), StatsOf(cellCounts, SingleFieldGroups(suffix), Population))
  }

  /** The loop of the single-puits script's `main` over fields 1..9: one plot
      per field, each from the population statistics of that field's groups.
      The first KeyError ends the loop; the plots already saved stay. */
  method SingleFieldPlots(cellCounts: map<string, FrameCounts>, runTag: string)
    returns (plots: seq<(string, map<string, WellSeries>)>, error: Option<string>)
    ensures |plots| <= FieldCount
    ensures forall k :: 0 <= k < |plots| ==> FieldPlot(cellCounts, runTag, k + 1, plots[k])
    ensures error.None? <==> |plots| == FieldCount
    ensures error.Some? ==> !AllKnown(cellCounts, SingleFieldGroups(|plots| + 1))
  {
    plots := [];
    for suffix := 1 to FieldCount + 1
      invariant |plots| == suffix - 1
      invariant forall k :: 0 <= k < |plots| ==> FieldPlot(cellCounts, runTag, k + 1, plots[k])
    {
      var stats := CalculatePuitsStats(cellCounts, SingleFieldGroups(suffix), Population);
      if stats.Err? {
        assert suffix == |plots| + 1;
        return plots, Some(stats.error);
      }
      var plot := (OutputPath(runTag, suffix), stats.value);
      assert FieldPlot(cellCounts, runTag, suffix, plot);
      plots := plots + [plot];
    }
    error := None;
  }
}

=== FILE: result_layout.dfy ===
/** The key scheme of the detection store, shared by the driver that writes it
    and by every script that reads it: one group "Image{id}" per image, holding
    a "background" group and one table "frame{n}" per frame. */
module ResultLayout {
  import opened Text

  /** A detection table: one row (x, y) per detected cell. Its number of rows
      is the cell count every reader uses. */
  datatype Table = Table(rows: seq<(real, real)>)

  function GroupName(id: string): string {
    "Image" + id
  }

  function FrameName(n: nat): string {
    "frame" + NatToString(n)
  }

  /** "Image{id}/frame{n}". */
  function FrameKey(id: string, n: nat): string {
    GroupName(id) + "/" + FrameName(n)
  }

  /** "Image{id}/background". */
  function BackgroundKey(id: string): string {
    GroupName(id) + "/background"
  }

  /** Distinct frame numbers name distinct members of a group. */
  lemma FrameNameInjective(m: nat, n: nat)
    ensures FrameName(m) == FrameName(n) ==> m == n
  {
    if FrameName(m) == FrameName(n) {
      assert NatToString(m) == FrameName(m)[5..];
      FormatInjective(m, n);
    }
  }

  /** A frame key determines its image id and its frame number, as long as
      ids contain no '/' (ids are file-name tokens). */
  lemma FrameKeyInjective(a: string, m: nat, b: string, n: nat)
    requires '/' !in a && '/' !in b
    ensures FrameKey(a, m) == FrameKey(b, n) ==> a == b && m == n
  {
    if FrameKey(a, m) == FrameKey(b, n) {
      assert '/' !in FrameName(m) && '/' !in FrameName(n) by {
        assert forall i :: 0 <= i < |FrameName(m)| ==> FrameName(m)[i] != '/';
        assert forall i :: 0 <= i < |FrameName(n)| ==> FrameName(n)[i] != '/';
      }
      var p, q := [GroupName(a), FrameName(m)], [GroupName(b), FrameName(n)];
      assert Join(p, '/') == FrameKey(a, m);
      assert Join(q, '/') == FrameKey(b, n);
      SplitJoin(p, '/');
      SplitJoin(q, '/');
      assert a == GroupName(a)[5..] && b == GroupName(b)[5..];
      FrameNameInjective(m, n);
    }
  }
}

=== FILE: stack_assembly.dfy ===
/** Chronological stack assembly: the scan of a ScanData tree laid out as
    "YYMM/DD/HHMM/<camera>/<well>-<pos>-<channel>.tif", the per-(well,
    position) record lists it fills, and the time-ordered stacks written from
    them. Two variants of the script share this logic and differ only in their
    configuration (see `RedFluorescenceConfig` and `PhaseConfig`). */
module StackAssembly {
  import opened Wrappers
  import opened Text

  // ---------------------------------------------------------------- the tree

  /** An entry of the scanned tree as `os.listdir`, `os.path.isdir` and
      `os.path.isfile` see it; `children` are in listing order. */
  datatype Node = File(name: string) | Dir(name: string, children: seq<Node>)

  /** `os.path.join(dir, name)` for a relative `name`: a separator is put
      between the two unless `dir` is empty or already ends with one (the
      first script's base folder is given as ".../ScanData/"). */
  function JoinPath(dir: string, name: string): string {
    JoinPrefix(dir) + name
  }

  /** The joined path starts with `dir`, ends with `name`, has a '/' right
      before `name` when `dir` is not empty, and has at most one character
      more than the two together: no separator is doubled. */
  lemma JoinPathShape(dir: string, name: string)
    ensures var path := JoinPath(dir, name);
            && |dir| + |name| <= |path| <= |dir| + 1 + |name|
            && path[..|dir|] == dir && path[|path| - |name|..] == name
            && (dir != [] ==> path[|path| - |name| - 1] == '/')
  {
  }

  /** What `os.path.join` puts before the name. */
  function JoinPrefix(dir: string): (prefix: string)
    ensures dir != [] ==> prefix != [] && prefix[|prefix| - 1] == '/'
  {
    if dir == [] || dir[|dir| - 1] == '/' then dir else dir + "/"
  }

  /** The listing of the directory `name` inside a listing, if there is one
      (`os.path.isdir(os.path.join(parent, name))`). */
  function FindDir(entries: seq<Node>, name: string): (r: Option<seq<Node>>)
    ensures r.None? <==> forall i :: 0 <= i < |entries| ==> !(entries[i].Dir? && entries[i].name == name)
    ensures r.Some? ==> exists i :: 0 <= i < |entries| && entries[i] == Dir(name, r.value)
  {
    if entries == [] then None
    else if entries[0].Dir? && entries[0].name == name then Some(entries[0].children)
    else
      var r := FindDir(entries[1..], name);
      assert forall i :: 1 <= i < |entries| ==> entries[i] == entries[1..][i - 1];
      r
  }

  // ------------------------------------------------------- dates and times

  datatype DateTime = DateTime(year: int, month: int, day: int, hour: int, minute: int)

  predicate IsLeapYear(y: int) {
    y % 4 == 0 && (y % 100 != 0 || y % 400 == 0)
  }

  function DaysInMonth(y: int, m: int): int
    requires 1 <= m <= 12
  {
    if m == 2 then (if IsLeapYear(y) then 29 else 28)
    else if m == 4 || m == 6 || m == 9 || m == 11 then 30
    else 31
  }

  /** The fields Python's `datetime` accepts. */
  predicate ValidDateTime(dt: DateTime) {
    && 1 <= dt.year <= 9999
    && 1 <= dt.month <= 12
    && 1 <= dt.day <= DaysInMonth(dt.year, dt.month)
    && 0 <= dt.hour < 24
    && 0 <= dt.minute < 60
  }

  /** `datetime(year, month, day, hour, minute)`; `None` is its ValueError. */
  function MakeDateTime(year: int, month: int, day: int, hour: int, minute: int): (r: Option<DateTime>)
    ensures r.Some? <==> ValidDateTime(DateTime(year, month, day, hour, minute))
    ensures r.Some? ==> r.value == DateTime(year, month, day, hour, minute)
  {
    var dt := DateTime(year, month, day, hour, minute);
    if ValidDateTime(dt) then Some(dt) else None
  }

  /** Python's ordering of `datetime` values: field by field. */
  predicate TimeLe(a: DateTime, b: DateTime) {
    || a.year < b.year
    || (a.year == b.year && a.month < b.month)
    || (a.year == b.year && a.month == b.month && a.day < b.day)
    || (a.year == b.year && a.month == b.month && a.day == b.day && a.hour < b.hour)
    || (a.year == b.year && a.month == b.month && a.day == b.day && a.hour == b.hour && a.minute <= b.minute)
  }

  // ------------------------------------------------------- folder names

  /** A month folder "YYMM": a directory whose name is four digits. */
  predicate IsMonthFolder(n: Node) {
    n.Dir? && |n.name| == 4 && IsDigits(n.name)
  }

  /** A day folder: a directory whose name is all digits. */
  predicate IsDayFolder(n: Node) {
    n.Dir? && IsDigits(n.name)
  }

  /** A time folder "HHMM": a directory whose name is four digits. */
  predicate IsTimeFolder(n: Node) {
    n.Dir? && |n.name| == 4 && IsDigits(n.name)
  }

  /** Two-digit zero-padded decimal, the way the acquisition software names folders. */
  function TwoDigits(n: nat): string
    requires n < 100
  {
    [DigitChar(n / 10), DigitChar(n % 10)]
  }

  /** `(int(name[:2]), int(name[2:]))` for a four-digit folder name. */
  function SplitFourDigits(name: string): (r: (nat, nat))
    requires |name| == 4 && IsDigits(name)
    ensures r.0 == 10 * DigitValue(name[0]) + DigitValue(name[1])
    ensures r.1 == 10 * DigitValue(name[2]) + DigitValue(name[3])
  {
    var hi, lo := name[..2], name[2..];
    TwoDigitsValue(hi);
    TwoDigitsValue(lo);
    (DigitsValue(hi), DigitsValue(lo))
  }

  /** year = 2000 + YY and month = MM for a month folder "YYMM". */
  function ParseYearMonth(name: string): (r: (int, int))
    requires |name| == 4 && IsDigits(name)
    ensures r.0 == 2000 + 10 * DigitValue(name[0]) + DigitValue(name[1])
    ensures r.1 == 10 * DigitValue(name[2]) + DigitValue(name[3])
    ensures 2000 <= r.0 <= 2099 && 0 <= r.1 <= 99
  {
    var (yy, mm) := SplitFourDigits(name);
    (2000 + yy, mm)
  }

  /** hour = HH and minute = MM for a time folder "HHMM". */
  function ParseHourMinute(name: string): (r: (int, int))
    requires |name| == 4 && IsDigits(name)
    ensures r.0 == 10 * DigitValue(name[0]) + DigitValue(name[1])
    ensures r.1 == 10 * DigitValue(name[2]) + DigitValue(name[3])
    ensures 0 <= r.0 <= 99 && 0 <= r.1 <= 99
  {
    SplitFourDigits(name)
  }

  /** Parsing inverts the folder naming: "YYMM" built from a year of this
      century and a month reads back as that year and month. */
  lemma ParseYearMonthOfName(year: int, month: nat)
    requires 2000 <= year <= 2099 && month < 100
    ensures var name := TwoDigits(year - 2000) + TwoDigits(month);
            |name| == 4 && IsDigits(name) && ParseYearMonth(name) == (year, month)
  {
    var name := TwoDigits(year - 2000) + TwoDigits(month);
    assert name[0] == DigitChar((year - 2000) / 10) && name[1] == DigitChar((year - 2000) % 10);
    assert name[2] == DigitChar(month / 10) && name[3] == DigitChar(month % 10);
  }

  /** Likewise "HHMM" reads back as the hour and minute it was built from. */
  lemma ParseHourMinuteOfName(hour: nat, minute: nat)
    requires hour < 100 && minute < 100
    ensures var name := TwoDigits(hour) + TwoDigits(minute);
            |name| == 4 && IsDigits(name) && ParseHourMinute(name) == (hour, minute)
  {
    var name := TwoDigits(hour) + TwoDigits(minute);
    assert name[0] == DigitChar(hour / 10) && name[1] == DigitChar(hour % 10);
    assert name[2] == DigitChar(minute / 10) && name[3] == DigitChar(minute % 10);
  }

  // ------------------------------------------------------- configuration

  /** What one run of the script scans for and how it names its output. */
  datatype Config = Config(
    camera: string,          // the camera sub-folder inside each time folder
    wells: seq<string>,
    positions: seq<nat>,
    inputChannel: string,    // channel in the names of the files stacked
    outputChannel: string)   // channel in the name of the stack written

  const Positions: seq<nat> := [1, 2, 3, 4, 5, 6, 7, 8, 9]

  /** The English script: camera 1031's plate, 9 wells, red-fluorescence channel C2 in and out. */
  function RedFluorescenceConfig(): Config {
    Config("1031", ["A1", "A2", "A3", "B1", "B2", "B3", "C1", "C2", "C3"], Positions, "C2", "C2")
  }

  /** The first script: 6 wells, bright-field `Ph` files in, stacks named C2 out. */
  function PhaseConfig(): Config {
    Config("971", ["A1", "A2", "A3", "B1", "B2", "B3"], Positions, "Ph", "C2")
  }

  /** "{well}-{pos}-{channel}.tif", the file looked for in a camera folder. */
  function InputName(cfg: Config, well: string, pos: nat): string {
    well + "-" + NatToString(pos) + "-" + cfg.inputChannel + ".tif"
  }

  /** "{well}-{pos}-{channel}_stack.tif", the stack written for a pair. */
  function StackName(cfg: Config, well: string, pos: nat): string {
    well + "-" + NatToString(pos) + "-" + cfg.outputChannel + "_stack.tif"
  }

  // ------------------------------------------------------- records

  /** A (well, position) pair, the key of the record lists. */
  type Key = (string, nat)

  /** A file found, with the timestamp of the folder it was found in. */
  datatype Record = Record(time: DateTime, path: string)

  /** A record together with the list it is appended to. */
  datatype Hit = Hit(key: Key, record: Record)

  /** The pairs the record lists are created for: every configured well with
      every configured position. */
  function KeySet(cfg: Config): set<Key> {
    set w, p | w in cfg.wells && p in cfg.positions :: (w, p)
  }

  /** `{(p, pos): [] for p in puits for pos in positions}`. */
  function InitialRecords(cfg: Config): (m: map<Key, seq<Record>>)
    ensures m.Keys == KeySet(cfg)
    ensures forall k :: k in m ==> m[k] == []
  {
    map k | k in KeySet(cfg) :: []
  }

  /** The record lists after appending `hits` in order to `records`. */
  function AddHits(records: map<Key, seq<Record>>, hits: seq<Hit>): (m: map<Key, seq<Record>>)
    ensures m.Keys == records.Keys
  {
    if hits == [] then records
    else
      var m := AddHits(records, hits[..|hits| - 1]);
      var h := hits[|hits| - 1];
      if h.key in m then m[h.key := m[h.key] + [h.record]] else m
  }

  /** The records of `hits` that belong to the list of `k`, in order. */
  function RecordsFor(hits: seq<Hit>, k: Key): seq<Record> {
    if hits == [] then []
    else
      RecordsFor(hits[..|hits| - 1], k)
      + (if hits[|hits| - 1].key == k then [hits[|hits| - 1].record] else [])
  }

  lemma AddHitsStep(records: map<Key, seq<Record>>, hits: seq<Hit>, h: Hit)
    ensures AddHits(records, hits + [h])
         == var m := AddHits(records, hits);
            if h.key in m then m[h.key := m[h.key] + [h.record]] else m
  {
    assert (hits + [h])[..|hits|] == hits;
  }

  /** Appending two batches of hits is appending their concatenation. */
  lemma {:induction false} AddHitsAppend(records: map<Key, seq<Record>>, a: seq<Hit>, b: seq<Hit>)
    ensures AddHits(AddHits(records, a), b) == AddHits(records, a + b)
    decreases |b|
  {
    if b == [] {
      assert a + b == a;
    } else {
      var b' := b[..|b| - 1];
      AddHitsAppend(records, a, b');
      assert (a + b)[..|a + b| - 1] == a + b';
      assert (a + b)[|a + b| - 1] == b[|b| - 1];
    }
  }

  /** Each list ends up as its initial contents followed by exactly the hits
      for its key, in discovery order. */
  lemma {:induction false} AddHitsContents(records: map<Key, seq<Record>>, hits: seq<Hit>, k: Key)
    requires k in records
    ensures AddHits(records, hits)[k] == records[k] + RecordsFor(hits, k)
    decreases |hits|
  {
    if hits != [] {
      AddHitsContents(records, hits[..|hits| - 1], k);
    }
  }

  // ------------------------------------------------------- the scan, as hits

  /** Files found for one well in a camera folder, positions in order. */
  function PositionHits(cfg: Config, files: seq<Node>, dir: string, dt: DateTime,
                        well: string, positions: seq<nat>): seq<Hit>
  {
    if positions == [] then []
    else
      var pos := positions[|positions| - 1];
      var name := InputName(cfg, well, pos);
      PositionHits(cfg, files, dir, dt, well, positions[..|positions| - 1])
      + (if File(name) in files then [Hit((well, pos), Record(dt, JoinPath(dir, name)))] else [])
  }

  /** Files found in a camera folder, wells outer and positions inner. */
  function CameraHits(cfg: Config, files: seq<Node>, dir: string, dt: DateTime, wells: seq<string>): seq<Hit> {
    if wells == [] then []
    else
      CameraHits(cfg, files, dir, dt, wells[..|wells| - 1])
      + PositionHits(cfg, files, dir, dt, wells[|wells| - 1], cfg.positions)
  }

  /** What a time folder contributes: nothing unless it is "HHMM", holds the
      camera folder and names a valid date and time. */
  function TimeHits(cfg: Config, node: Node, dayPath: string, year: int, month: int, day: int): seq<Hit> {
    if !IsTimeFolder(node) then []
    else
      match FindDir(node.children, cfg.camera)
      case None => []
      case Some(files) =>
        var (hour, minute) := ParseHourMinute(node.name);
        match MakeDateTime(year, month, day, hour, minute)
        case None => []
        case Some(dt) => CameraHits(cfg, files, JoinPath(JoinPath(dayPath, node.name), cfg.camera), dt, cfg.wells)
  }

  function TimesHits(cfg: Config, nodes: seq<Node>, dayPath: string, year: int, month: int, day: int): seq<Hit> {
    if nodes == [] then []
    else
      TimesHits(cfg, nodes[..|nodes| - 1], dayPath, year, month, day)
      + TimeHits(cfg, nodes[|nodes| - 1], dayPath, year, month, day)
  }

  /** What a day folder contributes: nothing unless its name is all digits. */
  function DayHits(cfg: Config, node: Node, monthPath: string, year: int, month: int): seq<Hit> {
    if !IsDayFolder(node) then []
    else TimesHits(cfg, node.children, JoinPath(monthPath, node.name), year, month, DigitsValue(node.name))
  }

  function DaysHits(cfg: Config, nodes: seq<Node>, monthPath: string, year: int, month: int): seq<Hit> {
    if nodes == [] then []
    else
      DaysHits(cfg, nodes[..|nodes| - 1], monthPath, year, month)
      + DayHits(cfg, nodes[|nodes| - 1], monthPath, year, month)
  }

  /** What a month folder contributes: nothing unless it is "YYMM". */
  function MonthHits(cfg: Config, node: Node, basePath: string): seq<Hit> {
    if !IsMonthFolder(node) then []
    else
      var (year, month) := ParseYearMonth(node.name);
      DaysHits(cfg, node.children, JoinPath(basePath, node.name), year, month)
  }

  /** Every file the scan of the base folder's listing finds, in discovery order. */
  function ScanHits(cfg: Config, nodes: seq<Node>, basePath: string): seq<Hit> {
    if nodes == [] then []
    else ScanHits(cfg, nodes[..|nodes| - 1], basePath) + MonthHits(cfg, nodes[|nodes| - 1], basePath)
  }

  // ------------------------------------------------------- what the scan finds

  /** A hit is for a configured pair, carries a timestamp `datetime` accepts
      and points at the file "{well}-{pos}-{channel}.tif" of that pair. */
  predicate HitOk(cfg: Config, h: Hit) {
    && h.key in KeySet(cfg)
    && ValidDateTime(h.record.time)
    && EndsWith(h.record.path, "/" + InputName(cfg, h.key.0, h.key.1))
  }

  lemma JoinPathEndsWith(dir: string, name: string)
    requires dir != []
    ensures EndsWith(JoinPath(dir, name), "/" + name)
  {
    var prefix := JoinPrefix(dir);
    assert JoinPath(dir, name)[|prefix| - 1..] == [prefix[|prefix| - 1]] + name;
  }

  lemma {:induction false} PositionHitsOk(cfg: Config, files: seq<Node>, dir: string, dt: DateTime,
                                          well: string, positions: seq<nat>)
    requires dir != []
    requires ValidDateTime(dt) && well in cfg.wells
    requires forall p :: p in positions ==> p in cfg.positions
    ensures forall h :: h in PositionHits(cfg, files, dir, dt, well, positions) ==>
              HitOk(cfg, h) && h.record.time == dt && File(InputName(cfg, h.key.0, h.key.1)) in files
  {
    if positions != [] {
      var pos := positions[|positions| - 1];
      var prefix := positions[..|positions| - 1];
      assert forall p :: p in prefix ==> p in positions;
      PositionHitsOk(cfg, files, dir, dt, well, prefix);
      InKeySet(cfg, well, pos);
      JoinPathEndsWith(dir, InputName(cfg, well, pos));
    }
  }

  lemma {:induction false} CameraHitsOk(cfg: Config, files: seq<Node>, dir: string, dt: DateTime, wells: seq<string>)
    requires dir != []
    requires ValidDateTime(dt)
    requires forall w :: w in wells ==> w in cfg.wells
    ensures forall h :: h in CameraHits(cfg, files, dir, dt, wells) ==>
              HitOk(cfg, h) && h.record.time == dt && File(InputName(cfg, h.key.0, h.key.1)) in files
  {
    if wells != [] {
      var prefix := wells[..|wells| - 1];
      assert forall w :: w in prefix ==> w in wells;
      CameraHitsOk(cfg, files, dir, dt, prefix);
      PositionHitsOk(cfg, files, dir, dt, wells[|wells| - 1], cfg.positions);
    }
  }

  /** A path joined onto a non-empty name is not empty. */
  lemma JoinPathNonEmpty(dir: string, name: string)
    requires name != []
    ensures JoinPath(dir, name) != []
  {
  }

  /** Files are found only under "HHMM" folders holding the camera folder,
      stamped with the given day and with the hour and minute the folder's
      name spells, and each is present in that camera folder. */
  lemma TimeHitsOk(cfg: Config, node: Node, dayPath: string, year: int, month: int, day: int)
    ensures forall h :: h in TimeHits(cfg, node, dayPath, year, month, day) ==>
              && HitOk(cfg, h) && h.record.time.year == year && h.record.time.month == month && h.record.time.day == day
              && IsTimeFolder(node) && (h.record.time.hour, h.record.time.minute) == ParseHourMinute(node.name)
              && FindDir(node.children, cfg.camera).Some?
              && File(InputName(cfg, h.key.0, h.key.1)) in FindDir(node.children, cfg.camera).value
  {
    if IsTimeFolder(node) && FindDir(node.children, cfg.camera).Some? {
      var (hour, minute) := ParseHourMinute(node.name);
      var dt := MakeDateTime(year, month, day, hour, minute);
      if dt.Some? {
        var timePath := JoinPath(dayPath, node.name);
        JoinPathNonEmpty(dayPath, node.name);
        CameraHitsOk(cfg, FindDir(node.children, cfg.camera).value,
                     JoinPath(timePath, cfg.camera), dt.value, cfg.wells);
      }
    }
  }

  /** Every file found under a day's time folders carries that day, and the
      hour and minute of an "HHMM" folder among them. */
  lemma {:induction false} TimesHitsOk(cfg: Config, nodes: seq<Node>, dayPath: string, year: int, month: int, day: int)
    ensures forall h :: h in TimesHits(cfg, nodes, dayPath, year, month, day) ==>
              && HitOk(cfg, h) && h.record.time.year == year && h.record.time.month == month && h.record.time.day == day
              && exists i :: 0 <= i < |nodes| && IsTimeFolder(nodes[i])
                             && (h.record.time.hour, h.record.time.minute) == ParseHourMinute(nodes[i].name)
  {
    if nodes != [] {
      var prefix := nodes[..|nodes| - 1];
      TimesHitsOk(cfg, prefix, dayPath, year, month, day);
      TimeHitsOk(cfg, nodes[|nodes| - 1], dayPath, year, month, day);
      assert forall i :: 0 <= i < |prefix| ==> prefix[i] == nodes[i];
    }
  }

  /** An "HHMM" folder whose hour is past 23 or whose minute is past 59
      ("2400", "1260") contributes nothing. */
  lemma InvalidTimeSkipped(cfg: Config, node: Node, dayPath: string, year: int, month: int, day: int)
    requires IsTimeFolder(node)
    requires ParseHourMinute(node.name).0 >= 24 || ParseHourMinute(node.name).1 >= 60
    ensures TimeHits(cfg, node, dayPath, year, month, day) == []
  {
    TimeHitsOk(cfg, node, dayPath, year, month, day);
    var hits := TimeHits(cfg, node, dayPath, year, month, day);
    FirstIn(hits);
  }

  lemma DayHitsOk(cfg: Config, node: Node, monthPath: string, year: int, month: int)
    ensures forall h :: h in DayHits(cfg, node, monthPath, year, month) ==>
              && HitOk(cfg, h) && h.record.time.year == year && h.record.time.month == month
              && IsDayFolder(node) && h.record.time.day == DigitsValue(node.name)
  {
    if IsDayFolder(node) {
      TimesHitsOk(cfg, node.children, JoinPath(monthPath, node.name), year, month, DigitsValue(node.name));
    }
  }

  lemma {:induction false} DaysHitsOk(cfg: Config, nodes: seq<Node>, monthPath: string, year: int, month: int)
    ensures forall h :: h in DaysHits(cfg, nodes, monthPath, year, month) ==>
              HitOk(cfg, h) && h.record.time.year == year && h.record.time.month == month
  {
    if nodes != [] {
      DaysHitsOk(cfg, nodes[..|nodes| - 1], monthPath, year, month);
      DayHitsOk(cfg, nodes[|nodes| - 1], monthPath, year, month);
    }
  }

  lemma MonthHitsOk(cfg: Config, node: Node, basePath: string)
    ensures forall h :: h in MonthHits(cfg, node, basePath) ==>
              && HitOk(cfg, h) && IsMonthFolder(node)
              && (h.record.time.year, h.record.time.month) == ParseYearMonth(node.name)
  {
    if IsMonthFolder(node) {
      var (year, month) := ParseYearMonth(node.name);
      DaysHitsOk(cfg, node.children, JoinPath(basePath, node.name), year, month);
    }
  }

  /** Everything the scan records is a configured pair's own file, stamped
      with a valid date and time. */
  lemma {:induction false} ScanHitsOk(cfg: Config, nodes: seq<Node>, basePath: string)
    ensures forall h :: h in ScanHits(cfg, nodes, basePath) ==> HitOk(cfg, h)
  {
    if nodes != [] {
      ScanHitsOk(cfg, nodes[..|nodes| - 1], basePath);
      MonthHitsOk(cfg, nodes[|nodes| - 1], basePath);
    }
  }

  lemma FirstIn(hits: seq<Hit>)
    ensures hits != [] ==> hits[0] in hits
  {
  }

  /** A "YYMM" folder whose MM is not a month (00, 13, ...) contributes
      nothing: every date under it is rejected. */
  lemma InvalidMonthSkipped(cfg: Config, node: Node, basePath: string)
    requires IsMonthFolder(node)
    requires !(1 <= ParseYearMonth(node.name).1 <= 12)
    ensures MonthHits(cfg, node, basePath) == []
  {
    MonthHitsOk(cfg, node, basePath);
    var hits := MonthHits(cfg, node, basePath);
    FirstIn(hits);
  }

  /** A day folder past the end of its month (31 in a 30-day month, 29 in
      February of a common year) contributes nothing. */
  lemma InvalidDaySkipped(cfg: Config, node: Node, monthPath: string, year: int, month: int)
    requires IsDayFolder(node) && 1 <= month <= 12
    requires DigitsValue(node.name) > DaysInMonth(year, month)
    ensures DayHits(cfg, node, monthPath, year, month) == []
  {
    DayHitsOk(cfg, node, monthPath, year, month);
    var hits := DayHits(cfg, node, monthPath, year, month);
    FirstIn(hits);
  }

  /** The records in a pair's list are hits of that pair. */
  lemma {:induction false} RecordsForHits(hits: seq<Hit>, k: Key)
    ensures forall r :: r in RecordsFor(hits, k) ==> Hit(k, r) in hits
  {
    if hits != [] {
      var prefix := hits[..|hits| - 1];
      RecordsForHits(prefix, k);
      assert forall h :: h in prefix ==> h in hits;
    }
  }

  // ------------------------------------------------------- exactly what is present

  /** Where the scan finds a hit inside a day folder: `t` is an "HHMM" folder
      whose camera folder holds the pair's file, the day and `t`'s name give
      the hit's valid time, and the hit's path runs through `t`. */
  predicate TimeFileAt(cfg: Config, dayPath: string, year: int, month: int, day: int, t: Node, h: Hit) {
    var name := InputName(cfg, h.key.0, h.key.1);
    && IsTimeFolder(t) && h.key in KeySet(cfg)
    && FindDir(t.children, cfg.camera).Some?
    && File(name) in FindDir(t.children, cfg.camera).value
    && (var (hour, minute) := ParseHourMinute(t.name);
        MakeDateTime(year, month, day, hour, minute) == Some(h.record.time))
    && h.record.path == JoinPath(JoinPath(JoinPath(dayPath, t.name), cfg.camera), name)
  }

  /** The same inside a month folder: `d` is an all-digit day folder holding `t`. */
  predicate DayFileAt(cfg: Config, monthPath: string, year: int, month: int, d: Node, t: Node, h: Hit) {
    && IsDayFolder(d) && t in d.children
    && TimeFileAt(cfg, JoinPath(monthPath, d.name), year, month, DigitsValue(d.name), t, h)
  }

  /** The same under the base folder: `m` is a "YYMM" month folder holding `d`. */
  predicate FileAt(cfg: Config, basePath: string, m: Node, d: Node, t: Node, h: Hit) {
    && IsMonthFolder(m) && d in m.children
    && (var (year, month) := ParseYearMonth(m.name);
        DayFileAt(cfg, JoinPath(basePath, m.name), year, month, d, t, h))
  }

  /** The reference for the whole scan: the hit's file is present in the
      camera folder of some accepted month, day and time folder of the listing. */
  predicate Present(cfg: Config, listing: seq<Node>, basePath: string, h: Hit) {
    exists m, d, t :: && m in listing && m.Dir? && d in m.children && d.Dir? && t in d.children
                      && FileAt(cfg, basePath, m, d, t, h)
  }

  /** For one well, a hit is found exactly for a listed position whose file
      is in the camera folder, with the folder's time and the file's path. */
  lemma {:induction false} PositionHitsExact(cfg: Config, files: seq<Node>, dir: string, dt: DateTime,
                                             well: string, positions: seq<nat>, h: Hit)
    ensures h in PositionHits(cfg, files, dir, dt, well, positions) <==>
              && h.key.0 == well && h.key.1 in positions
              && File(InputName(cfg, well, h.key.1)) in files
              && h.record == Record(dt, JoinPath(dir, InputName(cfg, well, h.key.1)))
    decreases |positions|
  {
    if positions != [] {
      var prefix := positions[..|positions| - 1];
      PositionHitsExact(cfg, files, dir, dt, well, prefix, h);
      assert positions == prefix + [positions[|positions| - 1]];
    }
  }

  /** For a camera folder, a hit is found exactly for a pair of a listed well
      and a configured position whose file the folder holds. */
  lemma {:induction false} CameraHitsExact(cfg: Config, files: seq<Node>, dir: string, dt: DateTime,
                                           wells: seq<string>, h: Hit)
    ensures h in CameraHits(cfg, files, dir, dt, wells) <==>
              && h.key.0 in wells && h.key.1 in cfg.positions
              && File(InputName(cfg, h.key.0, h.key.1)) in files
              && h.record == Record(dt, JoinPath(dir, InputName(cfg, h.key.0, h.key.1)))
    decreases |wells|
  {
    if wells != [] {
      var prefix := wells[..|wells| - 1];
      CameraHitsExact(cfg, files, dir, dt, prefix, h);
      PositionHitsExact(cfg, files, dir, dt, wells[|wells| - 1], cfg.positions, h);
      assert wells == prefix + [wells[|wells| - 1]];
    }
  }

  /** A time folder contributes exactly the hits located in it. */
  lemma TimeHitsExact(cfg: Config, t: Node, dayPath: string, year: int, month: int, day: int, h: Hit)
    ensures h in TimeHits(cfg, t, dayPath, year, month, day) <==> TimeFileAt(cfg, dayPath, year, month, day, t, h)
  {
    KeySetMember(cfg, h.key);
    if IsTimeFolder(t) && FindDir(t.children, cfg.camera).Some? {
      var (hour, minute) := ParseHourMinute(t.name);
      var dt := MakeDateTime(year, month, day, hour, minute);
      if dt.Some? {
        CameraHitsExact(cfg, FindDir(t.children, cfg.camera).value,
                        JoinPath(JoinPath(dayPath, t.name), cfg.camera), dt.value, cfg.wells, h);
      }
    }
  }

  /** A day's time folders contribute exactly the hits located in one of them. */
  lemma {:induction false} TimesHitsExact(cfg: Config, nodes: seq<Node>, dayPath: string,
                                          year: int, month: int, day: int, h: Hit)
    ensures h in TimesHits(cfg, nodes, dayPath, year, month, day) <==>
              exists t :: t in nodes && TimeFileAt(cfg, dayPath, year, month, day, t, h)
    decreases |nodes|
  {
    if nodes != [] {
      var prefix := nodes[..|nodes| - 1];
      var last := nodes[|nodes| - 1];
      TimesHitsExact(cfg, prefix, dayPath, year, month, day, h);
      TimeHitsExact(cfg, last, dayPath, year, month, day, h);
      if h in TimesHits(cfg, prefix, dayPath, year, month, day) {
        var t :| t in prefix && TimeFileAt(cfg, dayPath, year, month, day, t, h);
        assert t in nodes;
      } else if h in TimeHits(cfg, last, dayPath, year, month, day) {
        assert last in nodes;
      }
      if t :| t in nodes && TimeFileAt(cfg, dayPath, year, month, day, t, h) {
        InitOrLast(nodes, t);
      }
    }
  }

  /** A day folder contributes exactly the hits located under it. */
  lemma DayHitsExact(cfg: Config, d: Node, monthPath: string, year: int, month: int, h: Hit)
    ensures h in DayHits(cfg, d, monthPath, year, month) <==>
              exists t :: DayFileAt(cfg, monthPath, year, month, d, t, h)
  {
    if IsDayFolder(d) {
      var dayPath := JoinPath(monthPath, d.name);
      var day := DigitsValue(d.name);
      TimesHitsExact(cfg, d.children, dayPath, year, month, day, h);
      if h in DayHits(cfg, d, monthPath, year, month) {
        var t :| t in d.children && TimeFileAt(cfg, dayPath, year, month, day, t, h);
        assert DayFileAt(cfg, monthPath, year, month, d, t, h);
      }
      if t :| DayFileAt(cfg, monthPath, year, month, d, t, h) {
        assert t in d.children && TimeFileAt(cfg, dayPath, year, month, day, t, h);
      }
    }
  }

  /** A month's day folders contribute exactly the hits located under one of them. */
  lemma {:induction false} DaysHitsExact(cfg: Config, nodes: seq<Node>, monthPath: string,
                                         year: int, month: int, h: Hit)
    ensures h in DaysHits(cfg, nodes, monthPath, year, month) <==>
              exists d, t :: d in nodes && DayFileAt(cfg, monthPath, year, month, d, t, h)
    decreases |nodes|
  {
    if nodes != [] {
      var prefix := nodes[..|nodes| - 1];
      var last := nodes[|nodes| - 1];
      DaysHitsExact(cfg, prefix, monthPath, year, month, h);
      DayHitsExact(cfg, last, monthPath, year, month, h);
      assert h in DaysHits(cfg, nodes, monthPath, year, month) <==>
             h in DaysHits(cfg, prefix, monthPath, year, month) || h in DayHits(cfg, last, monthPath, year, month);
      if h in DaysHits(cfg, prefix, monthPath, year, month) {
        var d, t :| d in prefix && DayFileAt(cfg, monthPath, year, month, d, t, h);
        assert d in nodes;
      } else if h in DayHits(cfg, last, monthPath, year, month) {
        var t :| DayFileAt(cfg, monthPath, year, month, last, t, h);
        assert last in nodes;
      }
      if d, t :| d in nodes && DayFileAt(cfg, monthPath, year, month, d, t, h) {
        InitOrLast(nodes, d);
        if d == last {
          assert DayFileAt(cfg, monthPath, year, month, last, t, h);
        } else {
          assert d in prefix && DayFileAt(cfg, monthPath, year, month, d, t, h);
        }
      }
    }
  }

  /** An element of a non-empty sequence is in its front or is its last element. */
  lemma InitOrLast(s: seq<Node>, x: Node)
    requires x in s
    ensures x in s[..|s| - 1] || x == s[|s| - 1]
  {
    var i :| 0 <= i < |s| && s[i] == x;
    if i < |s| - 1 {
      assert s[..|s| - 1][i] == x;
    }
  }

  /** A month folder contributes exactly the hits located under it. */
  lemma MonthHitsExact(cfg: Config, m: Node, basePath: string, h: Hit)
    ensures h in MonthHits(cfg, m, basePath) <==> exists d, t :: FileAt(cfg, basePath, m, d, t, h)
  {
    if IsMonthFolder(m) {
      var (year, month) := ParseYearMonth(m.name);
      var monthPath := JoinPath(basePath, m.name);
      DaysHitsExact(cfg, m.children, monthPath, year, month, h);
      if h in MonthHits(cfg, m, basePath) {
        var d, t :| d in m.children && DayFileAt(cfg, monthPath, year, month, d, t, h);
        assert FileAt(cfg, basePath, m, d, t, h);
      }
      if d, t :| FileAt(cfg, basePath, m, d, t, h) {
        assert d in m.children && DayFileAt(cfg, monthPath, year, month, d, t, h);
      }
    }
  }

  /** The scan finds exactly the present files: a hit is in `ScanHits` if and
      only if its file lies in the camera folder of an accepted month, day
      and time folder, with that folder's time and path. */
  lemma {:induction false} ScanHitsExact(cfg: Config, listing: seq<Node>, basePath: string, h: Hit)
    ensures h in ScanHits(cfg, listing, basePath) <==> Present(cfg, listing, basePath, h)
    decreases |listing|
  {
    if listing != [] {
      var prefix := listing[..|listing| - 1];
      var last := listing[|listing| - 1];
      ScanHitsExact(cfg, prefix, basePath, h);
      MonthHitsExact(cfg, last, basePath, h);
      if h in ScanHits(cfg, prefix, basePath) {
        var m, d, t :| && m in prefix && m.Dir? && d in m.children && d.Dir? && t in d.children
                       && FileAt(cfg, basePath, m, d, t, h);
        assert m in listing;
      } else if h in MonthHits(cfg, last, basePath) {
        var d, t :| FileAt(cfg, basePath, last, d, t, h);
        assert last in listing && last.Dir? && d in last.children && d.Dir? && t in d.children;
      }
      if m, d, t :| && m in listing && m.Dir? && d in m.children && d.Dir? && t in d.children
                    && FileAt(cfg, basePath, m, d, t, h) {
        InitOrLast(listing, m);
        if m == last {
          assert FileAt(cfg, basePath, last, d, t, h);
        } else {
          assert m in prefix;
        }
      }
    }
  }

  /** A pair's list holds a record exactly when the hits hold it for that pair. */
  lemma {:induction false} RecordsForExact(hits: seq<Hit>, k: Key, r: Record)
    ensures r in RecordsFor(hits, k) <==> Hit(k, r) in hits
    decreases |hits|
  {
    if hits != [] {
      var prefix := hits[..|hits| - 1];
      RecordsForExact(prefix, k, r);
      assert hits == prefix + [hits[|hits| - 1]];
    }
  }

  /** The scan's list for a configured pair holds exactly the pair's files
      present under accepted folders, each with its folder's time and path. */
  lemma ScanRecordsExact(cfg: Config, listing: seq<Node>, basePath: string, k: Key, r: Record)
    ensures r in RecordsFor(ScanHits(cfg, listing, basePath), k) <==> Present(cfg, listing, basePath, Hit(k, r))
  {
    RecordsForExact(ScanHits(cfg, listing, basePath), k, r);
    ScanHitsExact(cfg, listing, basePath, Hit(k, r));
  }

  // ------------------------------------------------------- the scan, as loops

  lemma KeySetMember(cfg: Config, k: Key)
    ensures k in KeySet(cfg) <==> k.0 in cfg.wells && k.1 in cfg.positions
  {
  }

  lemma PositionHitsStep(cfg: Config, files: seq<Node>, dir: string, dt: DateTime, well: string,
                         positions: seq<nat>, j: nat)
    requires j < |positions|
    ensures var name := InputName(cfg, well, positions[j]);
            var found := if File(name) in files then [Hit((well, positions[j]), Record(dt, JoinPath(dir, name)))] else [];
            PositionHits(cfg, files, dir, dt, well, positions[..j + 1])
            == PositionHits(cfg, files, dir, dt, well, positions[..j]) + found
  {
    assert positions[..j + 1][..j] == positions[..j];
  }

  lemma InKeySet(cfg: Config, well: string, pos: nat)
    requires well in cfg.wells && pos in cfg.positions
    ensures (well, pos) in KeySet(cfg)
  {
  }

  /** The innermost loop: for one well, append each position's file to its
      pair's list if the camera folder holds it; no other list changes. */
  method ScanWell(cfg: Config, files: seq<Node>, dir: string, dt: DateTime, well: string,
                  records: map<Key, seq<Record>>)
    returns (out: map<Key, seq<Record>>)
    requires well in cfg.wells
    requires KeySet(cfg) <= records.Keys
    ensures out == AddHits(records, PositionHits(cfg, files, dir, dt, well, cfg.positions))
    ensures forall k, r :: k in out ==>
              (r in out[k] <==>
                 || r in records[k]
                 || (&& k.0 == well && k.1 in cfg.positions
                     && File(InputName(cfg, well, k.1)) in files
                     && r == Record(dt, JoinPath(dir, InputName(cfg, well, k.1)))))
  {
    out := records;
    for j := 0 to |cfg.positions|
      invariant out == AddHits(records, PositionHits(cfg, files, dir, dt, well, cfg.positions[..j]))
    {
      var pos := cfg.positions[j];
      var name := InputName(cfg, well, pos);
      ghost var done := PositionHits(cfg, files, dir, dt, well, cfg.positions[..j]);
      PositionHitsStep(cfg, files, dir, dt, well, cfg.positions, j);
      if File(name) in files {
        var rec := Record(dt, JoinPath(dir, name));
        InKeySet(cfg, well, pos);
        out := out[(well, pos) := out[(well, pos)] + [rec]];
        AddHitsStep(records, done, Hit((well, pos), rec));
      } else {
        assert done + [] == done;
      }
    }
    assert cfg.positions[..|cfg.positions|] == cfg.positions;
    forall k, r | k in out
      ensures r in out[k] <==>
                || r in records[k]
                || (&& k.0 == well && k.1 in cfg.positions
                    && File(InputName(cfg, well, k.1)) in files
                    && r == Record(dt, JoinPath(dir, InputName(cfg, well, k.1))))
    {
      var hits := PositionHits(cfg, files, dir, dt, well, cfg.positions);
      AddHitsContents(records, hits, k);
      RecordsForExact(hits, k, r);
      PositionHitsExact(cfg, files, dir, dt, well, cfg.positions, Hit(k, r));
    }
  }

  /** The well loop over one camera folder. */
  method ScanCamera(cfg: Config, files: seq<Node>, dir: string, dt: DateTime, records: map<Key, seq<Record>>)
    returns (out: map<Key, seq<Record>>)
    requires KeySet(cfg) <= records.Keys
    ensures out == AddHits(records, CameraHits(cfg, files, dir, dt, cfg.wells))
  {
    out := records;
    for i := 0 to |cfg.wells|
      invariant out == AddHits(records, CameraHits(cfg, files, dir, dt, cfg.wells[..i]))
    {
      assert cfg.wells[..i + 1][..i] == cfg.wells[..i];
      out := ScanWell(cfg, files, dir, dt, cfg.wells[i], out);
      AddHitsAppend(records, CameraHits(cfg, files, dir, dt, cfg.wells[..i]),
                    PositionHits(cfg, files, dir, dt, cfg.wells[i], cfg.positions));
    }
    assert cfg.wells[..|cfg.wells|] == cfg.wells;
  }

  /** One time folder: skipped unless it is "HHMM", holds the camera folder
      and names a valid date and time; otherwise its camera folder is scanned. */
  method ScanTimeFolder(cfg: Config, node: Node, dayPath: string, year: int, month: int, day: int,
                        records: map<Key, seq<Record>>)
    returns (out: map<Key, seq<Record>>)
    requires KeySet(cfg) <= records.Keys
    ensures out == AddHits(records, TimeHits(cfg, node, dayPath, year, month, day))
  {
    out := records;
    if !IsTimeFolder(node) {
      return;
    }
    var camera := FindDir(node.children, cfg.camera);
    if camera.None? {
      return;
    }
    var (hour, minute) := ParseHourMinute(node.name);
    var dt := MakeDateTime(year, month, day, hour, minute);
    if dt.None? {
      return;
    }
    out := ScanCamera(cfg, camera.value, JoinPath(JoinPath(dayPath, node.name), cfg.camera), dt.value, records);
  }

  lemma TimesHitsStep(cfg: Config, nodes: seq<Node>, dayPath: string, year: int, month: int, day: int, i: nat)
    requires i < |nodes|
    ensures TimesHits(cfg, nodes[..i + 1], dayPath, year, month, day)
            == TimesHits(cfg, nodes[..i], dayPath, year, month, day) + TimeHits(cfg, nodes[i], dayPath, year, month, day)
  {
    assert nodes[..i + 1][..i] == nodes[..i];
  }

  lemma DayHitsOfFolder(cfg: Config, node: Node, monthPath: string, year: int, month: int)
    requires IsDayFolder(node)
    ensures DayHits(cfg, node, monthPath, year, month)
            == TimesHits(cfg, node.children, JoinPath(monthPath, node.name), year, month, DigitsValue(node.name))
  {
  }

  /** The loop over a day folder's entries, each scanned as a time folder
      in listing order. */
  method ScanTimeFolders(cfg: Config, entries: seq<Node>, dayPath: string, year: int, month: int, day: int,
                         records: map<Key, seq<Record>>)
    returns (out: map<Key, seq<Record>>)
    requires KeySet(cfg) <= records.Keys
    ensures out == AddHits(records, TimesHits(cfg, entries, dayPath, year, month, day))
  {
    out := records;
    for i := 0 to |entries|
      invariant out == AddHits(records, TimesHits(cfg, entries[..i], dayPath, year, month, day))
      invariant out.Keys == records.Keys
    {
      ghost var before := TimesHits(cfg, entries[..i], dayPath, year, month, day);
      ghost var found := TimeHits(cfg, entries[i], dayPath, year, month, day);
      TimesHitsStep(cfg, entries, dayPath, year, month, day, i);
      out := ScanTimeFolder(cfg, entries[i], dayPath, year, month, day, out);
      AddHitsAppend(records, before, found);
    }
    assert entries[..|entries|] == entries;
  }

  /** One day folder: skipped unless its name is all digits; otherwise each
      of its time folders is scanned in listing order. */
  method ScanDayFolder(cfg: Config, node: Node, monthPath: string, year: int, month: int,
                       records: map<Key, seq<Record>>)
    returns (out: map<Key, seq<Record>>)
    requires KeySet(cfg) <= records.Keys
    ensures out == AddHits(records, DayHits(cfg, node, monthPath, year, month))
  {
    out := records;
    if !IsDayFolder(node) {
      return;
    }
    DayHitsOfFolder(cfg, node, monthPath, year, month);
    out := ScanTimeFolders(cfg, node.children, JoinPath(monthPath, node.name), year, month, DigitsValue(node.name), records);
  }

  lemma DaysHitsStep(cfg: Config, nodes: seq<Node>, monthPath: string, year: int, month: int, i: nat)
    requires i < |nodes|
    ensures DaysHits(cfg, nodes[..i + 1], monthPath, year, month)
            == DaysHits(cfg, nodes[..i], monthPath, year, month) + DayHits(cfg, nodes[i], monthPath, year, month)
  {
    assert nodes[..i + 1][..i] == nodes[..i];
  }

  lemma MonthHitsOfFolder(cfg: Config, node: Node, basePath: string)
    requires IsMonthFolder(node)
    ensures MonthHits(cfg, node, basePath)
            == DaysHits(cfg, node.children, JoinPath(basePath, node.name), ParseYearMonth(node.name).0, ParseYearMonth(node.name).1)
  {
  }

  /** The loop over a month folder's entries, each scanned as a day folder
      in listing order. */
  method ScanDayFolders(cfg: Config, entries: seq<Node>, monthPath: string, year: int, month: int,
                        records: map<Key, seq<Record>>)
    returns (out: map<Key, seq<Record>>)
    requires KeySet(cfg) <= records.Keys
    ensures out == AddHits(records, DaysHits(cfg, entries, monthPath, year, month))
  {
    out := records;
    for i := 0 to |entries|
      invariant out == AddHits(records, DaysHits(cfg, entries[..i], monthPath, year, month))
      invariant out.Keys == records.Keys
    {
      ghost var before := DaysHits(cfg, entries[..i], monthPath, year, month);
      ghost var found := DayHits(cfg, entries[i], monthPath, year, month);
      DaysHitsStep(cfg, entries, monthPath, year, month, i);
      out := ScanDayFolder(cfg, entries[i], monthPath, year, month, out);
      AddHitsAppend(records, before, found);
    }
    assert entries[..|entries|] == entries;
  }

  /** One month folder: skipped unless it is "YYMM"; otherwise each of its
      day folders is scanned in listing order. */
  method ScanMonthFolder(cfg: Config, node: Node, basePath: string, records: map<Key, seq<Record>>)
    returns (out: map<Key, seq<Record>>)
    requires KeySet(cfg) <= records.Keys
    ensures out == AddHits(records, MonthHits(cfg, node, basePath))
  {
    out := records;
    if !IsMonthFolder(node) {
      return;
    }
    MonthHitsOfFolder(cfg, node, basePath);
    var (year, month) := ParseYearMonth(node.name);
    out := ScanDayFolders(cfg, node.children, JoinPath(basePath, node.name), year, month, records);
  }

  /** The whole traversal: `file_records` starts with an empty list for every
      pair and ends with exactly the files found for that pair, in discovery
      order, and those are exactly the pair's files present under accepted
      folders. */
  method CollectRecords(cfg: Config, listing: seq<Node>, basePath: string)
    returns (records: map<Key, seq<Record>>)
    ensures records.Keys == KeySet(cfg)
    ensures forall k :: k in records ==> records[k] == RecordsFor(ScanHits(cfg, listing, basePath), k)
    ensures forall k, r :: k in records ==> (r in records[k] <==> Present(cfg, listing, basePath, Hit(k, r)))
  {
    records := InitialRecords(cfg);
    for i := 0 to |listing|
      invariant records == AddHits(InitialRecords(cfg), ScanHits(cfg, listing[..i], basePath))
    {
      assert listing[..i + 1][..i] == listing[..i];
      records := ScanMonthFolder(cfg, listing[i], basePath, records);
      AddHitsAppend(InitialRecords(cfg), ScanHits(cfg, listing[..i], basePath), MonthHits(cfg, listing[i], basePath));
    }
    assert listing[..|listing|] == listing;
    forall k | k in records
      ensures records[k] == RecordsFor(ScanHits(cfg, listing, basePath), k)
    {
      AddHitsContents(InitialRecords(cfg), ScanHits(cfg, listing, basePath), k);
    }
    forall k, r | k in records
      ensures r in records[k] <==> Present(cfg, listing, basePath, Hit(k, r))
    {
      ScanRecordsExact(cfg, listing, basePath, k, r);
    }
  }
}

=== FILE: stack_output.dfy ===
/** The second half of stack assembly: each pair's record list is ordered by
    timestamp with Python's stable `sorted` and written as one multi-page
    stack, one page per record; a pair with no records gets no stack. The
    written stacks are modelled as a map from output file name to the paths
    of the pages, in page order. */
module StackOutput {
  import opened Text
  import opened StackAssembly

  // ------------------------------------------------------- the stable sort

  /** `TimeLe` is a total order on timestamps. */
  lemma TimeLeTotalOrder(a: DateTime, b: DateTime, c: DateTime)
    ensures TimeLe(a, a)
    ensures TimeLe(a, b) || TimeLe(b, a)
    ensures TimeLe(a, b) && TimeLe(b, a) ==> a == b
    ensures TimeLe(a, b) && TimeLe(b, c) ==> TimeLe(a, c)
  {
  }

  predicate SortedByTime(s: seq<Record>) {
    forall i, j :: 0 <= i < j < |s| ==> TimeLe(s[i].time, s[j].time)
  }

  /** Inserts `r` before the first record not earlier than it. */
  function InsertByTime(r: Record, s: seq<Record>): (t: seq<Record>)
    ensures |t| == |s| + 1
  {
    if s == [] then [r]
    else if TimeLe(r.time, s[0].time) then [r] + s
    else [s[0]] + InsertByTime(r, s[1..])
  }

  /** `sorted(records, key=lambda x: x[0])`, as an insertion sort. */
  function SortByTime(s: seq<Record>): (t: seq<Record>)
    ensures |t| == |s|
  {
    if s == [] then [] else InsertByTime(s[0], SortByTime(s[1..]))
  }

  /** Insertion adds exactly the one record. */
  lemma {:induction false} InsertPermutes(r: Record, s: seq<Record>)
    ensures multiset(InsertByTime(r, s)) == multiset(s) + multiset{r}
    decreases |s|
  {
    if s != [] {
      assert s == [s[0]] + s[1..];
      InsertPermutes(r, s[1..]);
    }
  }

  /** The sort is a permutation of its input. */
  lemma {:induction false} SortPermutes(s: seq<Record>)
    ensures multiset(SortByTime(s)) == multiset(s)
  {
    if s != [] {
      assert s == [s[0]] + s[1..];
      SortPermutes(s[1..]);
      InsertPermutes(s[0], SortByTime(s[1..]));
    }
  }

  /** Every record of `s` is stamped no earlier than `a`. */
  predicate NotBefore(a: DateTime, s: seq<Record>) {
    forall i :: 0 <= i < |s| ==> TimeLe(a, s[i].time)
  }

  lemma SortedCons(r: Record, s: seq<Record>)
    requires NotBefore(r.time, s) && SortedByTime(s)
    ensures SortedByTime([r] + s)
  {
    var t := [r] + s;
    forall i, j | 0 <= i < j < |t|
      ensures TimeLe(t[i].time, t[j].time)
    {
      assert t[j] == s[j - 1];
      if i > 0 {
        assert t[i] == s[i - 1];
      }
    }
  }

  lemma {:induction false} InsertNotBefore(a: DateTime, r: Record, s: seq<Record>)
    requires NotBefore(a, s) && TimeLe(a, r.time)
    ensures NotBefore(a, InsertByTime(r, s))
    decreases |s|
  {
    if s != [] && !TimeLe(r.time, s[0].time) {
      InsertNotBefore(a, r, s[1..]);
      var t := InsertByTime(r, s);
      assert t == [s[0]] + InsertByTime(r, s[1..]);
      forall i | 0 <= i < |t|
        ensures TimeLe(a, t[i].time)
      {
        if i > 0 {
          assert t[i] == InsertByTime(r, s[1..])[i - 1];
        }
      }
    } else if s != [] {
      var t := InsertByTime(r, s);
      assert t == [r] + s;
      forall i | 0 <= i < |t|
        ensures TimeLe(a, t[i].time)
      {
        if i > 0 {
          assert t[i] == s[i - 1];
        }
      }
    }
  }

  lemma {:induction false} InsertSorted(r: Record, s: seq<Record>)
    requires SortedByTime(s)
    ensures SortedByTime(InsertByTime(r, s))
    decreases |s|
  {
    if s != [] && !TimeLe(r.time, s[0].time) {
      InsertSorted(r, s[1..]);
      TimeLeTotalOrder(s[0].time, r.time, r.time);
      assert NotBefore(s[0].time, s[1..]) by {
        forall i | 0 <= i < |s[1..]|
          ensures TimeLe(s[0].time, s[1..][i].time)
        {
          assert s[1..][i] == s[i + 1];
        }
      }
      assert SortedByTime(s[1..]) by {
        forall i, j | 0 <= i < j < |s[1..]|
          ensures TimeLe(s[1..][i].time, s[1..][j].time)
        {
          assert s[1..][i] == s[i + 1] && s[1..][j] == s[j + 1];
        }
      }
      InsertNotBefore(s[0].time, r, s[1..]);
      SortedCons(s[0], InsertByTime(r, s[1..]));
    } else if s != [] {
      assert NotBefore(r.time, s) by {
        forall i | 0 <= i < |s|
          ensures TimeLe(r.time, s[i].time)
        {
          TimeLeTotalOrder(r.time, s[0].time, s[i].time);
        }
      }
      SortedCons(r, s);
    }
  }

  /** The sort's output is in non-decreasing timestamp order. */
  lemma {:induction false} SortedSortByTime(s: seq<Record>)
    ensures SortedByTime(SortByTime(s))
  {
    if s != [] {
      SortedSortByTime(s[1..]);
      InsertSorted(s[0], SortByTime(s[1..]));
    }
  }

  /** The records of `s` stamped `t`, in their order in `s`. */
  function AtTime(s: seq<Record>, t: DateTime): seq<Record> {
    if s == [] then [] else (if s[0].time == t then [s[0]] else []) + AtTime(s[1..], t)
  }

  lemma {:induction false} InsertAtTime(r: Record, s: seq<Record>, t: DateTime)
    ensures AtTime(InsertByTime(r, s), t) == (if r.time == t then [r] else []) + AtTime(s, t)
    decreases |s|
  {
    if s == [] {
      assert InsertByTime(r, s) == [r];
      assert [r][1..] == [];
    } else if TimeLe(r.time, s[0].time) {
      assert ([r] + s)[1..] == s;
    } else {
      var rest := InsertByTime(r, s[1..]);
      InsertAtTime(r, s[1..], t);
      TimeLeTotalOrder(r.time, r.time, r.time);
      assert r.time != s[0].time;
      assert InsertByTime(r, s) == [s[0]] + rest;
      assert ([s[0]] + rest)[1..] == rest;
    }
  }

  /** Stability: records with equal timestamps keep their discovery order. */
  lemma {:induction false} SortByTimeStable(s: seq<Record>, t: DateTime)
    ensures AtTime(SortByTime(s), t) == AtTime(s, t)
  {
    if s != [] {
      SortByTimeStable(s[1..], t);
      InsertAtTime(s[0], SortByTime(s[1..]), t);
    }
  }

  // ------------------------------------------------------- writing the stacks

  /** `[path for dt, path in sorted_records]`. */
  function Paths(s: seq<Record>): (ps: seq<string>)
    ensures |ps| == |s|
    ensures forall i :: 0 <= i < |s| ==> ps[i] == s[i].path
  {
    seq(|s|, i requires 0 <= i < |s| => s[i].path)
  }

  /** The pages of the stack written for a non-empty record list. */
  function StackPages(records: seq<Record>): seq<string> {
    Paths(SortByTime(records))
  }

  /** The order `file_records.items()` visits the pairs in: the order of the
      comprehension that created them, wells outer and positions inner. */
  function KeyOrder(wells: seq<string>, positions: seq<nat>): (ks: seq<Key>)
    ensures forall k :: k in ks <==> k.0 in wells && k.1 in positions
  {
    if wells == [] then []
    else
      var row := seq(|positions|, j requires 0 <= j < |positions| => (wells[0], positions[j]));
      var rest := KeyOrder(wells[1..], positions);
      assert forall k :: k in row <==> k.0 == wells[0] && k.1 in positions by {
        forall k: Key | k.0 == wells[0] && k.1 in positions
          ensures k in row
        {
          var j :| 0 <= j < |positions| && positions[j] == k.1;
          assert row[j] == k;
        }
      }
      assert forall w :: w in wells <==> w == wells[0] || w in wells[1..];
      row + rest
  }

  /** "{w}-{n}-{rest}" determines `w` and `n`, whatever `w` holds: the
      number's digits contain no '-', so the last '-' before "-{rest}" is the
      one after `w`. */
  lemma NumberedNameInjective(v: string, m: nat, w: string, n: nat, rest: string)
    ensures v + "-" + NatToString(m) + "-" + rest == w + "-" + NatToString(n) + "-" + rest ==> v == w && m == n
  {
    var sm, sn := NatToString(m), NatToString(n);
    if v + "-" + sm + "-" + rest == w + "-" + sn + "-" + rest {
      assert '-' !in sm && '-' !in sn by {
        assert forall i :: 0 <= i < |sm| ==> sm[i] != '-';
        assert forall i :: 0 <= i < |sn| ==> sn[i] != '-';
      }
      assert v + "-" + sm + "-" + rest == (v + ['-'] + sm) + ("-" + rest);
      assert w + "-" + sn + "-" + rest == (w + ['-'] + sn) + ("-" + rest);
      CommonSuffix(v + ['-'] + sm, w + ['-'] + sn, "-" + rest);
      LastField(v, sm, w, sn, '-');
      FormatInjective(m, n);
    }
  }

  /** Distinct pairs are written to distinct files. */
  lemma StackNameInjective(cfg: Config, a: Key, b: Key)
    ensures StackName(cfg, a.0, a.1) == StackName(cfg, b.0, b.1) ==> a == b
  {
    var rest := cfg.outputChannel + "_stack.tif";
    assert StackName(cfg, a.0, a.1) == a.0 + "-" + NatToString(a.1) + "-" + rest;
    assert StackName(cfg, b.0, b.1) == b.0 + "-" + NatToString(b.1) + "-" + rest;
    NumberedNameInjective(a.0, a.1, b.0, b.1, rest);
  }

  /** The names of the stacks written for the pairs of `keys` that have records. */
  function WrittenNames(cfg: Config, records: map<Key, seq<Record>>, keys: set<Key>): set<string>
    requires keys <= records.Keys
  {
    set k | k in keys && records[k] != [] :: StackName(cfg, k.0, k.1)
  }

  /** The pages written for the pairs of `done` that have records. */
  predicate PagesWritten(cfg: Config, records: map<Key, seq<Record>>, done: set<Key>, stacks: map<string, seq<string>>)
    requires done <= records.Keys
  {
    forall k :: k in done && records[k] != [] ==>
      StackName(cfg, k.0, k.1) in stacks && stacks[StackName(cfg, k.0, k.1)] == StackPages(records[k])
  }

  lemma WrittenNamesAdd(cfg: Config, records: map<Key, seq<Record>>, keys: set<Key>, key: Key)
    requires keys <= records.Keys && key in records
    ensures WrittenNames(cfg, records, keys + {key})
         == WrittenNames(cfg, records, keys) + (if records[key] != [] then {StackName(cfg, key.0, key.1)} else {})
  {
  }

  /** Writing the stack of one more pair leaves the stacks of the pairs
      already visited as they were: distinct pairs have distinct stack names. */
  lemma PagesWrittenStep(cfg: Config, records: map<Key, seq<Record>>, done: set<Key>,
                         stacks: map<string, seq<string>>, key: Key)
    requires done <= records.Keys && key in records && records[key] != []
    requires PagesWritten(cfg, records, done, stacks)
    ensures PagesWritten(cfg, records, done + {key}, stacks[StackName(cfg, key.0, key.1) := StackPages(records[key])])
  {
    forall k | k in done
      ensures StackName(cfg, k.0, k.1) == StackName(cfg, key.0, key.1) ==> k == key
    {
      StackNameInjective(cfg, k, key);
    }
  }

  /** The write loop: each pair with records gets its stack, one page per
      record in timestamp order; a pair without records is skipped. */
  method WriteStacks(cfg: Config, records: map<Key, seq<Record>>)
    returns (stacks: map<string, seq<string>>)
    requires records.Keys == KeySet(cfg)
    ensures stacks.Keys == WrittenNames(cfg, records, KeySet(cfg))
    ensures forall k :: k in records && records[k] != [] ==>
              stacks[StackName(cfg, k.0, k.1)] == StackPages(records[k])
  {
    var order := KeyOrder(cfg.wells, cfg.positions);
    stacks := map[];
    ghost var done: set<Key> := {};
    for i := 0 to |order|
      invariant done <= records.Keys
      invariant forall k :: k in done <==> k in order[..i]
      invariant stacks.Keys == WrittenNames(cfg, records, done)
      invariant PagesWritten(cfg, records, done, stacks)
    {
      var key := order[i];
      assert order[..i + 1] == order[..i] + [key];
      assert key in records by {
        InKeySet(cfg, key.0, key.1);
      }
      WrittenNamesAdd(cfg, records, done, key);
      if records[key] != [] {
        PagesWrittenStep(cfg, records, done, stacks, key);
        stacks := stacks[StackName(cfg, key.0, key.1) := StackPages(records[key])];
      }
      done := done + {key};
    }
    assert order[..|order|] == order;
    forall k | k in KeySet(cfg)
      ensures k in done
    {
      KeySetMember(cfg, k);
    }
  }

  // ------------------------------------------------------- the whole script

  /** The record list the scan builds for a pair. */
  function FoundRecords(cfg: Config, listing: seq<Node>, basePath: string, k: Key): seq<Record> {
    RecordsFor(ScanHits(cfg, listing, basePath), k)
  }

  /** The script end to end: scan, then write. One stack per pair with
      records, named after the pair, holding that pair's files in stable
      timestamp order. */
  method AssembleStacks(cfg: Config, listing: seq<Node>, basePath: string)
    returns (stacks: map<string, seq<string>>)
    ensures stacks.Keys == set k | k in KeySet(cfg) && FoundRecords(cfg, listing, basePath, k) != [] :: StackName(cfg, k.0, k.1)
    ensures forall k :: k in KeySet(cfg) && FoundRecords(cfg, listing, basePath, k) != [] ==>
              stacks[StackName(cfg, k.0, k.1)] == StackPages(FoundRecords(cfg, listing, basePath, k))
  {
    var records := CollectRecords(cfg, listing, basePath);
    stacks := WriteStacks(cfg, records);
    assert forall k :: k in KeySet(cfg) ==> records[k] == FoundRecords(cfg, listing, basePath, k);
  }

  /** Every page of the stack of pair `k` is that pair's own input file,
      stamped with a valid date and time; the pages are in non-decreasing
      timestamp order, and there is one page per record found. */
  lemma StackContents(cfg: Config, listing: seq<Node>, basePath: string, k: Key)
    ensures var found := FoundRecords(cfg, listing, basePath, k);
            var sorted := SortByTime(found);
            && |StackPages(found)| == |found|
            && SortedByTime(sorted)
            && forall i :: 0 <= i < |sorted| ==>
                 ValidDateTime(sorted[i].time) && EndsWith(StackPages(found)[i], "/" + InputName(cfg, k.0, k.1))
  {
    var hits := ScanHits(cfg, listing, basePath);
    var found := RecordsFor(hits, k);
    var sorted := SortByTime(found);
    ScanHitsOk(cfg, listing, basePath);
    RecordsForHits(hits, k);
    SortedSortByTime(found);
    SortPermutes(found);
    forall i | 0 <= i < |sorted|
      ensures ValidDateTime(sorted[i].time) && EndsWith(StackPages(found)[i], "/" + InputName(cfg, k.0, k.1))
    {
      assert sorted[i] in multiset(found);
      assert Hit(k, sorted[i]) in hits;
    }
  }
}

=== FILE: stats.dfy ===
/** numpy's mean and variance over exact reals: `np.mean(xs)` and
    `np.var(xs, ddof=d)`, with the extremes they are bounded by. */
module Stats {

  function Sum(xs: seq<real>): real {
    if xs == [] then 0.0 else Sum(xs[..|xs| - 1]) + xs[|xs| - 1]
  }

  /** `np.mean(xs)`. */
  function Mean(xs: seq<real>): real
    requires |xs| > 0
  {
    Sum(xs) / |xs| as real
  }

  function SquaredDeviations(xs: seq<real>, m: real): real {
    if xs == [] then 0.0
    else SquaredDeviations(xs[..|xs| - 1], m) + (xs[|xs| - 1] - m) * (xs[|xs| - 1] - m)
  }

  /** `np.var(xs, ddof=ddof)`: squared deviations from the mean over `n - ddof`. */
  function Variance(xs: seq<real>, ddof: nat): real
    requires |xs| > ddof
  {
    SquaredDeviations(xs, Mean(xs)) / (|xs| - ddof) as real
  }

  function Min(xs: seq<real>): (m: real)
    requires |xs| > 0
    ensures m in xs
    ensures forall i :: 0 <= i < |xs| ==> m <= xs[i]
  {
    if |xs| == 1 then xs[0]
    else
      var p := Min(xs[..|xs| - 1]);
      assert forall i :: 0 <= i < |xs| - 1 ==> xs[..|xs| - 1][i] == xs[i];
      if xs[|xs| - 1] < p then xs[|xs| - 1] else p
  }

  function Max(xs: seq<real>): (m: real)
    requires |xs| > 0
    ensures m in xs
    ensures forall i :: 0 <= i < |xs| ==> xs[i] <= m
  {
    if |xs| == 1 then xs[0]
    else
      var p := Max(xs[..|xs| - 1]);
      assert forall i :: 0 <= i < |xs| - 1 ==> xs[..|xs| - 1][i] == xs[i];
      if xs[|xs| - 1] > p then xs[|xs| - 1] else p
  }

  /** Counts are integers; the statistics are taken over them as reals. */
  function ToReals(counts: seq<nat>): (xs: seq<real>)
    ensures |xs| == |counts|
    ensures forall i :: 0 <= i < |xs| ==> xs[i] == counts[i] as real
  {
    seq(|counts|, i requires 0 <= i < |counts| => counts[i] as real)
  }

  lemma {:induction false} SumBounds(xs: seq<real>, lo: real, hi: real)
    requires forall i :: 0 <= i < |xs| ==> lo <= xs[i] <= hi
    ensures lo * |xs| as real <= Sum(xs) <= hi * |xs| as real
  {
    if xs != [] {
      var p := xs[..|xs| - 1];
      assert forall i :: 0 <= i < |p| ==> p[i] == xs[i];
      SumBounds(p, lo, hi);
      assert lo * |xs| as real == lo * |p| as real + lo;
      assert hi * |xs| as real == hi * |p| as real + hi;
    }
  }

  lemma DivideBounds(a: real, lo: real, hi: real, n: real)
    requires n > 0.0 && lo * n <= a <= hi * n
    ensures lo <= a / n <= hi
  {
    assert a / n * n == a;
  }

  /** A mean lies between the smallest and the largest value averaged. */
  lemma MeanBounds(xs: seq<real>)
    requires |xs| > 0
    ensures Min(xs) <= Mean(xs) <= Max(xs)
  {
    MeanBetween(xs, Min(xs), Max(xs));
  }

  lemma MeanBetween(xs: seq<real>, lo: real, hi: real)
    requires |xs| > 0
    requires forall i :: 0 <= i < |xs| ==> lo <= xs[i] <= hi
    ensures lo <= Mean(xs) <= hi
  {
    SumBounds(xs, lo, hi);
    DivideBounds(Sum(xs), lo, hi, |xs| as real);
  }

  lemma {:induction false} SquaredDeviationsNonNegative(xs: seq<real>, m: real)
    ensures SquaredDeviations(xs, m) >= 0.0
  {
    if xs != [] {
      SquaredDeviationsNonNegative(xs[..|xs| - 1], m);
      var d := xs[|xs| - 1] - m;
      if d < 0.0 {
        assert d * d == (-d) * (-d);
      }
    }
  }

  /** A variance, with any divisor numpy accepts, is never negative. */
  lemma VarianceNonNegative(xs: seq<real>, ddof: nat)
    requires |xs| > ddof
    ensures Variance(xs, ddof) >= 0.0
  {
    SquaredDeviationsNonNegative(xs, Mean(xs));
  }

  /** The mean of one value is that value, and its population variance is 0. */
  lemma SingleValue(x: real)
    ensures Mean([x]) == x
    ensures Variance([x], 0) == 0.0
  {
    assert [x][..0] == [];
    assert Sum([x]) == x;
    assert SquaredDeviations([x], x) == 0.0;
  }
}

=== FILE: text.dfy ===
/** The string operations the scripts use: `str(n)` and `int(s)` on decimal
    digits, `str.isdigit()`, `str.split(sep)`, Python sequence indexing and
    `os.path.basename`. Only ASCII digits are digits here. */
module Text {
  import opened Wrappers

  predicate IsDigit(c: char) {
    '0' <= c <= '9'
  }

  predicate AllDigits(s: string) {
    forall i :: 0 <= i < |s| ==> IsDigit(s[i])
  }

  /** `s.isdigit()`: the empty string is not a number. */
  predicate IsDigits(s: string) {
    |s| > 0 && AllDigits(s)
  }

  function DigitChar(d: nat): (c: char)
    requires d < 10
    ensures IsDigit(c) && c as int - '0' as int == d
  {
    ('0' as int + d) as char
  }

  function DigitValue(c: char): (d: nat)
    requires IsDigit(c)
    ensures d < 10
  {
    c as int - '0' as int
  }

  /** `str(n)` (or `f"{n}"`) for a non-negative integer: its decimal digits,
      with no leading zero. */
  function NatToString(n: nat): (s: string)
    ensures IsDigits(s)
    ensures |s| == 1 <==> n < 10
    decreases n
  {
    if n < 10 then [DigitChar(n)] else NatToString(n / 10) + [DigitChar(n % 10)]
  }

  /** `int(s)` for a string of ASCII digits; leading zeros are allowed. */
  function DigitsValue(s: string): nat
    requires AllDigits(s)
  {
    if s == [] then 0 else 10 * DigitsValue(s[..|s| - 1]) + DigitValue(s[|s| - 1])
  }

  /** `int(s)` of a two-digit string. */
  lemma TwoDigitsValue(s: string)
    requires |s| == 2 && AllDigits(s)
    ensures DigitsValue(s) == 10 * DigitValue(s[0]) + DigitValue(s[1])
  {
    assert s[..1][..0] == [];
    assert DigitsValue(s[..1]) == DigitValue(s[0]);
  }

  /** `int(str(n)) == n`. */
  lemma {:induction false} ParseFormatted(n: nat)
    ensures DigitsValue(NatToString(n)) == n
    decreases n
  {
    if n >= 10 {
      var s := NatToString(n);
      ParseFormatted(n / 10);
      assert s[..|s| - 1] == NatToString(n / 10);
    }
  }

  /** Distinct numbers are formatted differently. */
  lemma FormatInjective(m: nat, n: nat)
    ensures NatToString(m) == NatToString(n) ==> m == n
  {
    if NatToString(m) == NatToString(n) {
      ParseFormatted(m);
      ParseFormatted(n);
    }
  }

  /** Index of the first occurrence of `c` in `s`, or `|s|` when there is none. */
  function IndexOf(s: string, c: char): (i: nat)
    ensures i <= |s|
    ensures i < |s| ==> s[i] == c
    ensures forall j :: 0 <= j < i ==> s[j] != c
  {
    if s == [] then 0 else if s[0] == c then 0 else 1 + IndexOf(s[1..], c)
  }

  /** `s.split(sep)` for a one-character separator: never empty, and
      `"".split("_") == [""]`. */
  function Split(s: string, sep: char): (parts: seq<string>)
    ensures |parts| >= 1
    ensures forall k :: 0 <= k < |parts| ==> sep !in parts[k]
    decreases |s|
  {
    var i := IndexOf(s, sep);
    if i == |s| then [s] else [s[..i]] + Split(s[i + 1..], sep)
  }

  /** A character absent from `s` is absent from every part of its split. */
  lemma {:induction false} SplitPartsWithout(s: string, sep: char, c: char)
    requires c !in s
    ensures forall k :: 0 <= k < |Split(s, sep)| ==> c !in Split(s, sep)[k]
    decreases |s|
  {
    var i := IndexOf(s, sep);
    if i < |s| {
      var rest := s[i + 1..];
      assert forall j :: 0 <= j < |rest| ==> rest[j] in s;
      SplitPartsWithout(s[i + 1..], sep, c);
    }
  }

  /** `sep.join(parts)`. */
  function Join(parts: seq<string>, sep: char): string
    requires |parts| >= 1
  {
    if |parts| == 1 then parts[0] else parts[0] + [sep] + Join(parts[1..], sep)
  }

  /** Splitting loses nothing: joining the parts gives the string back. */
  lemma {:induction false} JoinSplit(s: string, sep: char)
    ensures Join(Split(s, sep), sep) == s
    decreases |s|
  {
    var i := IndexOf(s, sep);
    if i < |s| {
      var rest := Split(s[i + 1..], sep);
      var parts := Split(s, sep);
      assert parts == [s[..i]] + rest;
      assert parts[1..] == rest;
      JoinSplit(s[i + 1..], sep);
      calc {
        Join(parts, sep);
        s[..i] + [sep] + Join(rest, sep);
        s[..i] + [sep] + s[i + 1..];
        s;
      }
    }
  }

  lemma SplitAtFirst(a: string, sep: char, rest: string)
    requires sep !in a
    ensures Split(a + [sep] + rest, sep) == [a] + Split(rest, sep)
  {
    var s := a + [sep] + rest;
    assert s[|a|] == sep;
    assert forall j :: 0 <= j < |a| ==> s[j] == a[j];
    var i := IndexOf(s, sep);
    assert s[..i] == a;
    assert s[i + 1..] == rest;
  }

  /** Parts free of the separator are recovered by splitting their join. */
  lemma {:induction false} SplitJoin(parts: seq<string>, sep: char)
    requires |parts| >= 1
    requires forall k :: 0 <= k < |parts| ==> sep !in parts[k]
    ensures Split(Join(parts, sep), sep) == parts
  {
    if |parts| == 1 {
      assert IndexOf(parts[0], sep) == |parts[0]|;
    } else {
      SplitJoin(parts[1..], sep);
      SplitAtFirst(parts[0], sep, Join(parts[1..], sep));
    }
  }

  /** `s.endswith(suffix)`. */
  predicate EndsWith(s: string, suffix: string) {
    |suffix| <= |s| && s[|s| - |suffix|..] == suffix
  }

  /** Python's `s[i]`, negative indices counting from the end; `None` is the
      IndexError. */
  function PyIndex<T>(s: seq<T>, i: int): (r: Option<T>)
    ensures r.Some? <==> -|s| <= i < |s|
    ensures 0 <= i < |s| ==> r == Some(s[i])
    ensures -|s| <= i < 0 ==> r == Some(s[|s| + i])
  {
    if 0 <= i < |s| then Some(s[i]) else if -|s| <= i < 0 then Some(s[|s| + i]) else None
  }

  /** `os.path.basename(path)`: what follows the last '/'. */
  function Basename(path: string): (name: string)
    ensures '/' !in name
  {
    var parts := Split(path, '/');
    parts[|parts| - 1]
  }

  /** Strings that end alike are equal when what precedes the common end is. */
  lemma CommonSuffix(a: string, b: string, rest: string)
    requires a + rest == b + rest
    ensures a == b
  {
    assert a == (a + rest)[..|a|];
    assert b == (b + rest)[..|b|];
  }

  /** The last separator of "{x}{sep}{s}" is the one before `s` when `s`
      holds no separator, so both parts are recovered. */
  lemma LastField(x1: string, s1: string, x2: string, s2: string, sep: char)
    requires sep !in s1 && sep !in s2
    requires x1 + [sep] + s1 == x2 + [sep] + s2
    ensures x1 == x2 && s1 == s2
  {
    if |s1| < |s2| {
      SeparatorInLongerField(x1, s1, x2, s2, sep);
      assert false;
    }
    if |s2| < |s1| {
      SeparatorInLongerField(x2, s2, x1, s1, sep);
      assert false;
    }
    var t := x1 + [sep] + s1;
    assert s1 == t[|x1| + 1..];
    assert x1 == t[..|x1|];
  }

  /** When the field after the separator is longer on one side, the other
      side's separator falls inside it. */
  lemma SeparatorInLongerField(x1: string, s1: string, x2: string, s2: string, sep: char)
    requires x1 + [sep] + s1 == x2 + [sep] + s2
    requires |s1| < |s2|
    ensures s2[|s2| - |s1| - 1] == sep
  {
    var t := x1 + [sep] + s1;
    assert t[|x1|] == sep;
  }

  /** `os.path.basename(os.path.join(dir, name)) == name`. */
  lemma BasenameOfJoin(dir: string, name: string)
    requires '/' !in name
    ensures Basename(dir + "/" + name) == name
  {
    LastPartAfterSeparator(dir, '/', name);
    assert IndexOf(name, '/') == |name|;
  }

  lemma {:induction false} LastPartAfterSeparator(a: string, sep: char, b: string)
    ensures var p := Split(a + [sep] + b, sep); var q := Split(b, sep);
            p[|p| - 1] == q[|q| - 1]
    decreases |a|
  {
    var s := a + [sep] + b;
    var i := IndexOf(s, sep);
    var p := Split(s, sep);
    var q := Split(s[i + 1..], sep);
    assert s[|a|] == sep;
    assert i <= |a|;
    assert p == [s[..i]] + q;
    assert p[|p| - 1] == q[|q| - 1];
    if i < |a| {
      assert s[i + 1..] == a[i + 1..] + [sep] + b;
      LastPartAfterSeparator(a[i + 1..], sep, b);
    } else {
      assert s[i + 1..] == b;
    }
  }
}

=== FILE: well_stats.dfy ===
/** `calculate_puits_stats`: for every well ("puits") and every frame 0..160,
    the mean and variance of the counts of the well's image groups that hold
    that frame. The aggregate scripts use the sample variance (divisor n - 1,
    and 0.0 for a single count); the single-puits script uses the population
    variance (divisor n). Frames no group holds are dropped from the series.
    A group missing from the file raises KeyError. */
module WellStats {
  import opened Wrappers
  import opened Text
  import opened Stats
  import opened ResultLayout
  import opened CellCounts

  datatype VarianceRule =
    | SampleUnlessSingle  // np.var(counts, ddof=1) if len(counts) > 1 else 0.0
    | Population          // np.var(counts)

  /** The 'mean_counts' and 'variances' lists of one well. */
  datatype WellSeries = WellSeries(meanCounts: seq<real>, variances: seq<real>)

  /** Every group of the list is a group of the file. */
  predicate Known(cellCounts: map<string, FrameCounts>, groups: seq<string>) {
    forall k :: 0 <= k < |groups| ==> groups[k] in cellCounts
  }

  /** The position of the first group of the list that the file lacks, or
      the list's length when there is none: the lookup that raises KeyError. */
  function UnknownIndex(cellCounts: map<string, FrameCounts>, groups: seq<string>): (i: nat)
    ensures i <= |groups|
    ensures i < |groups| ==> groups[i] !in cellCounts
    ensures forall j :: 0 <= j < i ==> groups[j] in cellCounts
  {
    if groups == [] then 0
    else if groups[0] !in cellCounts then 0
    else 1 + UnknownIndex(cellCounts, groups[1..])
  }

  /** The counts of `frame` in the groups that hold it, in group order. */
  function Gathered(cellCounts: map<string, FrameCounts>, groups: seq<string>, frame: nat): (counts: seq<nat>)
    requires Known(cellCounts, groups)
    ensures |counts| <= |groups|
    ensures counts == [] <==> forall k :: 0 <= k < |groups| ==> frame !in cellCounts[groups[k]]
  {
    if groups == [] then []
    else
      var g := groups[|groups| - 1];
      var before := Gathered(cellCounts, groups[..|groups| - 1], frame);
      assert forall k :: 0 <= k < |groups| - 1 ==> groups[..|groups| - 1][k] == groups[k];
      if frame in cellCounts[g] then before + [cellCounts[g][frame]] else before
  }

  /** Every gathered count is the count of that frame in one of the groups. */
  lemma {:induction false} GatheredFromGroups(cellCounts: map<string, FrameCounts>, groups: seq<string>, frame: nat)
    requires Known(cellCounts, groups)
    ensures forall c :: c in Gathered(cellCounts, groups, frame) ==>
              exists k :: 0 <= k < |groups| && frame in cellCounts[groups[k]] && c == cellCounts[groups[k]][frame]
  {
    if groups != [] {
      var init := groups[..|groups| - 1];
      assert forall k :: 0 <= k < |init| ==> init[k] == groups[k];
      GatheredFromGroups(cellCounts, init, frame);
    }
  }

  /** The mean and the variance of one frame's counts: the variance is never
      negative, and one count is its own mean with variance 0 under either
      rule. */
  function FrameStat(counts: seq<nat>, rule: VarianceRule): (r: (real, real))
    requires |counts| > 0
    ensures r.1 >= 0.0
    ensures |counts| == 1 ==> r == (counts[0] as real, 0.0)
  {
    var xs := ToReals(counts);
    VarianceNonNegative(xs, 0);
    OneValue(xs);
    var variance := match rule
      case SampleUnlessSingle =>
        if |xs| > 1 then VarianceNonNegative(xs, 1); Variance(xs, 1) else 0.0
      case Population => Variance(xs, 0);
    (Mean(xs), variance)
  }

  /** The mean of a frame lies between its smallest and its largest count. */
  lemma FrameStatBounds(counts: seq<nat>, rule: VarianceRule)
    requires |counts| > 0
    ensures Min(ToReals(counts)) <= FrameStat(counts, rule).0 <= Max(ToReals(counts))
  {
    MeanBounds(ToReals(counts));
  }

  lemma OneValue(xs: seq<real>)
    ensures |xs| == 1 ==> Mean(xs) == xs[0] && Variance(xs, 0) == 0.0
  {
    if |xs| == 1 {
      assert xs == [xs[0]];
      SingleValue(xs[0]);
    }
  }

  /** The frames below `n` that at least one group holds, in increasing order. */
  function CountedFrames(cellCounts: map<string, FrameCounts>, groups: seq<string>, n: nat): (frames: seq<nat>)
    requires Known(cellCounts, groups)
    ensures forall i :: 0 <= i < |frames| ==> frames[i] < n
  {
    if n == 0 then []
    else
      var below := CountedFrames(cellCounts, groups, n - 1);
      if Gathered(cellCounts, groups, n - 1) != [] then below + [n - 1] else below
  }

  predicate Increasing(s: seq<nat>) {
    forall i, j :: 0 <= i < j < |s| ==> s[i] < s[j]
  }

  /** The frames are listed in increasing order. */
  lemma {:induction false} CountedFramesIncreasing(cellCounts: map<string, FrameCounts>, groups: seq<string>, n: nat)
    requires Known(cellCounts, groups)
    ensures Increasing(CountedFrames(cellCounts, groups, n))
  {
    if n > 0 {
      CountedFramesIncreasing(cellCounts, groups, n - 1);
      var below := CountedFrames(cellCounts, groups, n - 1);
      if Gathered(cellCounts, groups, n - 1) != [] {
        var frames := below + [n - 1];
        assert CountedFrames(cellCounts, groups, n) == frames;
        forall i, j | 0 <= i < j < |frames|
          ensures frames[i] < frames[j]
        {
          assert frames[i] == below[i];
          if j < |below| {
            assert frames[j] == below[j];
          }
        }
      } else {
        assert CountedFrames(cellCounts, groups, n) == below;
      }
    }
  }

  /** A frame is listed exactly when it is below `n` and some group holds it. */
  lemma {:induction false} CountedFramesExactly(cellCounts: map<string, FrameCounts>, groups: seq<string>, n: nat)
    requires Known(cellCounts, groups)
    ensures forall f: nat :: f in CountedFrames(cellCounts, groups, n) <==> f < n && Gathered(cellCounts, groups, f) != []
  {
    if n > 0 {
      CountedFramesExactly(cellCounts, groups, n - 1);
    }
  }

  /** The series of one well over the frames below `n`. */
  function SeriesBelow(cellCounts: map<string, FrameCounts>, groups: seq<string>, rule: VarianceRule, n: nat): (s: WellSeries)
    requires Known(cellCounts, groups)
  {
    if n == 0 then WellSeries([], [])
    else SeriesStep(SeriesBelow(cellCounts, groups, rule, n - 1), Gathered(cellCounts, groups, n - 1), rule)
  }

  /** One frame of the loop: its statistics are appended when it has counts. */
  function SeriesStep(below: WellSeries, counts: seq<nat>, rule: VarianceRule): WellSeries {
    if counts != [] then
      var st := FrameStat(counts, rule);
      WellSeries(below.meanCounts + [st.0], below.variances + [st.1])
    else below
  }

  /** The series has one entry per frame of `frames`, the last entry being
      the statistics of the last frame, and so on back to the first. */
  predicate Describes(s: WellSeries, frames: seq<nat>, cellCounts: map<string, FrameCounts>, groups: seq<string>, rule: VarianceRule)
    requires Known(cellCounts, groups)
    decreases |frames|
  {
    if frames == [] then s.meanCounts == [] && s.variances == []
    else
      var last := |frames| - 1;
      var counts := Gathered(cellCounts, groups, frames[last]);
      && |s.meanCounts| == |frames| && |s.variances| == |frames|
      && counts != []
      && (s.meanCounts[last], s.variances[last]) == FrameStat(counts, rule)
      && Describes(WellSeries(s.meanCounts[..last], s.variances[..last]), frames[..last], cellCounts, groups, rule)
  }

  lemma DescribesStep(s: WellSeries, frames: seq<nat>, cellCounts: map<string, FrameCounts>, groups: seq<string>,
                      rule: VarianceRule, f: nat)
    requires Known(cellCounts, groups)
    requires Describes(s, frames, cellCounts, groups, rule)
    requires Gathered(cellCounts, groups, f) != []
    ensures Describes(SeriesStep(s, Gathered(cellCounts, groups, f), rule), frames + [f], cellCounts, groups, rule)
  {
    var t := SeriesStep(s, Gathered(cellCounts, groups, f), rule);
    assert (frames + [f])[..|frames|] == frames;
    assert t.meanCounts[..|frames|] == s.meanCounts && t.variances[..|frames|] == s.variances;
  }

  lemma {:induction false} SeriesDescribed(cellCounts: map<string, FrameCounts>, groups: seq<string>, rule: VarianceRule, n: nat)
    requires Known(cellCounts, groups)
    ensures Describes(SeriesBelow(cellCounts, groups, rule, n), CountedFrames(cellCounts, groups, n), cellCounts, groups, rule)
  {
    if n > 0 {
      SeriesDescribed(cellCounts, groups, rule, n - 1);
      var below, frames := SeriesBelow(cellCounts, groups, rule, n - 1), CountedFrames(cellCounts, groups, n - 1);
      if Gathered(cellCounts, groups, n - 1) != [] {
        DescribesStep(below, frames, cellCounts, groups, rule, n - 1);
        assert CountedFrames(cellCounts, groups, n) == frames + [n - 1];
      } else {
        assert CountedFrames(cellCounts, groups, n) == frames;
      }
    }
  }

  lemma {:induction false} DescribesEntry(s: WellSeries, frames: seq<nat>, cellCounts: map<string, FrameCounts>, groups: seq<string>,
                                          rule: VarianceRule, i: nat)
    requires Known(cellCounts, groups)
    requires Describes(s, frames, cellCounts, groups, rule) && i < |frames|
    ensures |s.meanCounts| == |frames| && |s.variances| == |frames|
    ensures Gathered(cellCounts, groups, frames[i]) != []
    ensures (s.meanCounts[i], s.variances[i]) == FrameStat(Gathered(cellCounts, groups, frames[i]), rule)
    decreases |frames|
  {
    var last := |frames| - 1;
    if i < last {
      var init := WellSeries(s.meanCounts[..last], s.variances[..last]);
      DescribesEntry(init, frames[..last], cellCounts, groups, rule, i);
      assert frames[..last][i] == frames[i];
      assert init.meanCounts[i] == s.meanCounts[i] && init.variances[i] == s.variances[i];
    }
  }

  /** Entry i of both lists describes the i-th frame that has counts: the
      lists have one entry per such frame, no more, and so equal lengths. */
  lemma SeriesAt(cellCounts: map<string, FrameCounts>, groups: seq<string>, rule: VarianceRule, n: nat)
    requires Known(cellCounts, groups)
    ensures |SeriesBelow(cellCounts, groups, rule, n).meanCounts| == |CountedFrames(cellCounts, groups, n)|
    ensures |SeriesBelow(cellCounts, groups, rule, n).variances| == |CountedFrames(cellCounts, groups, n)|
    ensures forall i :: 0 <= i < |CountedFrames(cellCounts, groups, n)| ==>
              var s := SeriesBelow(cellCounts, groups, rule, n);
              var counts := Gathered(cellCounts, groups, CountedFrames(cellCounts, groups, n)[i]);
              counts != [] && (s.meanCounts[i], s.variances[i]) == FrameStat(counts, rule)
  {
    var s, frames := SeriesBelow(cellCounts, groups, rule, n), CountedFrames(cellCounts, groups, n);
    SeriesDescribed(cellCounts, groups, rule, n);
    if frames == [] {
      assert s.meanCounts == [] && s.variances == [];
    } else {
      DescribesEntry(s, frames, cellCounts, groups, rule, 0);
    }
    forall i | 0 <= i < |frames|
      ensures Gathered(cellCounts, groups, frames[i]) != []
      ensures (s.meanCounts[i], s.variances[i]) == FrameStat(Gathered(cellCounts, groups, frames[i]), rule)
    {
      DescribesEntry(s, frames, cellCounts, groups, rule, i);
    }
  }

  /** Each mean lies between the smallest and the largest count of its frame,
      and each variance is non-negative. */
  lemma SeriesBounds(cellCounts: map<string, FrameCounts>, groups: seq<string>, rule: VarianceRule, n: nat)
    requires Known(cellCounts, groups)
    ensures |SeriesBelow(cellCounts, groups, rule, n).meanCounts| == |CountedFrames(cellCounts, groups, n)|
    ensures forall i :: 0 <= i < |CountedFrames(cellCounts, groups, n)| ==>
              var xs := ToReals(Gathered(cellCounts, groups, CountedFrames(cellCounts, groups, n)[i]));
              |xs| > 0 && Min(xs) <= SeriesBelow(cellCounts, groups, rule, n).meanCounts[i] <= Max(xs)
    ensures forall i :: 0 <= i < |SeriesBelow(cellCounts, groups, rule, n).variances| ==>
              SeriesBelow(cellCounts, groups, rule, n).variances[i] >= 0.0
  {
    SeriesAt(cellCounts, groups, rule, n);
    var frames := CountedFrames(cellCounts, groups, n);
    forall i | 0 <= i < |frames|
      ensures Min(ToReals(Gathered(cellCounts, groups, frames[i]))) <= SeriesBelow(cellCounts, groups, rule, n).meanCounts[i]
                <= Max(ToReals(Gathered(cellCounts, groups, frames[i])))
    {
      FrameStatBounds(Gathered(cellCounts, groups, frames[i]), rule);
    }
  }

  /** With a single group, every frame it holds is kept, its mean is its
      count and its variance is 0, whichever rule is used. */
  lemma SingleGroupSeries(cellCounts: map<string, FrameCounts>, g: string, rule: VarianceRule, n: nat)
    requires g in cellCounts
    ensures forall f: nat :: f in CountedFrames(cellCounts, [g], n) <==> f < n && f in cellCounts[g]
    ensures |SeriesBelow(cellCounts, [g], rule, n).meanCounts| == |CountedFrames(cellCounts, [g], n)|
    ensures |SeriesBelow(cellCounts, [g], rule, n).variances| == |CountedFrames(cellCounts, [g], n)|
    ensures forall i :: 0 <= i < |CountedFrames(cellCounts, [g], n)| ==>
              var f := CountedFrames(cellCounts, [g], n)[i];
              f in cellCounts[g] &&
              SeriesBelow(cellCounts, [g], rule, n).meanCounts[i] == cellCounts[g][f] as real &&
              SeriesBelow(cellCounts, [g], rule, n).variances[i] == 0.0
  {
    SeriesAt(cellCounts, [g], rule, n);
    CountedFramesExactly(cellCounts, [g], n);
    var frames := CountedFrames(cellCounts, [g], n);
    forall f: nat
      ensures Gathered(cellCounts, [g], f) == if f in cellCounts[g] then [cellCounts[g][f]] else []
    {
      assert [g][..0] == [];
    }
    forall i | 0 <= i < |frames|
      ensures frames[i] in cellCounts[g]
    {
      assert frames[i] in frames;
    }
  }

  /** The loop over the groups for one frame; `Err` is the KeyError of the
      first group the file lacks. */
  method GatherCounts(cellCounts: map<string, FrameCounts>, groups: seq<string>, frame: nat)
    returns (r: Result<seq<nat>, string>)
    ensures r.Err? <==> !Known(cellCounts, groups)
    ensures r.Err? ==> r.error == groups[UnknownIndex(cellCounts, groups)]
    ensures r.Ok? ==> r.value == Gathered(cellCounts, groups, frame)
  {
    var counts := [];
    for i := 0 to |groups|
      invariant forall j :: 0 <= j < i ==> groups[j] in cellCounts
      invariant counts == Gathered(cellCounts, groups[..i], frame)
    {
      var g := groups[i];
      if g !in cellCounts {
        return Err(g);
      }
      assert groups[..i + 1][..i] == groups[..i];
      if frame in cellCounts[g] {
        counts := counts + [cellCounts[g][frame]];
      }
    }
    assert groups[..|groups|] == groups;
    return Ok(counts);
  }

  /** The frame loop for one well. A missing group fails at frame 0. */
  method WellSeriesOf(cellCounts: map<string, FrameCounts>, groups: seq<string>, rule: VarianceRule)
    returns (r: Result<WellSeries, string>)
    ensures r.Err? <==> !Known(cellCounts, groups)
    ensures r.Err? ==> r.error == groups[UnknownIndex(cellCounts, groups)]
    ensures r.Ok? ==> r.value == SeriesBelow(cellCounts, groups, rule, LastFrame + 1)
  {
    var means, variances := [], [];
    for frame := 0 to LastFrame + 1
      invariant frame == 0 ==> means == [] && variances == []
      invariant frame > 0 ==> Known(cellCounts, groups)
      invariant frame > 0 ==> WellSeries(means, variances) == SeriesBelow(cellCounts, groups, rule, frame)
    {
      var gathered := GatherCounts(cellCounts, groups, frame);
      if gathered.Err? {
        return Err(gathered.error);
      }
      var counts := gathered.value;
      if counts != [] {
        var st := FrameStat(counts, rule);
        means := means + [st.0];
        variances := variances + [st.1];
      }
    }
    return Ok(WellSeries(means, variances));
  }

  /** The wells of a `puits_groups` dict. */
  function Names(puitsGroups: seq<(string, seq<string>)>): set<string> {
    set i | 0 <= i < |puitsGroups| :: puitsGroups[i].0
  }

  predicate AllKnown(cellCounts: map<string, FrameCounts>, puitsGroups: seq<(string, seq<string>)>) {
    forall i :: 0 <= i < |puitsGroups| ==> Known(cellCounts, puitsGroups[i].1)
  }

  /** The position of the first well one of whose groups the file lacks. */
  function UnknownWell(cellCounts: map<string, FrameCounts>, puitsGroups: seq<(string, seq<string>)>): (i: nat)
    ensures i <= |puitsGroups|
    ensures i < |puitsGroups| ==> !Known(cellCounts, puitsGroups[i].1)
    ensures forall j :: 0 <= j < i ==> Known(cellCounts, puitsGroups[j].1)
  {
    if puitsGroups == [] then 0
    else if !Known(cellCounts, puitsGroups[0].1) then 0
    else 1 + UnknownWell(cellCounts, puitsGroups[1..])
  }

  /** The dict `calculate_puits_stats` returns once every well has been
      processed: the entries are filled in the dict's order. */
  function StatsOf(cellCounts: map<string, FrameCounts>, puitsGroups: seq<(string, seq<string>)>, rule: VarianceRule)
    : map<string, WellSeries>
    requires AllKnown(cellCounts, puitsGroups)
  {
    if puitsGroups == [] then map[]
    else
      var last := puitsGroups[|puitsGroups| - 1];
      StatsOf(cellCounts, puitsGroups[..|puitsGroups| - 1], rule)[last.0 := SeriesBelow(cellCounts, last.1, rule, LastFrame + 1)]
  }

  /** The result has exactly the wells as keys. */
  lemma {:induction false} StatsOfKeys(cellCounts: map<string, FrameCounts>, puitsGroups: seq<(string, seq<string>)>, rule: VarianceRule)
    requires AllKnown(cellCounts, puitsGroups)
    ensures StatsOf(cellCounts, puitsGroups, rule).Keys == Names(puitsGroups)
  {
    if puitsGroups != [] {
      var init := puitsGroups[..|puitsGroups| - 1];
      StatsOfKeys(cellCounts, init, rule);
      assert Names(puitsGroups) == Names(init) + {puitsGroups[|puitsGroups| - 1].0} by {
        forall name | name in Names(puitsGroups)
          ensures name in Names(init) + {puitsGroups[|puitsGroups| - 1].0}
        {
          var i :| 0 <= i < |puitsGroups| && puitsGroups[i].0 == name;
          if i < |init| {
            assert init[i].0 == name;
          }
        }
        forall name | name in Names(init)
          ensures name in Names(puitsGroups)
        {
          var i :| 0 <= i < |init| && init[i].0 == name;
          assert puitsGroups[i].0 == name;
        }
      }
    }
  }

  /** Each well whose name is not repeated later in the dict maps to the
      series of its own groups. */
  lemma {:induction false} StatsOfEntry(cellCounts: map<string, FrameCounts>, puitsGroups: seq<(string, seq<string>)>, rule: VarianceRule, i: nat)
    requires AllKnown(cellCounts, puitsGroups)
    requires i < |puitsGroups|
    requires forall j :: i < j < |puitsGroups| ==> puitsGroups[j].0 != puitsGroups[i].0
    ensures puitsGroups[i].0 in StatsOf(cellCounts, puitsGroups, rule)
    ensures StatsOf(cellCounts, puitsGroups, rule)[puitsGroups[i].0] == SeriesBelow(cellCounts, puitsGroups[i].1, rule, LastFrame + 1)
  {
    var init := puitsGroups[..|puitsGroups| - 1];
    if i < |init| {
      assert init[i] == puitsGroups[i];
      StatsOfEntry(cellCounts, init, rule, i);
    }
  }

  /** `calculate_puits_stats(cell_counts, puits_groups)`: the wells in order,
      stopping at the first KeyError. */
  method CalculatePuitsStats(cellCounts: map<string, FrameCounts>, puitsGroups: seq<(string, seq<string>)>, rule: VarianceRule)
    returns (r: Result<map<string, WellSeries>, string>)
    ensures r.Err? <==> !AllKnown(cellCounts, puitsGroups)
    ensures r.Err? ==> var w := puitsGroups[UnknownWell(cellCounts, puitsGroups)].1;
                       r.error == w[UnknownIndex(cellCounts, w)]
    ensures r.Ok? ==> r.value == StatsOf(cellCounts, puitsGroups, rule)
  {
    var stats := map[];
    for i := 0 to |puitsGroups|
      invariant forall j :: 0 <= j < i ==> Known(cellCounts, puitsGroups[j].1)
      invariant stats == StatsOf(cellCounts, puitsGroups[..i], rule)
    {
      var series := WellSeriesOf(cellCounts, puitsGroups[i].1, rule);
      if series.Err? {
        return Err(series.error);
      }
      assert puitsGroups[..i + 1][..i] == puitsGroups[..i];
      stats := stats[puitsGroups[i].0 := series.value];
    }
    assert puitsGroups[..|puitsGroups|] == puitsGroups;
    return Ok(stats);
  }
}

=== FILE: wrappers.dfy ===
/** Failure-carrying values shared by every module of the model.
    `None` also stands for numpy's NaN wherever the scripts store one. */
module Wrappers {

  datatype Option<+T> = None | Some(value: T)

  datatype Result<+T, +E> = Ok(value: T) | Err(error: E)
}
